=== FILE: README.md ===
# Job tracker core, modelled in Dafny

This project models the logic at the centre of the job tracker. The tracker is a web app with a browser extension. It keeps job applications and networking contacts. The model covers:

- **Name matching** (`src/lib/nameMatching.ts`). A scraped person's name becomes a comparison key: lower-case, credential suffixes stripped, initials stripped, periods dropped, white space collapsed. A list of scraped mutual connections is then merged into a stored list without creating duplicates.
- **The extension's contact endpoints** (`sync-connections`, `lookup-contact`):
  - the request checks, in order;
  - the LinkedIn URL normalisation and username extraction;
  - the "nothing new means no write" branch around the merge;
  - the handling of a missing contact or a database error.
- **The job-page extraction cascade** of the content script: the LinkedIn parser, then Indeed, then the generic parser. The generic parser reads schema.org JobPosting blocks first and falls back to CSS-selector heuristics. The cascade also gates the floating button.
- **The profile script**: the canonical URL, the name and the headline, the four strategies for finding mutual connections, the wait for the modal, and the scroll loop.
- **The dashboard chart aggregation**: month keys, period-key generation, per-period and per-category counts, and the cumulative growth series.
- **Request shaping in two small routes**:
  - the automation contacts endpoint: its API key, its defaults, and turning a comma-separated `mutual_connections` string into a list;
  - the extension's jobs endpoint: its bearer token, its required fields, and the defaults of the inserted row.

A page is an abstract record: host, path, search, href, a map from CSS selector to the matching elements in document order, and the JSON-LD script blocks (`None` for one that does not parse). `querySelector` is the first element of that list. JavaScript values that flow through `||` and truthiness tests are a `Value` datatype with JavaScript's truthiness.

Other abstractions:
- Database calls, `getUser`, URL parsing and `new Date(s)` are function parameters.
- Time-based loops become recursion over sequences of observations.
- Strings are sequences of characters with ASCII case mapping.

The module `KeyedLists` states the list reconciliation once, over any key function. `NameMatching` instantiates it with the name normaliser. `ExtensionApi` holds the URL helpers and the API-key test shared by the two extension endpoints; the two route files carry textually identical copies of those helpers.

## Model

| member | source | states |
|---|---|---|
| NameMatching.FirstToken | src/lib/nameMatching.ts:21-24 | the alternation of credential tokens yields a non-empty token that prefixes the text |
| NameMatching.FirstTokenIsFirstMatch | src/lib/nameMatching.ts:21-24 | no token is found exactly when no token matches with a trailing word boundary; otherwise the result is the first token in list order that matches, and every earlier token fails |
| NameMatching.CredentialMatch | src/lib/nameMatching.ts:21-24 | a credential match at the front of the text (optional comma, white space, token, boundary) has a positive length within the text |
| NameMatching.StripCredentials | src/lib/nameMatching.ts:43 | the global replace of credential suffixes never lengthens the name and introduces no new characters |
| NameMatching.InitialMatch | src/lib/nameMatching.ts:45 | an initial matches only as a letter followed by a period, so a match spans at least two characters |
| NameMatching.StripInitialsFrom | src/lib/nameMatching.ts:45 | removing initials never lengthens the name and introduces no new characters |
| NameMatching.RemovePeriods | src/lib/nameMatching.ts:47 | the result has no period, is no longer than the input, and holds only input characters |
| NameMatching.CollapseWhitespace | src/lib/nameMatching.ts:49 | every white-space character left is a single space, no two spaces are adjacent, and the result is empty only for an empty input |
| NameMatching.Normalize | src/lib/nameMatching.ts:37-51 | every key has no period, no upper-case letter, only single spaces as white space and no space at either end; an empty name gives "" |
| NameMatching.NamesMatch | src/lib/nameMatching.ts:60-62 | two names match exactly when their normalised keys are equal |
| NameMatching.NamesMatchIgnoresCase | src/lib/nameMatching.ts:60-62 | a name matches its own lower-case form |
| NameMatching.NameExistsInArray | src/lib/nameMatching.ts:71-74 | holds exactly when some existing name matches, which is exactly when the name's key is among the existing keys |
| NameMatching.FindNewNames | src/lib/nameMatching.ts:83-90 | keeps exactly the incoming names whose key is non-empty and not an existing key, as a sub-multiset of the input; repeats within the batch are kept |
| NameMatching.FindNewNamesConcat | src/lib/nameMatching.ts:83-90 | filtering a batch in two parts is filtering it whole |
| NameMatching.MergeNames | src/lib/nameMatching.ts:99-124 | merged is existing followed by added; added names have fresh non-empty, pairwise distinct keys; the merged key set gains exactly the incoming non-empty keys; added and alreadyExisted partition the named incoming names, and each keeps their incoming order; added is the first name per key among the names findNewNames reports |
| NameMatching.MergeAddsNewNames | src/lib/nameMatching.ts:99-124 | when no two incoming names share a key, mergeNames adds exactly what findNewNames reports |
| NameMatching.MergeAddsFirstOfNewNames | src/lib/nameMatching.ts:107-117 | in general mergeNames adds, of the names findNewNames reports, the first one for each key |
| NameMatching.MergeTwiceAddsNothing | src/lib/nameMatching.ts:99-124 | merging the same batch into the merged list adds nothing, leaves it unchanged, and reports every named incoming name as existing |
| NameMatching.MergeNothing | src/lib/nameMatching.ts:99-124 | merging an empty batch returns the existing list with nothing added or already existing |
| KeyedLists.FilterNew | src/lib/nameMatching.ts:83-90 | for any key function, the filter keeps exactly the names with a non-empty unknown key, as a sub-multiset of the input |
| KeyedLists.MergeFrom | src/lib/nameMatching.ts:107-117 | the merge loop adds only names with new non-empty keys, pairwise distinct; every name it reports as existing has a key already seen or just added |
| KeyedLists.MergeFromKeys | src/lib/nameMatching.ts:107-117 | the loop learns exactly the non-empty keys of the incoming names |
| KeyedLists.MergeFromPartition | src/lib/nameMatching.ts:107-117 | every incoming name with a non-empty key lands in exactly one of the two lists, with its multiplicity |
| KeyedLists.MergeFromIsFilter | src/lib/nameMatching.ts:107-117 | with pairwise distinct incoming keys the loop adds exactly the filtered names |
| KeyedLists.MergeFromKnown | src/lib/nameMatching.ts:107-117 | when every non-empty incoming key is known, nothing is added and every named incoming name is reported as existing |
| KeyedLists.MergeFromIsFirstPerKey | src/lib/nameMatching.ts:107-117 | the loop keeps, among the names the filter finds new, the first name for each key |
| KeyedLists.MergeFromOrder | src/lib/nameMatching.ts:107-117 | both lists the loop builds are subsequences of the incoming names that have a key, so each keeps the incoming order |
| NameExamples.NormalizeSmithMba | src/lib/nameMatching.ts:1-3 | "John Smith, MBA" normalises to "john smith" |
| NameExamples.NormalizeJohnDSmith | src/lib/nameMatching.ts:44-45 | "John D. Smith" normalises to "john smith" |
| NameExamples.SameJohnSmith | src/lib/nameMatching.ts:60-62 | "John Smith, MBA" and "John D. Smith" are the same person |
| NameExamples.NormalizeJohnDNoPeriod | src/lib/nameMatching.ts:45 | without a period the initial stays: "John D Smith" gives "john d smith" |
| NameExamples.NormalizeDonald | src/lib/nameMatching.ts:21-24 | "Donald" stays "donald": the token "do" is followed by a word character |
| NameExamples.NormalizeAdams | src/lib/nameMatching.ts:21-24 | "Adams" becomes "ada": no leading boundary is needed, so the ending "ms" is stripped |
| NameExamples.NormalizeAmandaDo | src/lib/nameMatching.ts:21-24 | "Amanda Do" becomes "amanda" |
| NameExamples.NotIdempotent | src/lib/nameMatching.ts:37-51 | normalising is not idempotent: "xm.d" gives "xmd", which gives "x" |
| ExtensionApi.NormalizeLinkedInUrl | src/app/api/extension/sync-connections/route.ts:130-152 | the result is lower-case and starts with "http"; if parsing fails it is the input, prefixed with "https://" when it lacks "http", lower-cased; otherwise it is the lower-cased pathname with exactly one trailing '/' removed when present |
| ExtensionApi.ExtractUsername | src/app/api/extension/sync-connections/route.ts:157-160 | non-empty exactly when "linkedin.com/in/" occurs, in any case, followed by a character other than '/' and '?'; then it is the lower-cased maximal run of such characters after the leftmost such match; it never holds an upper-case letter, '/' or '?' |
| ExtensionApi.ExtractUsernameOfMatch | src/app/api/extension/sync-connections/route.ts:157-160 | conversely, the maximal run after the leftmost match is the username |
| ExtensionApi.ExtractUsernameOfProfileUrl | src/app/api/extension/lookup-contact/route.ts:115-118 | for a profile URL with no 'l' before the host, the username is the profile's path segment, lower-cased |
| SyncConnections.Validate | src/app/api/extension/sync-connections/route.ts:18-43 | 401 exactly for a missing or wrong key; then 400 exactly for a readable but falsy linkedin_url, and 400 exactly for a truthy one with a non-array mutual_connections; 500 exactly when the body cannot be read or destructured, or a truthy non-string URL reaches the string helpers; valid exactly for a non-empty URL string with an array, and the valid request carries both |
| SyncConnections.IncomingNames | src/app/api/extension/sync-connections/route.ts:46-80 | the scraped list throws exactly when it holds a truthy non-string; otherwise the names are exactly its strings |
| SyncConnections.IncomingNamesSnoc | src/app/api/extension/sync-connections/route.ts:80 | the list reaches mergeNames in order and with its repeats: an appended string is appended to the names, an appended falsy non-string adds nothing, and an appended truthy non-string throws |
| SyncConnections.Reconcile | src/app/api/extension/sync-connections/route.ts:77-124 | a throwing normaliser is exactly the 500 case, with no write; otherwise the answer is success or an update error, and nothing is written exactly when mergeNames adds nothing; a write is the merged list for the found contact, and fails exactly when the update reports an error; success reports added, already existed and the stored count plus the added count |
| SyncConnections.ReconcileWritesOnlyNewNames | src/app/api/extension/sync-connections/route.ts:83-106 | nothing is written exactly when every non-empty scraped key is stored; a write keeps the stored list as a proper prefix and adds exactly the new keys |
| SyncConnections.NothingAddedIffKnown | src/app/api/extension/sync-connections/route.ts:83-92 | mergeNames adds nothing exactly when every non-empty incoming key is already stored |
| SyncConnections.Sync | src/app/api/extension/sync-connections/route.ts:18-124 | a rejected request gets the validation response and writes nothing; after a valid one, the lookup on the normalised URL and the username decides: a failed lookup is a lookup error, no row is not found, and a found row is reconciled with the scraped names; so 401 and 400 come exactly from the key and body checks |
| SyncConnections.ResyncWritesNothing | src/app/api/extension/sync-connections/route.ts:77-117 | sending the same request again after a successful write writes nothing, adds nothing and reports the same total |
| LookupContact.Lookup | src/app/api/extension/lookup-contact/route.ts:17-82 | 401 exactly for a bad key; 400 exactly for a readable but falsy linkedin_url; 500 exactly for an unreadable body or a truthy non-string URL; with a non-empty URL string the lookup on the normalised URL and the username decides: a database error exactly when it fails other than with "no rows", not found exactly when it finds no row, and otherwise the row's columns with mutual connections defaulting to [] |
| LookupContact.EndpointsRejectAlike | src/app/api/extension/lookup-contact/route.ts:17-35 | the lookup and sync endpoints refuse a bad key and a missing URL alike, and whatever sync accepts, lookup accepts |
| N8nContacts.ValidateApiKey | src/app/api/n8n/contacts/route.ts:5-15 | a request passes only with a non-empty key header |
| N8nContacts.ValidateApiKeyIsApiKeyAccepted | src/app/api/n8n/contacts/route.ts:5-15 | the automation endpoint's key check accepts exactly what the extension endpoints' check accepts |
| N8nContacts.TransformExperience | src/app/api/n8n/contacts/route.ts:19-27 | a null or undefined entry throws; otherwise each column is the entry's truthy field or its fallback: id falls back to the temporary id, company, title and description to "", start_date to startdate and then "", and end_date to enddate and then ""; is_current is kept when defined, and otherwise is iscurrent when truthy and false when not |
| N8nContacts.TransformEducation | src/app/api/n8n/contacts/route.ts:30-36 | a null or undefined entry throws; otherwise each column is the entry's truthy field or its fallback: id falls back to the temporary id, institution, year and notes to "", and degree_and_field to degreeandfield and then "" |
| N8nContacts.TransformExperienceStable | src/app/api/n8n/contacts/route.ts:19-27 | an already shaped experience entry with a boolean or truthy iscurrent comes back unchanged |
| N8nContacts.NullIsCurrentKeptOnce | src/app/api/n8n/contacts/route.ts:25 | is_current null is stored as null, and shaping again turns it into false |
| N8nContacts.TransformEducationStable | src/app/api/n8n/contacts/route.ts:30-36 | an already shaped education entry comes back unchanged |
| N8nContacts.MapEntries | src/app/api/n8n/contacts/route.ts:89-94 | mapping throws exactly when one entry throws; otherwise each output is its entry's transform |
| N8nContacts.Entries | src/app/api/n8n/contacts/route.ts:89-94 | a non-array becomes [] and an array is mapped |
| N8nContacts.MutualConnections | src/app/api/n8n/contacts/route.ts:83-87 | an array is passed through, a falsy value becomes [], a non-empty string is split, and any other truthy value throws |
| N8nContacts.SplitNamesAreClean | src/app/api/n8n/contacts/route.ts:86 | the names split from a string are non-empty, trimmed and comma-free |
| N8nContacts.MutualConnectionsOfJoined | src/app/api/n8n/contacts/route.ts:83-87 | clean names joined with commas come back as the same list |
| N8nContacts.Shape | src/app/api/n8n/contacts/route.ts:72-101 | shaping throws exactly when the connections or an entry throw; optional columns are the body's truthy value or null, source is the body's truthy source or else "n8n automation", and the lists are the transformed arrays or [] |
| N8nContacts.Post | src/app/api/n8n/contacts/route.ts:38-129 | 401 exactly for a bad key; 400 exactly for a missing name; 500 for missing configuration; a row is inserted exactly when all checks pass and shaping succeeds; 201 exactly when the insert reports no error, carrying the inserted data; 500 with the insert's error message exactly when the insert reports an error |
| N8nContacts.ShapeOfNameAndConnections | src/app/api/n8n/contacts/route.ts:72-101 | a body with only a name and a connection list gives that name, those connections, the default source, null company and email, and empty lists |
| N8nContacts.NameAndConnectionsOnly | src/app/api/n8n/contacts/route.ts:83-87 | a comma-separated list of clean names arrives as exactly that list |
| JobsRoute.BearerToken | src/app/api/extension/jobs/route.ts:15-24 | a token exists exactly when the header starts with "Bearer ", and the header is "Bearer " followed by the token |
| JobsRoute.BearerTokenRoundTrip | src/app/api/extension/jobs/route.ts:24 | the token the extension sends after "Bearer " is the token verified |
| JobsRoute.InsertData | src/app/api/extension/jobs/route.ts:60-71 | title and company are copied; the user id is the verified user's; status is the body's truthy status or "interested"; location, salary, job_url, applied_date, job_description and notes are each the body's value when truthy and null otherwise |
| JobsRoute.InsertDataOfRow | src/app/api/extension/jobs/route.ts:60-71 | a row with settled defaults, sent back as a body, is inserted unchanged |
| JobsRoute.InsertDataIsStable | src/app/api/extension/jobs/route.ts:60-71 | shaping a shaped row again changes nothing |
| JobsRoute.Post | src/app/api/extension/jobs/route.ts:15-100 | 401 exactly for a missing or non-Bearer header or a token without a user; 400 exactly for a falsy title or company; a row is inserted exactly when all checks pass; an insert error answers 500 with its message as the details; 201 exactly when the insert returns data without error, and the response carries that data |
| JobsRoute.CompanylessRecordRejected | src/app/api/extension/jobs/route.ts:52-57 | a scraped record without a company gets 400, whatever the token |
| JobsRoute.HeuristicWithoutCompanyNotInserted | extension/content/parsers/generic.js:96-111 | a heuristic record whose company selectors all fail is never inserted |
| JobsRoute.ValidRequestInserted | src/app/api/extension/jobs/route.ts:60-95 | a valid request inserts one row for the verified user with the title sent, status "interested" and null notes |
| Pages.Query | extension/content/parsers/generic.js:88 | querySelector finds an element exactly when the selector matches one, and it is the first in document order |
| Pages.DescriptionOf | extension/content/parsers/linkedin.js:148-154 | the description is the trimmed innerText, or the text when innerText is empty, cut to at most 2000 characters |
| Pages.FirstText | extension/content/parsers/generic.js:87-93 | the selector loop yields a text exactly when some selector's first element passes the test; the text is the first such element's trimmed text and passes the test |
| Pages.FirstItem | extension/content/parsers/linkedin.js:86-96 | the element loop yields the trimmed text of the first passing element, and nothing exactly when no element passes |
| Pages.FirstItemCons | extension/content/parsers/linkedin.js:88-95 | one loop step: the first element decides, or the search goes on with the rest |
| GenericParser.FindPosting | extension/content/parsers/generic.js:17-19 | the find returns the first JobPosting item; a null item before it throws |
| GenericParser.Posting | extension/content/parsers/generic.js:17-19 | a block yields a JobPosting object; a non-array block yields itself exactly when it is a posting; an array block yields exactly the item the find returns, and nothing when the find finds none or throws |
| GenericParser.LocationOf | extension/content/parsers/generic.js:25-27 | the address locality if truthy, else the address region if truthy, else jobLocation itself when it is a string, else null |
| GenericParser.SalaryOf | extension/content/parsers/generic.js:28-30 | the nested baseSalary.value.value if truthy, else baseSalary.value if truthy, else baseSalary itself when it is a string, else null |
| GenericParser.Record | extension/content/parsers/generic.js:22-35 | a record fails exactly when the description is neither nullish nor a string; the title is the posting's truthy title or null, and the company its organisation's truthy name or null; location and salary are read from jobLocation and baseSalary; a string description becomes its first 2000 characters or null, a nullish one null; the notes are "Type: " and the employment type exactly when that is truthy |
| GenericParser.FirstBlock | extension/content/parsers/generic.js:12-41 | scripts are scanned in order, and the first block yielding a record decides |
| GenericParser.StructuredData | extension/content/parsers/generic.js:7-48 | a record exists exactly when some block yields one; it is the record of the first such block, and it carries the page URL and status "interested" |
| GenericParser.Description | extension/content/parsers/generic.js:134-150 | a description is the text of the first selector whose first element has more than 100 trimmed characters, with innerText preferred, and has at most 2000 characters |
| GenericParser.DescriptionFoundIff | extension/content/parsers/generic.js:134-150 | a description exists exactly when some selector's first element has more than 100 trimmed characters |
| GenericParser.SourceNote | extension/content/parsers/generic.js:153-154 | the note is "Source: " followed by the hostname with its first "www." removed, or the whole hostname when it has none |
| GenericParser.SourceNoteDropsWww | extension/content/parsers/generic.js:153-154 | a hostname "www." + host, with no further "www." in host, gives the note "Source: " + host |
| GenericParser.Heuristic | extension/content/parsers/generic.js:57-162 | a heuristic record exists exactly when a title is found; each field comes from its selector list with its length guard; salary is null and notes name the source |
| GenericParser.Generic | extension/content/parsers/generic.js:54-167 | the structured record is used exactly when it has title and company, and the heuristics otherwise; every record has a title; there is none exactly when neither yields one |
| GenericParser.RecordOfPosting | extension/content/parsers/generic.js:22-35 | a posting's title, company, locality, amount, description and employment type are read back into the record |
| GenericParser.GenericOfPosting | extension/content/parsers/generic.js:54-61 | a page whose only block is a full posting yields that posting's record |
| GenericParser.SkipBlock | extension/content/parsers/generic.js:37-40 | a block that yields nothing does not affect the result |
| GenericParser.NullBeforePostingSkipped | extension/content/parsers/generic.js:17-19 | an array block with null before its posting throws in the find, so the block is skipped |
| IndeedParser.Company | extension/content/parsers/indeed.js:42-53 | the alternative company selector is used only when the primary gives no non-empty text |
| IndeedParser.IsIndeedJobPage | extension/content/parsers/indeed.js:7-12 | an Indeed job page: the host contains "indeed.com" and the path contains "/viewjob" or "/job/", or the query contains "jk=" |
| IndeedParser.Salary | extension/content/parsers/indeed.js:62-68 | the salary is set exactly when the text contains "$", "hour" or "year" in any case |
| IndeedParser.JobType | extension/content/parsers/indeed.js:78-84 | the job type is set exactly when its element exists, the element's raw text has no "$", and its trimmed text is 1 to 49 characters long; it is that trimmed text |
| IndeedParser.JobTypeHasNoDollar | extension/content/parsers/indeed.js:78-84 | the job type stored in the notes never holds a dollar sign |
| IndeedParser.Extract | extension/content/parsers/indeed.js:18-97 | a record exists exactly on an Indeed job page with a non-empty title and company; location and salary are as found or null; the notes hold the job type or null |
| LinkedInParser.AnchoredIsUnanchored | extension/content/parsers/linkedin.js:71-83 | every line the anchored city-state pattern accepts, the unanchored pattern accepts too |
| LinkedInParser.IsLinkedInJobPage | extension/content/parsers/linkedin.js:7-10 | a LinkedIn job page: the host is exactly "www.linkedin.com" and the path contains "/jobs/" |
| LinkedInParser.LocationLineIsUnanchored | extension/content/parsers/linkedin.js:71-83 | so the top-card line test is exactly the unanchored pattern |
| LinkedInParser.FirstLocationLine | extension/content/parsers/linkedin.js:71-83 | the first line that passes the location test is chosen, and none exactly when no line passes |
| LinkedInParser.ContainerLocation | extension/content/parsers/linkedin.js:71-83 | a top-card location exists only with the container present; then it exists exactly when some line of the container's text passes the location test, and it is the first such line, non-empty |
| LinkedInParser.CityStateAt | extension/content/parsers/linkedin.js:101 | a city-state match starts with a capital, spans at least five characters and contains the comma |
| LinkedInParser.FirstCityState | extension/content/parsers/linkedin.js:101 | the leftmost position where the pattern matches |
| LinkedInParser.CityStateMatch | extension/content/parsers/linkedin.js:101 | a match exists exactly when the pattern matches somewhere; it is the text matched at the leftmost position, starting with a capital and at least five characters long |
| LinkedInParser.BodyLocation | extension/content/parsers/linkedin.js:98-109 | a location is taken from the page text exactly when the pattern matches and the trimmed match is shorter than 50 characters; it is that trimmed match |
| LinkedInParser.BodyLocationOfCity | extension/content/parsers/linkedin.js:98-109 | page text opening with "City, ST" yields exactly that as the location |
| LinkedInParser.FirstSalarySelector | extension/content/parsers/linkedin.js:120-131 | the first selector with an element carrying a salary hint |
| LinkedInParser.FirstSalary | extension/content/parsers/linkedin.js:111-131 | a salary exists exactly when some selector has an element whose trimmed text carries a hint; it is then the trimmed text of the first such element under the first such selector |
| LinkedInParser.Insights | extension/content/parsers/linkedin.js:133-145 | a location or salary that is already set is kept |
| LinkedInParser.InsightsAreFirstItems | extension/content/parsers/linkedin.js:133-145 | an unset field gets exactly the first insight item that passes its own test |
| LinkedInParser.Location | extension/content/parsers/linkedin.js:70-109 | the sources in order of precedence: top-card lines, then bullets, then a page-text match; any location is non-empty |
| LinkedInParser.Extract | extension/content/parsers/linkedin.js:16-173 | a record exists exactly on a LinkedIn job page with a title and a company; the insights fill only what is unset; the description and notes are present exactly when their elements are |
| ContentScript.Cascade | extension/content/content.js:16-38 | LinkedIn's record wins on a LinkedIn page, then Indeed's on an Indeed page, and the generic result is final otherwise |
| ContentScript.ExtractJobData | extension/content/content.js:16-38 | a LinkedIn record always wins; without one an Indeed record wins; with neither the generic result is final |
| ContentScript.SitePagesDisjoint | extension/content/parsers/indeed.js:7-12 | no page passes both the LinkedIn and the Indeed job-page test |
| ContentScript.ExtractedRecord | extension/content/content.js:16-38 | whichever parser supplies it, a record has a title, the page URL and status "interested" |
| ContentScript.ShowsButtonIffExtracted | extension/content/content.js:50-62 | the button shows exactly when the cascade yields a record |
| ContentScript.UnknownSiteIsGeneric | extension/content/content.js:34-37 | a page neither site parser recognises gets the generic result |
| ContentScript.LinkedInFallsBackToGeneric | extension/content/content.js:20-37 | a LinkedIn page whose parser yields nothing gets the generic result |
| Profile.CleanUrl | extension/content/profile.js:14-18 | the cleaned URL is the longest prefix before the first '?' or '#' |
| Profile.CleanUrlIdempotent | extension/content/profile.js:14-18 | cleaning twice is cleaning once |
| Profile.LinkedInUrl | extension/content/profile.js:7-19 | the href of the canonical link is used when that link is present with a non-empty href; otherwise the current URL is cut before its first '?' or '#' |
| Profile.ProfileName | extension/content/profile.js:24-46 | the trimmed text of the first name selector that matches, and none exactly when none matches |
| Profile.Headline | extension/content/profile.js:51-57 | the headline is the trimmed text of its element, present exactly when the element is |
| Profile.ClicksMutualLink | extension/content/profile.js:63-85 | a facet link mentioning "mutual" is always clicked; otherwise only a link in the mutual section is |
| Profile.AddNew | extension/content/profile.js:97-102 | adding names keeps the list so far as a prefix |
| Profile.AddNewSpec | extension/content/profile.js:97-102 | the list stays free of "" and of repeats, and gains exactly the non-empty new names |
| Profile.AddNewOrder | extension/content/profile.js:97-102 | the names added come in the order they were found |
| Profile.PillNames | extension/content/profile.js:139-148 | the candidates are exactly the trimmed name spans of the pills that have one |
| Profile.PillNamesSnoc | extension/content/profile.js:139-148 | the names come out in document order: a later pill's name follows the earlier pills' names, and a pill without a name span adds nothing |
| Profile.InlineNames | extension/content/profile.js:125-133 | no names without a pair match; otherwise the names of the first run of "Cap Cap" pairs |
| Profile.PairNamesJoin | extension/content/profile.js:126-128 | the names found, joined with ", ", are exactly the matched text |
| Profile.ExtractMutualConnections | extension/content/profile.js:91-151 | the four strategies in order: modal items, then search cards, then inline "Cap Cap" pairs followed by pills; its properties are stated by the three lemmas below |
| Profile.ExtractedAreClean | extension/content/profile.js:91-151 | the names extracted never include "" or a repeat |
| Profile.FirstStrategiesCommit | extension/content/profile.js:95-116 | once the modal or search-card selector matches, the result is built from those elements alone |
| Profile.LastStrategiesCombine | extension/content/profile.js:118-151 | otherwise the inline names come first, and the result holds exactly the non-empty inline and pill names |
| Profile.ModalWait | extension/content/profile.js:156-178 | for any extraction, the first pass that finds names while the modal is open decides; with no such pass, the late extraction is returned |
| Profile.ScrollModal | extension/content/profile.js:183-205 | at most the maximum number of scrolls; none without content; each scroll saw the height change; a short count means the height stopped changing |
| Profile.GetProfileData | extension/content/profile.js:221-252 | URL, name and headline come from the page; without the modal the connections are extracted directly; with it, they are [] when no link is clicked and the post-scroll extraction otherwise; always clean |
| ChartUtils.Pad2 | src/lib/chartUtils.ts:35 | two digits that read back as the number |
| ChartUtils.MonthKey | src/lib/chartUtils.ts:34-36 | the key is the year as printed, a '-', and the 1-based month in two digits |
| ChartUtils.MonthKeyRoundTrip | src/lib/chartUtils.ts:60-61 | reading a key back gives the year and month it was made from |
| ChartUtils.MonthKeyInjective | src/lib/chartUtils.ts:34-36 | different months never share a key |
| ChartUtils.DaysIn | src/lib/chartUtils.ts:98 | every month has 28 to 31 days |
| ChartUtils.SetMonthNext | src/lib/chartUtils.ts:98 | the step moves forward; it keeps the day when the next month has it, and overflows into the month after otherwise |
| ChartUtils.DedupSpec | src/lib/chartUtils.ts:91-93 | the kept keys have no duplicates and are exactly the keys seen |
| ChartUtils.DedupFirstOccurrences | src/lib/chartUtils.ts:91-93 | each kept key sits where it first occurs, in the order of first occurrence |
| ChartUtils.GeneratePeriodKeys | src/lib/chartUtils.ts:85-103 | the keys of the dates visited up to the end, without duplicates, in order of first occurrence |
| ChartUtils.MonthStepSkipsAMonth | src/lib/chartUtils.ts:96-99 | from a day the next month lacks, the step jumps past that whole month, and its key is missing |
| ChartUtils.MonthlyKeysAsWritten | src/lib/chartUtils.ts:85-103 | the monthly key loop as written: from the start date with its own day of month, stepping with setMonth, keys deduplicated in order |
| ChartUtils.OctoberThirtyFirstSkipsNovember | src/lib/chartUtils.ts:96-99 | from 31 October 2025 the step lands on 1 December, and "2025-11" is missing |
| ChartUtils.MonthlyKeysCoverRange | src/lib/chartUtils.ts:85-103 | stepping from the first of the start month, every month from start to end has its key |
| ChartUtils.MonthlyKeysWithinRange | src/lib/chartUtils.ts:85-103 | those keys have no duplicates and name only months from start to end |
| ChartUtils.MonthKeyIsNotInvalid | src/lib/chartUtils.ts:135-136 | a real month's key never equals an invalid date's key |
| ChartUtils.SkippedItemNotCounted | src/lib/chartUtils.ts:168-178 | an item with a missing or non-string date, or a date outside the window, counts nowhere |
| ChartUtils.CountByPeriod | src/lib/chartUtils.ts:163-179 | the counts cover exactly the period keys, each with its number of items |
| ChartUtils.GroupByPeriodSimple | src/lib/chartUtils.ts:155-186 | one row per period key, in order, each with that period's count |
| ChartUtils.CountedAtMostOnce | src/lib/chartUtils.ts:155-186 | with distinct keys, the items before the window plus all counted items never exceed the number of items |
| ChartUtils.CategoryOf | src/lib/chartUtils.ts:138 | a falsy category becomes "other"; a truthy one becomes its string form, so a non-empty string is kept |
| ChartUtils.GroupByPeriod | src/lib/chartUtils.ts:108-150 | one row per period key, in order; each row lists exactly the given categories, each with the number of that period's items in that category |
| ChartUtils.CategoryBreakdown | src/lib/chartUtils.ts:138-141 | a period's category counts never exceed its simple count, and equal it when every item's category is listed |
| ChartUtils.CalculateCumulativeGrowth | src/lib/chartUtils.ts:191-241 | one row per period; added is the period's count; each total is the previous total, or the count of items before the window, plus added |
| ChartUtils.TotalsNonDecreasing | src/lib/chartUtils.ts:231-240 | the totals never fall and never drop below the baseline |
| ChartUtils.LastTotal | src/lib/chartUtils.ts:231-240 | the last total is the baseline plus everything added |
| ChartUtils.SumAddedIsSumTallies | src/lib/chartUtils.ts:217-238 | the added column sums to the items counted in the periods |
| ChartUtils.GrowthEndsWithinItems | src/lib/chartUtils.ts:199-240 | with distinct keys the final total never exceeds the number of items |

## Left out

- Case mapping and white space are ASCII only. `toLowerCase` and `\s` over all of Unicode are not modelled, and lengths count characters, not UTF-16 code units.
- Numbers are integers. No floating-point value occurs in the modelled logic except dates.
- URL parsing (`new URL`), `JSON.parse` and the DOM are abstract. A parser is a function parameter, a script block is an `Option` of a parsed value, and an element carries its text, its `innerText` and the text of its descendants per selector.
- The database is abstract: a lookup, an insert and an update are function parameters that return a result. The `ilike` filter text is not modelled. That text matches any row when the username is empty. The two routes filter on different columns (`linkedin_url` in the sync route, `linkedin` in the lookup route); both lookups are parameters here.
- The two extension routes carry textually identical copies of `normalizeLinkedInUrl` and `extractUsername`. Each is modelled once, in `ExtensionApi`, so the copies agree by construction.
- `getUser` is a parameter that returns a user and an error. A `getUser` that throws is not modelled.
- Clocks, timers and randomness are left out:
  - `setTimeout`, `Date.now` and the modal deadline become a sequence of observed passes;
  - the scroll loop's heights become a function of the step;
  - the generated `temp-` ids are parameters.
- The date of "now" in `getDateRange` is not modelled. The window `start`/`end` is a parameter of each chart, and the key list is a parameter of the counting functions. Time of day is ignored, including that `end` is created just before `start`.
- `new Date(s)` and its local time zone are a `parse` parameter from string to timestamp. An invalid date is `None` and keeps the key `NaN-NaN` that the source gives it.
- Weekly granularity is left out: `getWeekStart`, `getWeekKey`, and `getPeriodLabel`'s labels and its weekly parse. The month key is concrete; `getPeriodLabel`'s monthly parse is modelled as `ParseMonthKey`.
- ChartUtils.ParseMonthKey: does not read negative years back; `MonthKeyRoundTrip` is stated for years from 0 on.
- Category and period names that collide with `Object` prototype properties are not modelled.
- The spread `...periodMap[period]` in `groupByPeriod` is not modelled. A category named "period" or "periodLabel" would overwrite those row fields; here a row keeps its period and its counts apart.
- The content script's `typeof window.isXxx === 'function'` tests are taken to hold: every parser is loaded.
- background.js's `isJobPage` is left out. It only feeds logging, and it omits the "/job/" path that the Indeed parser accepts.
- Popup, storage, message listeners, the keyboard shortcut, `closeModal`, the `OPTIONS` handlers and console logging are left out. They are browser or HTTP plumbing.
- The number of scrolls `scrollModalToLoadAll` makes does not change what is extracted afterwards. The page after scrolling is a parameter.
- Profile.CleanUrl: clears the query and fragment by cutting at the first '?' or '#'. The WHATWG serialisation of the rest of the URL is not modelled.
- LinkedInParser.Extract: states the description and the notes only as present exactly when their elements are. Their texts come from `DescriptionOf` and the workplace element but are not restated.
- IndeedParser.Extract: states the description only as present exactly when its element is. Its text comes from `DescriptionOf` but is not restated.
- NameMatching.Normalize: idempotence is not claimed, because it does not hold. `NameExamples.NotIdempotent` shows "xm.d" normalising to "xmd" and then to "x".

## Findings

| source | as written | input that shows it | evidently intended | confidence | as-written member | corrected member |
|---|---|---|---|---|---|---|
| src/lib/chartUtils.ts:96-99 | the monthly key loop starts at the start date's day of month and steps with `setMonth(getMonth() + 1)`, which overflows into the month after when the next month is shorter | a start date of 31 October 2025 (a run on 31 October 2026 whose range starts twelve months back, line 76): the step lands on 1 December 2025, so the key "2025-11" never appears | one key for every month from the start month to the end month, as a walk from the first day of each month gives | high; not executed | ChartUtils.OctoberThirtyFirstSkipsNovember | ChartUtils.MonthlyKeysCoverRange |

=== FILE: ascii.dfy ===
/** Character classes and string primitives of JavaScript, restricted to
    ASCII: `toLowerCase` maps only 'A'..'Z', `\s` and `trim` use the six
    ASCII white-space characters, and `\b` uses the word class [A-Za-z0-9_]. */
module Ascii {

  import opened Wrappers

  predicate IsUpper(c: char) { 'A' <= c <= 'Z' }
  predicate IsLower(c: char) { 'a' <= c <= 'z' }
  predicate IsLetter(c: char) { IsUpper(c) || IsLower(c) }
  predicate IsDigit(c: char) { '0' <= c <= '9' }

  /** The class `\w`, which also decides where `\b` holds. */
  predicate IsWordChar(c: char) { IsLetter(c) || IsDigit(c) || c == '_' }

  /** The class `\s` (and what `String.prototype.trim` removes). */
  predicate IsSpace(c: char) {
    c == ' ' || c == '\t' || c == '\n' || c == '\U{000B}' || c == '\U{000C}' || c == '\r'
  }

  function LowerChar(c: char): (r: char)
    ensures IsUpper(c) ==> IsLower(r) && r as int == c as int + 32
    ensures !IsUpper(c) ==> r == c
    ensures !IsUpper(r)
  {
    if IsUpper(c) then (c as int + 32) as char else c
  }

  /** `toLowerCase` */
  function Lower(s: string): (r: string)
    ensures |r| == |s|
    ensures forall i :: 0 <= i < |s| ==> r[i] == LowerChar(s[i])
  {
    seq(|s|, i requires 0 <= i < |s| => LowerChar(s[i]))
  }

  predicate HasNoUpper(s: string) {
    forall i :: 0 <= i < |s| ==> !IsUpper(s[i])
  }

  lemma LowerConcat(a: string, b: string)
    ensures Lower(a + b) == Lower(a) + Lower(b)
  {
  }

  lemma LowerIdempotent(s: string)
    ensures Lower(Lower(s)) == Lower(s)
  {
  }

  /** `s.startsWith(prefix)`, compared character by character. */
  predicate StartsWith(s: string, prefix: string)
    ensures StartsWith(s, prefix) <==> |prefix| <= |s| && s[..|prefix|] == prefix
  {
    |prefix| == 0 || (|s| > 0 && s[0] == prefix[0] && StartsWith(s[1..], prefix[1..]))
  }

  predicate EndsWith(s: string, suffix: string) {
    |suffix| <= |s| && s[|s| - |suffix|..] == suffix
  }

  /** `t` occurs in `s` at index `i`. */
  predicate OccursAt(s: string, t: string, i: int) {
    0 <= i && i + |t| <= |s| && s[i..i + |t|] == t
  }

  /** `s.includes(t)` */
  predicate Contains(s: string, t: string) {
    exists i :: 0 <= i <= |s| && OccursAt(s, t, i)
  }

  predicate ContainsChar(s: string, c: char) {
    exists i :: 0 <= i < |s| && s[i] == c
  }

  lemma OccursAtTail(s: string, t: string, i: int)
    requires |s| > 0 && i >= 0
    ensures OccursAt(s, t, i + 1) <==> OccursAt(s[1..], t, i)
  {
    if 0 <= i && i + 1 + |t| <= |s| {
      assert s[1..][i..i + |t|] == s[i + 1..i + 1 + |t|];
    }
  }

  /** Index of the first occurrence of `t` in `s` (`indexOf`), if any. */
  function IndexOf(s: string, t: string): (r: Option<nat>)
    ensures r.Some? <==> Contains(s, t)
    ensures r.Some? ==> OccursAt(s, t, r.value)
    ensures r.Some? ==> forall j :: 0 <= j < r.value ==> !OccursAt(s, t, j)
    decreases |s|
  {
    if |t| > |s| then None
    else if s[..|t|] == t then
      assert OccursAt(s, t, 0);
      Some(0)
    else
      match IndexOf(s[1..], t)
      case None =>
        forall i | OccursAt(s, t, i) ensures false {
          if i > 0 { OccursAtTail(s, t, i - 1); }
        }
        None
      case Some(k) =>
        OccursAtTail(s, t, k);
        forall j | 0 <= j < k + 1 ensures !OccursAt(s, t, j) {
          if j > 0 { OccursAtTail(s, t, j - 1); }
        }
        Some(k + 1)
  }

  /** `s.replace(t, u)` with a string pattern: only the first occurrence. */
  function ReplaceFirst(s: string, t: string, u: string): (r: string)
    ensures !Contains(s, t) ==> r == s
    ensures Contains(s, t) ==> exists i :: (OccursAt(s, t, i) && r == s[..i] + u + s[i + |t|..]
      && forall j :: 0 <= j < i ==> !OccursAt(s, t, j))
  {
    match IndexOf(s, t)
    case None => s
    case Some(i) => s[..i] + u + s[i + |t|..]
  }

  /** `trimStart` */
  function TrimStart(s: string): (r: string)
    ensures |r| <= |s| && r == s[|s| - |r|..]
    ensures forall i :: 0 <= i < |s| - |r| ==> IsSpace(s[i])
    ensures |r| > 0 ==> !IsSpace(r[0])
  {
    if |s| > 0 && IsSpace(s[0]) then TrimStart(s[1..]) else s
  }

  /** `trimEnd` */
  function TrimEnd(s: string): (r: string)
    ensures |r| <= |s| && r == s[..|r|]
    ensures forall i :: |r| <= i < |s| ==> IsSpace(s[i])
    ensures |r| > 0 ==> !IsSpace(r[|r| - 1])
  {
    if |s| > 0 && IsSpace(s[|s| - 1]) then TrimEnd(s[..|s| - 1]) else s
  }

  /** `trim` */
  function Trim(s: string): (r: string)
    ensures |r| <= |s|
    ensures |r| > 0 ==> !IsSpace(r[0]) && !IsSpace(r[|r| - 1])
  {
    TrimEnd(TrimStart(s))
  }

  /** What `trim` removes: the result is a contiguous piece of `s`, and
      everything cut away on either side is white space. */
  lemma TrimSpec(s: string)
    ensures var r := Trim(s);
            var i := |s| - |TrimStart(s)|;
            && i + |r| <= |s| && r == s[i..i + |r|]
            && (forall j :: 0 <= j < i ==> IsSpace(s[j]))
            && (forall j :: i + |r| <= j < |s| ==> IsSpace(s[j]))
  {
    var a := TrimStart(s);
    var i := |s| - |a|;
    assert a == s[i..];
    assert Trim(s) == TrimEnd(s[i..]);
    TrimEndSlice(s, i);
  }

  lemma TrimEndSlice(s: string, i: nat)
    requires i <= |s|
    ensures var r := TrimEnd(s[i..]);
            && i + |r| <= |s| && r == s[i..i + |r|]
            && (forall j :: i + |r| <= j < |s| ==> IsSpace(s[j]))
  {
    var a := s[i..];
    var r := TrimEnd(a);
    assert r == a[..|r|];
    forall j | i + |r| <= j < |s| ensures IsSpace(s[j]) {
      assert s[j] == a[j - i];
    }
  }

  lemma TrimOfUnpadded(s: string)
    requires |s| > 0 ==> !IsSpace(s[0]) && !IsSpace(s[|s| - 1])
    ensures Trim(s) == s
  {
  }

  /** Trimming keeps a text whose first character is not white space
      non-empty. */
  lemma TrimNonBlank(s: string)
    requires |s| > 0 && !IsSpace(s[0])
    ensures Trim(s) != ""
  {
    TrimSpec(s);
  }

  /** Trimming adds no character: one absent from the text is absent from
      its trimmed form. */
  lemma TrimKeepsAbsentChar(s: string, c: char)
    requires !ContainsChar(s, c)
    ensures !ContainsChar(Trim(s), c)
  {
    TrimSpec(s);
    var r := Trim(s);
    var i := |s| - |TrimStart(s)|;
    assert forall j :: 0 <= j < |r| ==> r[j] == s[i + j];
  }

  lemma TrimAllSpace(s: string)
    requires forall i :: 0 <= i < |s| ==> IsSpace(s[i])
    ensures Trim(s) == ""
  {
    assert TrimStart(s) == "";
  }

  /** `s.split(c)` for a one-character separator; like JavaScript it yields
      the empty pieces too, and `"".split(c) == [""]`. */
  function Split(s: string, c: char): (r: seq<string>)
    ensures |r| > 0
    ensures forall k :: 0 <= k < |r| ==> !ContainsChar(r[k], c)
    decreases |s|
  {
    if exists i :: 0 <= i < |s| && s[i] == c then
      var i := FirstIndexOf(s, c);
      [s[..i]] + Split(s[i + 1..], c)
    else
      [s]
  }

  /** `parts.join(sep)` */
  function Join(parts: seq<string>, sep: string): string
    requires |parts| > 0
  {
    if |parts| == 1 then parts[0] else parts[0] + sep + Join(parts[1..], sep)
  }

  /** Splitting loses nothing: joining the pieces with the separator gives
      the text back. */
  lemma {:induction false} JoinSplit(s: string, c: char)
    ensures Join(Split(s, c), [c]) == s
    decreases |s|
  {
    if exists i :: 0 <= i < |s| && s[i] == c {
      var i := FirstIndexOf(s, c);
      var rest := Split(s[i + 1..], c);
      JoinSplit(s[i + 1..], c);
      assert Split(s, c) == [s[..i]] + rest;
      assert ([s[..i]] + rest)[1..] == rest;
      assert s == s[..i] + [c] + s[i + 1..];
    }
  }

  /** A join that starts with a non-empty piece is not empty. */
  lemma JoinNonEmpty(parts: seq<string>, sep: string)
    requires |parts| > 0 && parts[0] != ""
    ensures Join(parts, sep) != ""
  {
    if |parts| > 1 {
      assert Join(parts, sep)[0] == parts[0][0];
    }
  }

  /** The pieces of a split as `parts.map(p => p.trim()).filter(p => p)`
      keeps them: trimmed, and the empty ones dropped. */
  function NonEmptyTrimmed(parts: seq<string>): (r: seq<string>)
    ensures |r| <= |parts|
    ensures forall k :: 0 <= k < |r| ==> r[k] != "" && exists j :: 0 <= j < |parts| && r[k] == Trim(parts[j])
    ensures forall j :: 0 <= j < |parts| && Trim(parts[j]) != "" ==> Trim(parts[j]) in r
  {
    if |parts| == 0 then []
    else
      var rest := NonEmptyTrimmed(parts[1..]);
      var r := if Trim(parts[0]) != "" then [Trim(parts[0])] + rest else rest;
      KeptPiecesStep(Trim, parts, rest, r);
      r
  }

  /** The pieces `r` are the non-empty images of `parts` under `f`. */
  predicate KeptPieces(f: string -> string, parts: seq<string>, r: seq<string>) {
    && |r| <= |parts|
    && (forall k :: 0 <= k < |r| ==> r[k] != "" && exists j :: 0 <= j < |parts| && r[k] == f(parts[j]))
    && (forall j :: 0 <= j < |parts| && f(parts[j]) != "" ==> f(parts[j]) in r)
  }

  lemma KeptPiecesStep(f: string -> string, parts: seq<string>, rest: seq<string>, r: seq<string>)
    requires |parts| > 0 && KeptPieces(f, parts[1..], rest)
    requires r == if f(parts[0]) != "" then [f(parts[0])] + rest else rest
    ensures KeptPieces(f, parts, r)
  {
    var tail := parts[1..];
    assert forall j :: 1 <= j < |parts| ==> tail[j - 1] == parts[j];
    var head := f(parts[0]);
    if head != "" {
      assert r == [head] + rest;
      forall k | 0 <= k < |r| ensures exists j :: 0 <= j < |parts| && r[k] == f(parts[j]) {
        if k == 0 {
          assert r[k] == f(parts[0]);
        } else {
          assert r[k] == rest[k - 1];
          var j :| 0 <= j < |tail| && rest[k - 1] == f(tail[j]);
          assert r[k] == f(parts[j + 1]);
        }
      }
    } else {
      forall k | 0 <= k < |r| ensures exists j :: 0 <= j < |parts| && r[k] == f(parts[j]) {
        var j :| 0 <= j < |tail| && rest[k] == f(tail[j]);
        assert r[k] == f(parts[j + 1]);
      }
    }
  }

  /** Text without white space at either end and not empty. */
  predicate Unpadded(s: string) {
    |s| > 0 && !IsSpace(s[0]) && !IsSpace(s[|s| - 1])
  }

  /** Pieces that are already trimmed and non-empty all survive, in order. */
  lemma {:induction false} NonEmptyTrimmedOfUnpadded(parts: seq<string>)
    requires forall k :: 0 <= k < |parts| ==> Unpadded(parts[k])
    ensures NonEmptyTrimmed(parts) == parts
  {
    if |parts| > 0 {
      var head := parts[0];
      var tail := parts[1..];
      assert Unpadded(head);
      TrimOfUnpadded(head);
      assert forall k :: 0 <= k < |tail| ==> tail[k] == parts[k + 1];
      NonEmptyTrimmedOfUnpadded(tail);
      HeadTail(parts);
      NonEmptyTrimmedCons(head, tail);
    }
  }

  lemma HeadTail<T>(s: seq<T>)
    requires |s| > 0
    ensures [s[0]] + s[1..] == s
  {}

  lemma NonEmptyTrimmedCons(head: string, tail: seq<string>)
    requires Trim(head) == head && head != ""
    ensures NonEmptyTrimmed([head] + tail) == [head] + NonEmptyTrimmed(tail)
  {
    assert ([head] + tail)[1..] == tail;
  }

  /** Joining pieces that do not contain the separator and splitting again
      gives the pieces back. */
  lemma {:induction false} SplitJoin(parts: seq<string>, c: char)
    requires |parts| > 0
    requires forall k :: 0 <= k < |parts| ==> !ContainsChar(parts[k], c)
    ensures Split(Join(parts, [c]), c) == parts
    decreases |parts|
  {
    var s := Join(parts, [c]);
    if |parts| == 1 {
      assert !ContainsChar(s, c);
    } else {
      var rest := Join(parts[1..], [c]);
      assert s == parts[0] + [c] + rest;
      assert s[|parts[0]|] == c;
      assert forall j :: 0 <= j < |parts[0]| ==> s[j] == parts[0][j];
      FirstIndexOfIsFirst(s, c, |parts[0]|);
      assert s[..|parts[0]|] == parts[0];
      assert s[|parts[0]| + 1..] == rest;
      SplitJoin(parts[1..], c);
      assert Split(s, c) == [parts[0]] + parts[1..];
    }
  }

  /** Where the first occurrence is. */
  lemma FirstIndexOfIsFirst(s: string, c: char, i: nat)
    requires i < |s| && s[i] == c
    requires forall j :: 0 <= j < i ==> s[j] != c
    ensures FirstIndexOf(s, c) == i
  {
  }

  function FirstIndexOf(s: string, c: char): (i: nat)
    requires exists i :: 0 <= i < |s| && s[i] == c
    ensures i < |s| && s[i] == c
    ensures forall j :: 0 <= j < i ==> s[j] != c
  {
    if s[0] == c then 0 else FirstIndexOf(s[1..], c) + 1
  }

  // ---- decimal numerals ----

  function DigitChar(d: nat): (c: char)
    requires d < 10
    ensures IsDigit(c)
  {
    ('0' as int + d) as char
  }

  function DigitValue(c: char): (d: nat)
    requires IsDigit(c)
    ensures d < 10
  {
    c as int - '0' as int
  }

  /** Decimal numeral of a natural number, without leading zeros. */
  function NatToString(n: nat): (r: string)
    ensures |r| > 0
    ensures forall i :: 0 <= i < |r| ==> IsDigit(r[i])
    ensures n >= 10 ==> r[0] != '0'
  {
    if n < 10 then [DigitChar(n)] else NatToString(n / 10) + [DigitChar(n % 10)]
  }

  /** `String(n)` for an integer. */
  function IntToString(n: int): (r: string)
    ensures |r| > 0
  {
    if n < 0 then "-" + NatToString(-n) else NatToString(n)
  }

  predicate AllDigits(s: string) {
    forall i :: 0 <= i < |s| ==> IsDigit(s[i])
  }

  /** Value of a string of decimal digits. */
  function DigitsToNat(s: string): nat
    requires AllDigits(s)
  {
    if |s| == 0 then 0 else DigitsToNat(s[..|s| - 1]) * 10 + DigitValue(s[|s| - 1])
  }

  lemma {:induction false} DigitsToNatOfNatToString(n: nat)
    ensures DigitsToNat(NatToString(n)) == n
    decreases n
  {
    if n >= 10 {
      DigitsToNatOfNatToString(n / 10);
      var r := NatToString(n);
      assert r[..|r| - 1] == NatToString(n / 10);
    }
  }
}

=== FILE: chart_utils.dfy ===
/** The dashboard's chart aggregation: the list of period keys between two
    dates, the count of dated items per period (optionally broken down by
    category), and the running total of items over the periods.

    A JavaScript `Date` is a timestamp here. `new Date(s)` is a parameter
    that yields None for an Invalid Date, and so is the local calendar that
    maps a timestamp to its period key. The month step of the key list is
    modelled on calendar dates, where JavaScript's day overflow matters. */
module ChartUtils {

  import opened Wrappers
  import opened Ascii
  import opened JsValues

  // ---- month keys ----

  /** `n.toString().padStart(2, '0')` */
  function Pad2(n: nat): (r: string)
    requires n < 100
    ensures |r| == 2 && AllDigits(r) && DigitsToNat(r) == n
  {
    DigitsToNatOfNatToString(n);
    var s := NatToString(n);
    if |s| < 2 then
      assert DigitsToNat("0" + s) == DigitsToNat("0") * 10 + DigitValue(s[0]) by {
        assert ("0" + s)[..1] == "0";
      }
      "0" + s
    else s
  }

  /** getMonthKey: "YYYY-MM", the year as `getFullYear()` prints it and
      the month numbered from 1, in two digits. `month` is `getMonth()`,
      numbered from 0. */
  function MonthKey(year: int, month: int): (r: string)
    requires 0 <= month < 12
    ensures |r| >= 4 && r[|r| - 3] == '-'
    ensures r[..|r| - 3] == IntToString(year) && r[|r| - 2..] == Pad2(month + 1)
  {
    var r := IntToString(year) + "-" + Pad2(month + 1);
    assert r[..|r| - 3] == IntToString(year);
    r
  }

  /** getPeriodLabel's reading of a monthly key: `periodKey.split('-')`,
      each half through `parseInt(_, 10)`, and the month back to a 0-based
      index. Pieces that are not plain digit strings are None. */
  function ParseMonthKey(key: string): (r: Option<(int, int)>)
    ensures r.Some? ==> |Split(key, '-')| >= 2
  {
    var parts := Split(key, '-');
    if |parts| >= 2 && parts[0] != "" && AllDigits(parts[0]) && parts[1] != "" && AllDigits(parts[1]) then
      Some((DigitsToNat(parts[0]), DigitsToNat(parts[1]) - 1))
    else None
  }

  /** A key names its month: reading it back gives the year and month it
      was made from, for every year the calendar prints without a sign. */
  lemma MonthKeyRoundTrip(year: nat, month: int)
    requires 0 <= month < 12
    ensures ParseMonthKey(MonthKey(year, month)) == Some((year, month))
  {
    var a, b := NatToString(year), Pad2(month + 1);
    assert MonthKey(year, month) == Join([a, b], ['-']) by {
      assert Join([a, b], ['-']) == a + ['-'] + Join([a, b][1..], ['-']);
      assert [a, b][1..] == [b];
    }
    forall k | 0 <= k < |[a, b]| ensures !ContainsChar([a, b][k], '-') {
      assert AllDigits([a, b][k]);
    }
    SplitJoin([a, b], '-');
    DigitsToNatOfNatToString(year);
  }

  /** Two different months never share a key, so dropping repeated keys
      only ever merges instants of the same month. */
  lemma MonthKeyInjective(y1: int, m1: int, y2: int, m2: int)
    requires 0 <= m1 < 12 && 0 <= m2 < 12
    requires MonthKey(y1, m1) == MonthKey(y2, m2)
    ensures y1 == y2 && m1 == m2
  {
    var k := MonthKey(y1, m1);
    assert Pad2(m1 + 1) == k[|k| - 2..] == Pad2(m2 + 1);
    assert IntToString(y1) == IntToString(y2);
    IntToStringInjective(y1, y2);
  }

  lemma IntToStringInjective(a: int, b: int)
    requires IntToString(a) == IntToString(b)
    ensures a == b
  {
    NatToStringHead(if a < 0 then -a else a);
    NatToStringHead(if b < 0 then -b else b);
    if a < 0 && b < 0 {
      assert NatToString(-a) == IntToString(a)[1..];
      DigitsToNatOfNatToString(-a);
      DigitsToNatOfNatToString(-b);
    } else if a >= 0 && b >= 0 {
      DigitsToNatOfNatToString(a);
      DigitsToNatOfNatToString(b);
    }
  }

  lemma NatToStringHead(n: nat)
    ensures NatToString(n)[0] != '-' && NatToString(n)[0] != 'N'
  {
    assert IsDigit(NatToString(n)[0]);
  }

  // ---- calendar dates and the month step ----

  predicate LeapYear(y: int) {
    (y % 4 == 0 && y % 100 != 0) || y % 400 == 0
  }

  /** Days in month `m` (0-based) of year `y`. */
  function DaysIn(y: int, m: int): (n: int)
    requires 0 <= m < 12
    ensures 28 <= n <= 31
  {
    if m == 1 then (if LeapYear(y) then 29 else 28)
    else if m == 3 || m == 5 || m == 8 || m == 10 then 30
    else 31
  }

  /** A local calendar date; `month` is 0-based as `getMonth()` returns it. */
  datatype CalDate = CalDate(year: int, month: int, day: int)

  predicate ValidDate(d: CalDate) {
    0 <= d.month < 12 && 1 <= d.day <= DaysIn(d.year, d.month)
  }

  type Date = d: CalDate | ValidDate(d) witness CalDate(1970, 0, 1)

  /** Months since year 0: consecutive months have consecutive indices. */
  function MonthIndex(d: Date): int {
    d.year * 12 + d.month
  }

  /** The date's position in calendar order (any strictly increasing
      numbering serves for `current <= end`). */
  function Ordinal(d: Date): int {
    MonthIndex(d) * 31 + d.day
  }

  function MonthKeyOf(d: Date): string {
    MonthKey(d.year, d.month)
  }

  /** The first day of month index `mi`. */
  function FirstOf(mi: int): (d: Date)
    ensures MonthIndex(d) == mi && d.day == 1
  {
    CalDate(mi / 12, mi % 12, 1)
  }

  /** `current.setMonth(current.getMonth() + 1)`: the same day of the next
      month, and when that month is too short, JavaScript carries the excess
      days into the month after it. */
  function SetMonthNext(d: Date): (r: Date)
    ensures Ordinal(r) > Ordinal(d)
    ensures d.day <= DaysIn((MonthIndex(d) + 1) / 12, (MonthIndex(d) + 1) % 12) ==>
      MonthIndex(r) == MonthIndex(d) + 1 && r.day == d.day
    ensures d.day > DaysIn((MonthIndex(d) + 1) / 12, (MonthIndex(d) + 1) % 12) ==>
      MonthIndex(r) == MonthIndex(d) + 2
  {
    var mi := MonthIndex(d) + 1;
    var y, m := mi / 12, mi % 12;
    if d.day <= DaysIn(y, m) then CalDate(y, m, d.day)
    else CalDate((mi + 1) / 12, (mi + 1) % 12, d.day - DaysIn(y, m))
  }

  // ---- period keys ----

  /** The step strictly advances the position used in the loop test. */
  ghost predicate Advances<D(!new)>(stamp: D -> int, next: D -> D) {
    forall d :: stamp(next(d)) > stamp(d)
  }

  /** The dates the key loop visits: `start`, then each step, while not
      past `end`. */
  function Visits<D(!new)>(start: D, end: int, stamp: D -> int, next: D -> D): (r: seq<D>)
    requires Advances(stamp, next)
    ensures forall i :: 0 <= i < |r| ==> stamp(r[i]) <= end
    ensures |r| > 0 <==> stamp(start) <= end
    ensures |r| > 0 ==> r[0] == start
    decreases end - stamp(start)
  {
    if stamp(start) > end then [] else [start] + Visits(next(start), end, stamp, next)
  }

  function KeysOf<D>(ds: seq<D>, keyOf: D -> string): (r: seq<string>)
    ensures |r| == |ds| && forall i :: 0 <= i < |ds| ==> r[i] == keyOf(ds[i])
  {
    seq(|ds|, i requires 0 <= i < |ds| => keyOf(ds[i]))
  }

  predicate NoDuplicates(s: seq<string>) {
    forall i, j :: 0 <= i < j < |s| ==> s[i] != s[j]
  }

  /** The keys in order of first appearance, each once. */
  function Dedup(xs: seq<string>): seq<string> {
    if |xs| == 0 then []
    else
      var d := Dedup(xs[..|xs| - 1]);
      if xs[|xs| - 1] in d then d else d + [xs[|xs| - 1]]
  }

  /** Dedup keeps exactly the keys that occur, once each. */
  lemma {:induction false} DedupSpec(xs: seq<string>)
    ensures NoDuplicates(Dedup(xs))
    ensures forall x :: x in Dedup(xs) <==> x in xs
  {
    if |xs| > 0 {
      var init := xs[..|xs| - 1];
      DedupSpec(init);
      assert forall x :: x in xs <==> x in init || x == xs[|xs| - 1];
    }
  }

  /** `p` gives, for each key of `d`, the position in `xs` where that key
      first occurs, in increasing order. */
  predicate FirstPositions(xs: seq<string>, d: seq<string>, p: seq<nat>) {
    && |p| == |d|
    && (forall i :: 0 <= i < |p| ==> p[i] < |xs| && xs[p[i]] == d[i] && d[i] !in xs[..p[i]])
    && (forall i, j :: 0 <= i < j < |p| ==> p[i] < p[j])
  }

  /** Each kept key sits where the key first occurs, and the kept keys
      keep the order of those first occurrences. */
  lemma {:induction false} DedupFirstOccurrences(xs: seq<string>) returns (p: seq<nat>)
    ensures FirstPositions(xs, Dedup(xs), p)
  {
    if |xs| == 0 {
      p := [];
    } else {
      var n := |xs| - 1;
      var init := xs[..n];
      var q := DedupFirstOccurrences(init);
      DedupSpec(init);
      assert xs == init + [xs[n]];
      DedupSnoc(init, xs[n]);
      if xs[n] in Dedup(init) {
        FirstPositionsExtend(init, Dedup(init), q, xs[n]);
        p := q;
      } else {
        FirstPositionsSnoc(init, Dedup(init), q, xs[n]);
        p := q + [n];
      }
    }
  }

  lemma FirstPositionsExtend(xs: seq<string>, d: seq<string>, p: seq<nat>, x: string)
    requires FirstPositions(xs, d, p)
    ensures FirstPositions(xs + [x], d, p)
  {
    forall i | 0 <= i < |p| ensures (xs + [x])[..p[i]] == xs[..p[i]] && (xs + [x])[p[i]] == xs[p[i]] {}
  }

  lemma FirstPositionsSnoc(xs: seq<string>, d: seq<string>, p: seq<nat>, x: string)
    requires FirstPositions(xs, d, p) && x !in xs
    ensures FirstPositions(xs + [x], d + [x], p + [|xs|])
  {
    FirstPositionsExtend(xs, d, p, x);
    assert (xs + [x])[..|xs|] == xs;
  }

  lemma DedupSnoc(xs: seq<string>, x: string)
    ensures Dedup(xs + [x]) == if x in Dedup(xs) then Dedup(xs) else Dedup(xs) + [x]
  {
    assert (xs + [x])[..|xs|] == xs;
  }

  lemma KeysOfSnoc<D>(ds: seq<D>, d: D, keyOf: D -> string)
    ensures KeysOf(ds + [d], keyOf) == KeysOf(ds, keyOf) + [keyOf(d)]
  {}

  lemma VisitsStep<D(!new)>(visited: seq<D>, current: D, end: int, stamp: D -> int, next: D -> D)
    requires Advances(stamp, next) && stamp(current) <= end
    ensures visited + [current] + Visits(next(current), end, stamp, next) == visited + Visits(current, end, stamp, next)
  {
    assert Visits(current, end, stamp, next) == [current] + Visits(next(current), end, stamp, next);
  }

  /** generatePeriodKeys: visit `start`, step until past `end`, and append
      each visited date's key unless it is already listed. */
  method GeneratePeriodKeys<D(!new)>(start: D, end: int, stamp: D -> int, next: D -> D, keyOf: D -> string)
    returns (keys: seq<string>)
    requires Advances(stamp, next)
    ensures keys == Dedup(KeysOf(Visits(start, end, stamp, next), keyOf))
    ensures NoDuplicates(keys)
  {
    keys := [];
    var current := start;
    ghost var visited: seq<D> := [];
    while stamp(current) <= end
      invariant visited + Visits(current, end, stamp, next) == Visits(start, end, stamp, next)
      invariant keys == Dedup(KeysOf(visited, keyOf))
      decreases end - stamp(current)
    {
      var key := keyOf(current);
      if key !in keys {
        keys := keys + [key];
      }
      KeysOfSnoc(visited, current, keyOf);
      DedupSnoc(KeysOf(visited, keyOf), key);
      VisitsStep(visited, current, end, stamp, next);
      visited := visited + [current];
      current := next(current);
    }
    assert visited == Visits(start, end, stamp, next);
    DedupSpec(KeysOf(visited, keyOf));
  }

  lemma MonthStepAdvances()
    ensures Advances(Ordinal, SetMonthNext)
  {}

  /** The monthly keys as generatePeriodKeys computes them: stepping a
      month at a time from the start date itself. */
  function MonthlyKeysAsWritten(start: Date, end: Date): seq<string> {
    Dedup(KeysOf(Visits(start, Ordinal(end), Ordinal, SetMonthNext), MonthKeyOf))
  }

  /** The monthly keys as intended: the same loop run from the first day of
      the start month, where the step cannot overflow. */
  function MonthlyKeys(start: Date, end: Date): seq<string> {
    Dedup(KeysOf(Visits(FirstOf(MonthIndex(start)), Ordinal(end), Ordinal, SetMonthNext), MonthKeyOf))
  }

  /** From a day the next month does not have, the step lands in the month
      after it: a range ending there gets no key for the month in between,
      although that month lies inside the range. */
  lemma {:induction false} MonthStepSkipsAMonth(s: Date)
    requires s.day > DaysIn((MonthIndex(s) + 1) / 12, (MonthIndex(s) + 1) % 12)
    ensures var skipped := FirstOf(MonthIndex(s) + 1);
      && Ordinal(s) < Ordinal(skipped) < Ordinal(SetMonthNext(s))
      && MonthKeyOf(skipped) !in MonthlyKeysAsWritten(s, SetMonthNext(s))
  {
    MonthStepAdvances();
    var d1 := SetMonthNext(s);
    VisitsOneStep(s, Ordinal, SetMonthNext);
    SkippedKeyDiffers(s);
    DedupSpec(KeysOf([s, d1], MonthKeyOf));
  }

  /** Stepping once and stopping there visits two dates. */
  lemma VisitsOneStep<D(!new)>(s: D, stamp: D -> int, next: D -> D)
    requires Advances(stamp, next)
    ensures Visits(s, stamp(next(s)), stamp, next) == [s, next(s)]
  {
    var end := stamp(next(s));
    assert Visits(next(s), end, stamp, next) == [next(s)] by {
      assert Visits(next(next(s)), end, stamp, next) == [];
    }
  }

  lemma SkippedKeyDiffers(s: Date)
    requires s.day > DaysIn((MonthIndex(s) + 1) / 12, (MonthIndex(s) + 1) % 12)
    ensures var skipped := FirstOf(MonthIndex(s) + 1);
      MonthKeyOf(skipped) !in KeysOf([s, SetMonthNext(s)], MonthKeyOf)
  {
    var skipped := FirstOf(MonthIndex(s) + 1);
    var d1 := SetMonthNext(s);
    KeysOfPair(s, d1, MonthKeyOf);
    MonthKeyOfInjective(skipped, s);
    MonthKeyOfInjective(skipped, d1);
  }

  lemma KeysOfPair<D>(a: D, b: D, keyOf: D -> string)
    ensures KeysOf([a, b], keyOf) == [keyOf(a), keyOf(b)]
  {
  }

  /** Dates in different months have different keys. */
  lemma MonthKeyOfInjective(a: Date, b: Date)
    ensures MonthKeyOf(a) == MonthKeyOf(b) ==> MonthIndex(a) == MonthIndex(b)
  {
    if MonthKeyOf(a) == MonthKeyOf(b) {
      MonthKeyInjective(a.year, a.month, b.year, b.month);
    }
  }

  /** The 31st of October 2025 is such a day: the step lands on the 1st
      of December, and November gets no key. */
  lemma OctoberThirtyFirstSkipsNovember()
    ensures SetMonthNext(OctoberThirtyFirst) == DecemberFirst
    ensures MonthKey(2025, 10) !in MonthlyKeysAsWritten(OctoberThirtyFirst, DecemberFirst)
  {
    var s := OctoberThirtyFirst;
    assert SetMonthNext(s) == DecemberFirst;
    assert FirstOf(MonthIndex(s) + 1) == CalDate(2025, 10, 1);
    SkippedMonthKey(s, DecemberFirst, MonthKey(2025, 10));
  }

  lemma SkippedMonthKey(s: Date, d1: Date, k: string)
    requires s.day > DaysIn((MonthIndex(s) + 1) / 12, (MonthIndex(s) + 1) % 12)
    requires SetMonthNext(s) == d1 && k == MonthKeyOf(FirstOf(MonthIndex(s) + 1))
    ensures k !in MonthlyKeysAsWritten(s, d1)
  {
    MonthStepSkipsAMonth(s);
  }

  const OctoberThirtyFirst: Date := CalDate(2025, 9, 31)
  const DecemberFirst: Date := CalDate(2025, 11, 1)

  /** The intended stepping: from the first day of the month the step
      never overflows, so the visits are the first days of consecutive
      months. */
  lemma {:induction false} VisitsFromFirstOfMonth(mi: int, end: int)
    ensures var v := Visits(FirstOf(mi), end, Ordinal, SetMonthNext);
      && (forall k :: 0 <= k < |v| ==> v[k] == FirstOf(mi + k))
      && Ordinal(FirstOf(mi + |v|)) > end
    decreases end - Ordinal(FirstOf(mi))
  {
    MonthStepAdvances();
    var s := FirstOf(mi);
    if Ordinal(s) <= end {
      assert SetMonthNext(s) == FirstOf(mi + 1);
      VisitsFromFirstOfMonth(mi + 1, end);
      var rest := Visits(FirstOf(mi + 1), end, Ordinal, SetMonthNext);
      assert Visits(s, end, Ordinal, SetMonthNext) == [s] + rest;
    }
  }

  /** The intended keys hold the key of every month from the start date's
      month to the end date's month ... */
  lemma MonthlyKeysCoverRange(start: Date, end: Date, y: int, m: int)
    requires 0 <= m < 12 && MonthIndex(start) <= y * 12 + m <= MonthIndex(end)
    ensures MonthKey(y, m) in MonthlyKeys(start, end)
  {
    MonthStepAdvances();
    var v := Visits(FirstOf(MonthIndex(start)), Ordinal(end), Ordinal, SetMonthNext);
    VisitsFromFirstOfMonth(MonthIndex(start), Ordinal(end));
    var k := y * 12 + m - MonthIndex(start);
    assert Ordinal(FirstOf(MonthIndex(start) + k)) <= Ordinal(end);
    assert k < |v|;
    assert v[k] == FirstOf(y * 12 + m) == CalDate(y, m, 1);
    assert KeysOf(v, MonthKeyOf)[k] == MonthKey(y, m);
    DedupSpec(KeysOf(v, MonthKeyOf));
  }

  /** ... and nothing else, each once. */
  lemma MonthlyKeysWithinRange(start: Date, end: Date, key: string)
    requires key in MonthlyKeys(start, end)
    ensures NoDuplicates(MonthlyKeys(start, end))
    ensures exists mi :: MonthIndex(start) <= mi <= MonthIndex(end) && key == MonthKeyOf(FirstOf(mi))
  {
    MonthStepAdvances();
    var v := Visits(FirstOf(MonthIndex(start)), Ordinal(end), Ordinal, SetMonthNext);
    VisitsFromFirstOfMonth(MonthIndex(start), Ordinal(end));
    DedupSpec(KeysOf(v, MonthKeyOf));
    var k :| 0 <= k < |v| && KeysOf(v, MonthKeyOf)[k] == key;
    assert Ordinal(v[k]) <= Ordinal(end);
    FirstOfBound(MonthIndex(start) + k, end);
  }

  lemma FirstOfBound(mi: int, end: Date)
    requires Ordinal(FirstOf(mi)) <= Ordinal(end)
    ensures mi <= MonthIndex(end)
  {}

  // ---- counting items per period ----

  datatype Granularity = Weekly | Monthly

  /** The key `getWeekKey` or `getMonthKey` gives an Invalid Date, whose
      calendar fields all read NaN. */
  function InvalidKey(g: Granularity): string {
    match g
    case Weekly => "NaN-WNaN"
    case Monthly => "NaN-NaN"
  }

  /** A month key is never the key of an Invalid Date. */
  lemma MonthKeyIsNotInvalid(year: int, month: int)
    requires 0 <= month < 12
    ensures MonthKey(year, month) != InvalidKey(Monthly)
  {
    NatToStringHead(if year < 0 then -year else year);
    assert MonthKey(year, month)[0] == IntToString(year)[0];
  }

  /** How a chart reads its items: the field holding the date, `new Date(s)`
      (None for an Invalid Date), the granularity, the period key of a
      valid instant in the local calendar, and the window [start, end]
      that getDateRange computed. */
  datatype Frame = Frame(dateField: string, parse: string -> Option<int>, granularity: Granularity,
                         keyOf: int -> string, start: int, end: int)

  function PeriodKey(f: Frame, date: Option<int>): string {
    match date
    case None => InvalidKey(f.granularity)
    case Some(t) => f.keyOf(t)
  }

  /** The key an item is counted under, if it gets that far: its date must
      be a non-empty string, and a valid date must lie in the window. An
      Invalid Date passes the window test (every comparison with NaN is
      false) and reaches the key lookup with the NaN key. */
  function Bucket(f: Frame, item: Value): Option<string> {
    var v := Field(item, f.dateField);
    if !NonEmptyStr(v) then None
    else
      var date := f.parse(v.s);
      if date.Some? && (date.value < f.start || date.value > f.end) then None
      else Some(PeriodKey(f, date))
  }

  /** How many items are counted under `key`. */
  function Tally(f: Frame, items: seq<Value>, key: string): nat {
    if |items| == 0 then 0
    else Tally(f, items[..|items| - 1], key) + (if Bucket(f, items[|items| - 1]) == Some(key) then 1 else 0)
  }

  /** An item dated strictly before the window: a valid date below `start`. */
  predicate Before(f: Frame, item: Value) {
    var v := Field(item, f.dateField);
    NonEmptyStr(v) && f.parse(v.s).Some? && f.parse(v.s).value < f.start
  }

  function BeforeCount(f: Frame, items: seq<Value>): nat {
    if |items| == 0 then 0
    else BeforeCount(f, items[..|items| - 1]) + (if Before(f, items[|items| - 1]) then 1 else 0)
  }

  /** An item without a usable date, or dated outside the window, adds to
      no period; nor does an unparsable date, under any key but the NaN
      key. */
  lemma {:induction false} SkippedItemNotCounted(f: Frame, items: seq<Value>, x: Value, key: string)
    requires var v := Field(x, f.dateField);
      || !NonEmptyStr(v)
      || (f.parse(v.s).Some? && (f.parse(v.s).value < f.start || f.parse(v.s).value > f.end))
      || (f.parse(v.s).None? && key != InvalidKey(f.granularity))
    ensures Tally(f, items + [x], key) == Tally(f, items, key)
  {
    assert (items + [x])[..|items|] == items;
  }

  /** The periods' counts: a map from every period key to the number of
      items counted under it. */
  method CountByPeriod(f: Frame, items: seq<Value>, periodKeys: seq<string>) returns (counts: map<string, nat>)
    ensures forall k :: k in counts <==> k in periodKeys
    ensures forall k :: k in counts ==> counts[k] == Tally(f, items, k)
  {
    counts := map k | k in periodKeys :: 0;
    for i := 0 to |items|
      invariant forall k :: k in counts <==> k in periodKeys
      invariant forall k :: k in counts ==> counts[k] == Tally(f, items[..i], k)
    {
      assert items[..i + 1][..i] == items[..i];
      match Bucket(f, items[i]) {
        case None =>
        case Some(key) =>
          if key in counts {
            counts := counts[key := counts[key] + 1];
          }
      }
    }
    assert items[..|items|] == items;
  }

  datatype CountRow = CountRow(period: string, count: nat)

  /** groupByPeriodSimple: one row per period key, in order, with the
      number of items counted under it. */
  method GroupByPeriodSimple(f: Frame, items: seq<Value>, periodKeys: seq<string>) returns (rows: seq<CountRow>)
    ensures |rows| == |periodKeys|
    ensures forall j :: 0 <= j < |rows| ==> rows[j].period == periodKeys[j] && rows[j].count == Tally(f, items, periodKeys[j])
  {
    var counts := CountByPeriod(f, items, periodKeys);
    rows := seq(|periodKeys|, j requires 0 <= j < |periodKeys| => CountRow(periodKeys[j], counts[periodKeys[j]]));
  }

  /** The counts of a list of keys. */
  function SumTallies(f: Frame, items: seq<Value>, keys: seq<string>): nat {
    if |keys| == 0 then 0 else Tally(f, items, keys[0]) + SumTallies(f, items, keys[1..])
  }

  /** How many of `keys` the optional key `b` is. */
  function Hits(keys: seq<string>, b: Option<string>): nat {
    if |keys| == 0 then 0 else (if b == Some(keys[0]) then 1 else 0) + Hits(keys[1..], b)
  }

  lemma {:induction false} HitsAtMostOne(keys: seq<string>, b: Option<string>)
    requires NoDuplicates(keys)
    ensures Hits(keys, b) <= 1
    ensures Hits(keys, b) == 1 <==> b.Some? && b.value in keys
  {
    if |keys| > 0 {
      HitsAtMostOne(keys[1..], b);
      if b == Some(keys[0]) {
        assert keys[0] !in keys[1..];
      }
      assert forall x :: x in keys <==> x == keys[0] || x in keys[1..];
    }
  }

  lemma {:induction false} SumTalliesSnoc(f: Frame, items: seq<Value>, x: Value, keys: seq<string>)
    ensures SumTallies(f, items + [x], keys) == SumTallies(f, items, keys) + Hits(keys, Bucket(f, x))
  {
    if |keys| > 0 {
      SumTalliesSnoc(f, items, x, keys[1..]);
      assert (items + [x])[..|items|] == items;
    }
  }

  lemma {:induction false} NothingTallied(f: Frame, items: seq<Value>, keys: seq<string>)
    requires |items| == 0
    ensures SumTallies(f, items, keys) == 0
  {
    if |keys| > 0 {
      NothingTallied(f, items, keys[1..]);
    }
  }

  /** No item is counted twice: with distinct period keys, the items before
      the window and the items counted in some period together number at
      most the items. */
  lemma {:induction false} CountedAtMostOnce(f: Frame, items: seq<Value>, keys: seq<string>)
    requires NoDuplicates(keys)
    ensures BeforeCount(f, items) + SumTallies(f, items, keys) <= |items|
  {
    if |items| > 0 {
      var init, x := items[..|items| - 1], items[|items| - 1];
      CountedAtMostOnce(f, init, keys);
      assert items == init + [x];
      SumTalliesSnoc(f, init, x, keys);
      HitsAtMostOne(keys, Bucket(f, x));
      assert BeforeCount(f, items) == BeforeCount(f, init) + (if Before(f, x) then 1 else 0);
      if Before(f, x) {
        assert Bucket(f, x).None?;
        assert Hits(keys, None) == 0 by { HitsAtMostOne(keys, None); }
      }
      assert (if Before(f, x) then 1 else 0) + Hits(keys, Bucket(f, x)) <= 1;
    } else {
      NothingTallied(f, items, keys);
    }
  }

  // ---- counting per category ----

  /** `String(item[categoryField] || 'other')` */
  function CategoryOf(item: Value, field: string): (c: string)
    ensures !Truthy(Field(item, field)) ==> c == "other"
    ensures Truthy(Field(item, field)) ==> c == Display(Field(item, field))
    ensures NonEmptyStr(Field(item, field)) ==> c == Field(item, field).s
  {
    Display(Or(Field(item, field), Str("other")))
  }

  /** The period and category an item is counted under, if it gets past
      the date tests. */
  function Cell(f: Frame, field: string, item: Value): Option<(string, string)> {
    match Bucket(f, item)
    case None => None
    case Some(key) => Some((key, CategoryOf(item, field)))
  }

  /** How many items counted under `key` have category `cat`. */
  function CatTally(f: Frame, field: string, items: seq<Value>, key: string, cat: string): nat {
    if |items| == 0 then 0
    else
      CatTally(f, field, items[..|items| - 1], key, cat)
        + (if Cell(f, field, items[|items| - 1]) == Some((key, cat)) then 1 else 0)
  }

  lemma CatTallySnoc(f: Frame, field: string, items: seq<Value>, x: Value, key: string, cat: string)
    ensures CatTally(f, field, items + [x], key, cat) ==
      CatTally(f, field, items, key, cat) + (if Cell(f, field, x) == Some((key, cat)) then 1 else 0)
  {
    assert (items + [x])[..|items|] == items;
  }

  datatype CategoryRow = CategoryRow(period: string, counts: map<string, nat>)

  /** groupByPeriod: one row per period key, in order, holding a count for
      every listed category; an item whose category is not listed adds to
      nothing. */
  method GroupByPeriod(f: Frame, categoryField: string, items: seq<Value>, periodKeys: seq<string>,
                       categories: seq<string>) returns (rows: seq<CategoryRow>)
    ensures |rows| == |periodKeys|
    ensures forall j :: 0 <= j < |rows| ==> rows[j].period == periodKeys[j]
    ensures forall j :: 0 <= j < |rows| ==> forall c :: c in rows[j].counts <==> c in categories
    ensures forall j, c :: 0 <= j < |rows| && c in rows[j].counts ==>
      rows[j].counts[c] == CatTally(f, categoryField, items, periodKeys[j], c)
  {
    var table := map k, c | k in periodKeys && c in categories :: (k, c) := 0;
    for i := 0 to |items|
      invariant Tabulated(table, periodKeys, categories, (k, c) => CatTally(f, categoryField, items[..i], k, c))
    {
      var cell := Cell(f, categoryField, items[i]);
      assert items[..i + 1] == items[..i] + [items[i]];
      forall k, c ensures CatTally(f, categoryField, items[..i + 1], k, c) ==
        CatTally(f, categoryField, items[..i], k, c) + (if cell == Some((k, c)) then 1 else 0)
      {
        CatTallySnoc(f, categoryField, items[..i], items[i], k, c);
      }
      BumpStep(table, periodKeys, categories, (k, c) => CatTally(f, categoryField, items[..i], k, c),
               (k, c) => CatTally(f, categoryField, items[..i + 1], k, c), cell);
      table := Bump(table, cell);
    }
    assert items[..|items|] == items;
    rows := seq(|periodKeys|, j requires 0 <= j < |periodKeys| =>
      CategoryRow(periodKeys[j], map c | c in categories :: table[(periodKeys[j], c)]));
  }

  /** groupByPeriod's count table, one cell per period key and category
      (the nested `periodMap[key][cat]` flattened), holding the count so
      far. */
  ghost predicate Tabulated(table: map<(string, string), nat>, periodKeys: seq<string>,
                            categories: seq<string>, count: (string, string) -> nat) {
    && (forall p :: p in table <==> p.0 in periodKeys && p.1 in categories)
    && (forall p :: p in table ==> table[p] == count(p.0, p.1))
  }

  /** One pass of the counting loop: the item's cell, if the table has it,
      goes up by one. */
  function Bump(table: map<(string, string), nat>, cell: Option<(string, string)>): map<(string, string), nat> {
    if cell.Some? && cell.value in table then table[cell.value := table[cell.value] + 1] else table
  }

  lemma BumpStep(table: map<(string, string), nat>, periodKeys: seq<string>, categories: seq<string>,
                 count: (string, string) -> nat, count': (string, string) -> nat, cell: Option<(string, string)>)
    requires Tabulated(table, periodKeys, categories, count)
    requires forall k, c :: count'(k, c) == count(k, c) + (if cell == Some((k, c)) then 1 else 0)
    ensures Tabulated(Bump(table, cell), periodKeys, categories, count')
  {
    var next := Bump(table, cell);
    forall p | p in next ensures next[p] == count'(p.0, p.1) {
      assert count'(p.0, p.1) == count(p.0, p.1) + (if cell == Some((p.0, p.1)) then 1 else 0);
      assert p == (p.0, p.1);
    }
  }

  function SumCats(f: Frame, field: string, items: seq<Value>, key: string, cats: seq<string>): nat {
    if |cats| == 0 then 0 else CatTally(f, field, items, key, cats[0]) + SumCats(f, field, items, key, cats[1..])
  }

  lemma {:induction false} SumCatsSnoc(f: Frame, field: string, items: seq<Value>, x: Value, key: string, cats: seq<string>)
    ensures SumCats(f, field, items + [x], key, cats) ==
      SumCats(f, field, items, key, cats) + (if Bucket(f, x) == Some(key) then Hits(cats, Some(CategoryOf(x, field))) else 0)
  {
    if |cats| > 0 {
      SumCatsSnoc(f, field, items, x, key, cats[1..]);
      assert (items + [x])[..|items|] == items;
    }
  }

  lemma {:induction false} NoCategoryTallied(f: Frame, field: string, items: seq<Value>, key: string, cats: seq<string>)
    requires |items| == 0
    ensures SumCats(f, field, items, key, cats) == 0
  {
    if |cats| > 0 {
      NoCategoryTallied(f, field, items, key, cats[1..]);
    }
  }

  /** The category breakdown of a period never exceeds its simple count,
      and matches it when every item counted there has a listed category
      (as the default "other" must be, for items without one). */
  lemma {:induction false} CategoryBreakdown(f: Frame, field: string, items: seq<Value>, key: string, cats: seq<string>)
    requires NoDuplicates(cats)
    ensures SumCats(f, field, items, key, cats) <= Tally(f, items, key)
    ensures (forall i :: 0 <= i < |items| && Bucket(f, items[i]) == Some(key) ==> CategoryOf(items[i], field) in cats) ==>
      SumCats(f, field, items, key, cats) == Tally(f, items, key)
  {
    if |items| > 0 {
      var init, x := items[..|items| - 1], items[|items| - 1];
      CategoryBreakdown(f, field, init, key, cats);
      assert items == init + [x];
      SumCatsSnoc(f, field, init, x, key, cats);
      HitsAtMostOne(cats, Some(CategoryOf(x, field)));
      assert forall i :: 0 <= i < |init| ==> init[i] == items[i];
    } else {
      NoCategoryTallied(f, field, items, key, cats);
    }
  }

  // ---- cumulative growth ----

  datatype GrowthRow = GrowthRow(period: string, total: nat, added: nat)

  /** Each row's total is the previous total (the baseline for the first
      row) plus the row's own additions. */
  predicate Accumulates(base: nat, rows: seq<GrowthRow>) {
    forall j :: 0 <= j < |rows| ==> Adds(base, rows, j)
  }

  predicate Adds(base: nat, rows: seq<GrowthRow>, j: nat)
    requires j < |rows|
  {
    rows[j].total == Previous(base, rows, j) + rows[j].added
  }

  /** The total before row `j`. */
  function Previous(base: nat, rows: seq<GrowthRow>, j: nat): nat
    requires j <= |rows|
  {
    if j == 0 then base else rows[j - 1].total
  }

  /** calculateCumulativeGrowth: the items before the window form the
      baseline, each period adds its count, and each row carries the
      running total. */
  method CalculateCumulativeGrowth(f: Frame, items: seq<Value>, periodKeys: seq<string>) returns (rows: seq<GrowthRow>)
    ensures |rows| == |periodKeys|
    ensures forall j :: 0 <= j < |rows| ==> rows[j].period == periodKeys[j] && rows[j].added == Tally(f, items, periodKeys[j])
    ensures Accumulates(BeforeCount(f, items), rows)
  {
    var baseline := 0;
    for i := 0 to |items|
      invariant baseline == BeforeCount(f, items[..i])
    {
      assert items[..i + 1][..i] == items[..i];
      var v := Field(items[i], f.dateField);
      if NonEmptyStr(v) {
        var date := f.parse(v.s);
        if date.Some? && date.value < f.start {
          baseline := baseline + 1;
        }
      }
    }
    assert items[..|items|] == items;
    var counts := CountByPeriod(f, items, periodKeys);
    var cumulative := baseline;
    rows := [];
    for j := 0 to |periodKeys|
      invariant |rows| == j
      invariant forall i :: 0 <= i < j ==> rows[i].period == periodKeys[i] && rows[i].added == Tally(f, items, periodKeys[i])
      invariant Accumulates(baseline, rows)
      invariant cumulative == Previous(baseline, rows, j)
    {
      cumulative := cumulative + counts[periodKeys[j]];
      var row := GrowthRow(periodKeys[j], cumulative, counts[periodKeys[j]]);
      AccumulatesSnoc(baseline, rows, row);
      rows := rows + [row];
    }
  }

  lemma AccumulatesSnoc(base: nat, rows: seq<GrowthRow>, row: GrowthRow)
    requires Accumulates(base, rows) && row.total == Previous(base, rows, |rows|) + row.added
    ensures Accumulates(base, rows + [row])
  {
    var next := rows + [row];
    forall j | 0 <= j < |next|
      ensures Adds(base, next, j)
    {
      if j < |rows| {
        assert Adds(base, rows, j);
        assert next[j] == rows[j];
        if j > 0 {
          assert next[j - 1] == rows[j - 1];
        }
      }
    }
  }

  lemma AccumulatesPrefix(base: nat, rows: seq<GrowthRow>)
    requires Accumulates(base, rows) && |rows| > 0
    ensures Accumulates(base, rows[..|rows| - 1])
  {
    var init := rows[..|rows| - 1];
    forall j | 0 <= j < |init|
      ensures Adds(base, init, j)
    {
      assert Adds(base, rows, j);
      assert init[j] == rows[j];
      if j > 0 {
        assert init[j - 1] == rows[j - 1];
      }
    }
  }

  /** The totals never fall, and never drop below the baseline. */
  lemma {:induction false} TotalsNonDecreasing(base: nat, rows: seq<GrowthRow>)
    requires Accumulates(base, rows)
    ensures forall i, j :: 0 <= i <= j < |rows| ==> base <= rows[i].total <= rows[j].total
  {
    if |rows| > 0 {
      var init := rows[..|rows| - 1];
      AccumulatesPrefix(base, rows);
      TotalsNonDecreasing(base, init);
      var n := |rows| - 1;
      assert forall i :: 0 <= i < n ==> rows[i] == init[i];
      assert Adds(base, rows, n);
      assert base <= rows[n].total && (n > 0 ==> rows[n - 1].total <= rows[n].total);
    }
  }

  function SumAdded(rows: seq<GrowthRow>): nat {
    if |rows| == 0 then 0 else SumAdded(rows[..|rows| - 1]) + rows[|rows| - 1].added
  }

  lemma {:induction false} LastTotal(base: nat, rows: seq<GrowthRow>)
    requires Accumulates(base, rows) && |rows| > 0
    ensures rows[|rows| - 1].total == base + SumAdded(rows)
  {
    var n := |rows| - 1;
    assert Adds(base, rows, n);
    if n > 0 {
      var init := rows[..n];
      AccumulatesPrefix(base, rows);
      LastTotal(base, init);
      assert init[n - 1] == rows[n - 1];
    }
  }

  lemma {:induction false} SumAddedIsSumTallies(f: Frame, items: seq<Value>, keys: seq<string>, rows: seq<GrowthRow>)
    requires |rows| == |keys|
    requires forall j :: 0 <= j < |rows| ==> rows[j].added == Tally(f, items, keys[j])
    ensures SumAdded(rows) == SumTallies(f, items, keys)
  {
    if |rows| > 0 {
      SumAddedIsSumTallies(f, items, keys[..|keys| - 1], rows[..|rows| - 1]);
      SumTalliesSplit(f, items, keys[..|keys| - 1], keys[|keys| - 1]);
      assert keys == keys[..|keys| - 1] + [keys[|keys| - 1]];
    }
  }

  lemma {:induction false} SumTalliesSplit(f: Frame, items: seq<Value>, keys: seq<string>, k: string)
    ensures SumTallies(f, items, keys + [k]) == SumTallies(f, items, keys) + Tally(f, items, k)
  {
    if |keys| > 0 {
      SumTalliesSplit(f, items, keys[1..], k);
      assert (keys + [k])[1..] == keys[1..] + [k];
    }
  }

  /** With distinct period keys the final total counts every item at most
      once: it never exceeds the number of items. */
  lemma GrowthEndsWithinItems(f: Frame, items: seq<Value>, keys: seq<string>, rows: seq<GrowthRow>)
    requires NoDuplicates(keys) && |rows| == |keys| > 0
    requires forall j :: 0 <= j < |rows| ==> rows[j].added == Tally(f, items, keys[j])
    requires Accumulates(BeforeCount(f, items), rows)
    ensures rows[|rows| - 1].total <= |items|
  {
    LastTotal(BeforeCount(f, items), rows);
    SumAddedIsSumTallies(f, items, keys, rows);
    CountedAtMostOnce(f, items, keys);
  }
}

=== FILE: content_script.dfy ===
/** The content script's choice of parser, and whether it offers the
    floating "add to tracker" button. Each site parser's `isXxxJobPage`
    export is taken to be loaded. */
module ContentScript {

  import opened Wrappers
  import opened JsValues
  import opened Pages
  import LinkedInParser
  import IndeedParser
  import GenericParser

  /** The cascade itself, over each parser's page test and result. */
  function Cascade(onLinkedIn: bool, linkedIn: Option<Job>, onIndeed: bool, indeed: Option<Job>,
                   generic: Option<Job>): (r: Option<Job>)
    ensures onLinkedIn && linkedIn.Some? ==> r == linkedIn
    ensures !(onLinkedIn && linkedIn.Some?) && onIndeed && indeed.Some? ==> r == indeed
    ensures !(onLinkedIn && linkedIn.Some?) && !(onIndeed && indeed.Some?) ==> r == generic
  {
    if onLinkedIn && linkedIn.Some? then linkedIn
    else if onIndeed && indeed.Some? then indeed
    else generic
  }

  /** extractJobDataFromPage: LinkedIn on a LinkedIn job page, then Indeed
      on an Indeed job page, each only if it produced a record, and the
      generic parser otherwise. */
  function ExtractJobData(page: Page): (r: Option<Job>)
    ensures LinkedInParser.Extract(page).Some? ==> r == LinkedInParser.Extract(page)
    ensures LinkedInParser.Extract(page).None? && IndeedParser.Extract(page).Some? ==>
      r == IndeedParser.Extract(page)
    ensures LinkedInParser.Extract(page).None? && IndeedParser.Extract(page).None? ==>
      r == GenericParser.Generic(page)
  {
    Cascade(LinkedInParser.IsLinkedInJobPage(page), LinkedInParser.Extract(page),
            IndeedParser.IsIndeedJobPage(page), IndeedParser.Extract(page),
            GenericParser.Generic(page))
  }

  /** Whichever parser supplies it, the record has a title, the page's URL
      and the status "interested". */
  lemma ExtractedRecord(page: Page)
    ensures var r := ExtractJobData(page);
      r.Some? ==> Truthy(r.value.jobTitle) && r.value.jobUrl == Str(page.href) && r.value.status == Interested
  {
    LinkedInRecord(page);
    IndeedRecord(page);
    GenericRecord(page);
  }

  predicate WellFormed(r: Option<Job>, href: string) {
    r.Some? ==> Truthy(r.value.jobTitle) && r.value.jobUrl == Str(href) && r.value.status == Interested
  }

  lemma LinkedInRecord(page: Page)
    ensures WellFormed(LinkedInParser.Extract(page), page.href)
  {
    LinkedInTitled(page);
  }

  lemma LinkedInTitled(page: Page)
    ensures LinkedInParser.Extract(page).Some? ==> Truthy(LinkedInParser.Extract(page).value.jobTitle)
  {
    var title := FirstText(page, LinkedInParser.TitleSelectors, LinkedInParser.NonEmpty);
    if title.Some? {
      assert LinkedInParser.NonEmpty(title.value);
    }
  }

  lemma IndeedRecord(page: Page)
    ensures WellFormed(IndeedParser.Extract(page), page.href)
  {}

  lemma GenericRecord(page: Page)
    ensures WellFormed(GenericParser.Generic(page), page.href)
  {}

  /** initializeFloatingButton: the button is shown when a record with a
      title was found. */
  predicate ShowsButton(page: Page) {
    ExtractJobData(page).Some? && Truthy(ExtractJobData(page).value.jobTitle)
  }

  /** The title test is redundant: every parser that returns a record has
      given it a title, so the button shows exactly when some parser
      succeeds. */
  lemma ShowsButtonIffExtracted(page: Page)
    ensures ShowsButton(page) <==> ExtractJobData(page).Some?
  {
    ExtractedRecord(page);
  }

  /** A page the site parsers do not recognise goes to the generic parser. */
  lemma UnknownSiteIsGeneric(page: Page)
    requires !LinkedInParser.IsLinkedInJobPage(page) && !IndeedParser.IsIndeedJobPage(page)
    ensures ExtractJobData(page) == GenericParser.Generic(page)
  {}

  /** A recognised LinkedIn page whose top card yields nothing still gets
      the generic parser (Indeed's host test fails on it). */
  lemma LinkedInFallsBackToGeneric(page: Page)
    requires LinkedInParser.IsLinkedInJobPage(page) && LinkedInParser.Extract(page).None?
    ensures ExtractJobData(page) == GenericParser.Generic(page)
  {
    LinkedInHostIsNotIndeed(page.hostname);
  }

  /** No page passes both site tests, so the order of the two site parsers
      in the cascade does not matter. */
  lemma SitePagesDisjoint(page: Page)
    ensures !(LinkedInParser.IsLinkedInJobPage(page) && IndeedParser.IsIndeedJobPage(page))
  {
    if LinkedInParser.IsLinkedInJobPage(page) {
      LinkedInHostIsNotIndeed(page.hostname);
    }
  }

  /** "www.linkedin.com" does not contain "indeed.com". */
  lemma LinkedInHostIsNotIndeed(host: string)
    requires host == "www.linkedin.com"
    ensures !Ascii.Contains(host, "indeed.com")
  {
    var t := "indeed.com";
    forall i | 0 <= i <= |host| ensures !Ascii.OccursAt(host, t, i) {
      if i + |t| <= |host| {
        var k := if i == 5 then 2 else 0;
        assert host[i..i + |t|][k] == host[i + k] != t[k];
      }
    }
  }
}

=== FILE: extension_api.dfy ===
/** What the two extension endpoints (sync-connections and lookup-contact)
    share: the `x-api-key` check, the request and database-result shapes,
    and the two LinkedIn URL helpers, which both route files carry as
    identical copies.

    WHATWG URL parsing is a parameter: `parse` stands for
    `new URL(u).pathname`, None when the constructor throws. */
module ExtensionApi {

  import opened Wrappers
  import opened Ascii
  import opened JsValues

  // ---- normalizeLinkedInUrl ----

  /** normalizeLinkedInUrl: a URL without a scheme gets "https://"; the
      result is the lowercased pathname with one trailing '/' removed, or,
      when the URL does not parse, the prefixed URL lowercased. */
  function NormalizeLinkedInUrl(url: string, parse: string -> Option<string>): (r: string)
    ensures HasNoUpper(r)
    ensures var full := if StartsWith(url, "http") then url else "https://" + url;
      match parse(full)
      case None =>
        && StartsWith(r, "http")
        && (StartsWith(url, "http") ==> r == Lower(url))
        && (!StartsWith(url, "http") ==> r == "https://" + Lower(url))
      case Some(p) =>
        && |r| <= |p| <= |r| + 1
        && r == Lower(p)[..|r|]
        && (|r| < |p| <==> EndsWith(p, "/"))
  {
    var full := if StartsWith(url, "http") then url else "https://" + url;
    LowerConcat("https://", url);
    assert Lower("https://") == "https://";
    match parse(full)
    case None => Lower(full)
    case Some(p) =>
      var path := if EndsWith(p, "/") then p[..|p| - 1] else p;
      assert Lower(p)[..|path|] == Lower(path);
      Lower(path)
  }

  // ---- extractUsername ----

  /** The literal part of /linkedin\.com\/in\/([^\/\?]+)/i, lowercased. */
  const InPath: string := "linkedin.com/in/"

  /** The class [^\/\?]. */
  predicate UserChar(c: char) { c != '/' && c != '?' }

  /** The regex matches the lowercased text `low` starting at index `i`:
      the literal part occurs there and is followed by at least one
      character of the capture class. */
  predicate UserMatchAt(low: string, i: int) {
    OccursAt(low, InPath, i) && i + |InPath| < |low| && UserChar(low[i + |InPath|])
  }

  /** `u` is the greedy capture starting at `k`: a non-empty run of the
      capture class that cannot be extended. */
  predicate MaximalRunAt(s: string, k: int, u: string) {
    && 0 <= k && k + |u| <= |s| && s[k..k + |u|] == u
    && |u| > 0
    && (forall j :: 0 <= j < |u| ==> UserChar(u[j]))
    && (k + |u| == |s| || !UserChar(s[k + |u|]))
  }

  /** Length of the longest run of the capture class starting at `k`. */
  function RunFrom(s: string, k: nat): (n: nat)
    requires k <= |s|
    ensures k + n <= |s|
    ensures forall j :: k <= j < k + n ==> UserChar(s[j])
    ensures k + n == |s| || !UserChar(s[k + n])
    decreases |s| - k
  {
    if k < |s| && UserChar(s[k]) then 1 + RunFrom(s, k + 1) else 0
  }

  /** The leftmost index at or after `i` where the regex matches. */
  function FirstUserMatch(low: string, i: nat): (r: Option<nat>)
    requires i <= |low|
    ensures r.Some? ==> i <= r.value && UserMatchAt(low, r.value)
    ensures r.Some? ==> forall j :: i <= j < r.value ==> !UserMatchAt(low, j)
    ensures r.None? ==> forall j :: i <= j <= |low| ==> !UserMatchAt(low, j)
    decreases |low| - i
  {
    if i == |low| then None
    else if UserMatchAt(low, i) then Some(i)
    else FirstUserMatch(low, i + 1)
  }

  /** extractUsername: the lowercased capture of the leftmost
      case-insensitive match, or "" when the regex does not match. */
  function ExtractUsername(url: string): (r: string)
    ensures HasNoUpper(r)
    ensures forall j :: 0 <= j < |r| ==> UserChar(r[j])
    ensures r != "" <==> exists i :: 0 <= i <= |url| && UserMatchAt(Lower(url), i)
    ensures r != "" ==> exists i :: (0 <= i <= |url| && UserMatchAt(Lower(url), i)
      && (forall j :: 0 <= j < i ==> !UserMatchAt(Lower(url), j))
      && MaximalRunAt(Lower(url), i + |InPath|, r))
  {
    var low := Lower(url);
    match FirstUserMatch(low, 0)
    case None => ""
    case Some(i) =>
      var k := i + |InPath|;
      var n := RunFrom(low, k);
      var r := low[k..k + n];
      assert MaximalRunAt(low, k, r);
      r
  }

  /** A maximal run is the one RunFrom measures. */
  lemma {:induction false} MaximalRunIsRunFrom(s: string, k: nat, u: string)
    requires MaximalRunAt(s, k, u)
    ensures RunFrom(s, k) == |u|
    decreases |u|
  {
    if |u| == 1 {
      assert RunFrom(s, k + 1) == 0;
    } else {
      assert s[k + 1..k + |u|] == u[1..];
      MaximalRunIsRunFrom(s, k + 1, u[1..]);
    }
  }

  /** No match can start before the first 'l'. */
  lemma NoMatchBeforeL(low: string, i: int)
    requires 0 <= i <= |low|
    requires forall j :: 0 <= j < i ==> low[j] != 'l'
    ensures forall j :: 0 <= j < i ==> !UserMatchAt(low, j)
  {
    forall j | 0 <= j < i ensures !OccursAt(low, InPath, j) {
      if j + |InPath| <= |low| {
        assert low[j..j + |InPath|][0] != InPath[0];
      }
    }
  }

  /** Where the pieces of a profile URL sit in its lowercased form. */
  lemma ProfileUrlShape(pre: string, host: string, user: string, rest: string)
    requires forall j :: 0 <= j < |pre| ==> LowerChar(pre[j]) != 'l'
    requires Lower(host) == InPath
    requires |user| > 0 && forall j :: 0 <= j < |user| ==> UserChar(user[j])
    requires rest == "" || !UserChar(rest[0])
    ensures var low := Lower(pre + host + user + rest);
      && UserMatchAt(low, |pre|)
      && (forall j :: 0 <= j < |pre| ==> !UserMatchAt(low, j))
      && MaximalRunAt(low, |pre| + |InPath|, Lower(user))
  {
    var url := pre + host + user + rest;
    var low := Lower(url);
    var i := |pre|;
    var k := i + |InPath|;
    assert low == Lower(pre) + InPath + Lower(user) + Lower(rest) by {
      LowerConcat(pre + host + user, rest);
      LowerConcat(pre + host, user);
      LowerConcat(pre, host);
    }
    assert low[i..k] == InPath;
    assert low[k..k + |user|] == Lower(user);
    NoMatchBeforeL(low, i);
    if k + |user| < |low| {
      assert low[k + |user|] == LowerChar(rest[0]);
    }
  }

  /** Conversely, the capture at the leftmost match is the username. */
  lemma ExtractUsernameOfMatch(url: string, i: nat, u: string)
    requires UserMatchAt(Lower(url), i)
    requires forall j :: 0 <= j < i ==> !UserMatchAt(Lower(url), j)
    requires MaximalRunAt(Lower(url), i + |InPath|, u)
    ensures ExtractUsername(url) == u
  {
    var low := Lower(url);
    assert FirstUserMatch(low, 0) == Some(i);
    MaximalRunIsRunFrom(low, i + |InPath|, u);
  }

  /** For a profile URL — any text free of 'l' and 'L', then
      "linkedin.com/in/" in any case, the user name, then nothing or a
      path or query — the username is the user name lowercased. */
  lemma ExtractUsernameOfProfileUrl(pre: string, host: string, user: string, rest: string)
    requires forall j :: 0 <= j < |pre| ==> LowerChar(pre[j]) != 'l'
    requires Lower(host) == InPath
    requires |user| > 0 && forall j :: 0 <= j < |user| ==> UserChar(user[j])
    requires rest == "" || !UserChar(rest[0])
    ensures ExtractUsername(pre + host + user + rest) == Lower(user)
  {
    ProfileUrlShape(pre, host, user, rest);
    ExtractUsernameOfMatch(pre + host + user + rest, |pre|, Lower(user));
  }

  // ---- requests and database results ----

  /** `x-api-key` check: the header must be present, non-empty and equal to
      the configured key (an unset key rejects every request). */
  predicate ApiKeyAccepted(header: Option<string>, configured: Option<string>) {
    header.Some? && header.value != "" && configured == Some(header.value)
  }

  /** The incoming request: the `x-api-key` header, and the body as
      `request.json()` resolves it (None when it rejects). */
  datatype Request = Request(apiKey: Option<string>, body: Option<Value>)

  datatype DbError = DbError(code: string, message: string)

  /** What `.limit(1).single()` resolves to: the row, if any, and the error,
      if any. */
  datatype DbResult<T> = DbResult(row: Option<T>, error: Option<DbError>)

  /** What an `insert(...).select()` resolves to: the stored data and the
      error, if any. */
  datatype InsertResult = InsertResult(data: Value, error: Option<DbError>)

  /** PostgREST's "no rows returned" code, which both endpoints treat as a
      plain miss. */
  const NoRows: string := "PGRST116"

  predicate LookupFailed<T>(res: DbResult<T>) {
    res.error.Some? && res.error.value.code != NoRows
  }

}

=== FILE: generic_parser.dfy ===
/** The fallback parser for job pages on any site: schema.org JobPosting
    data embedded as JSON-LD first, then common CSS selectors. */
module GenericParser {

  import opened Wrappers
  import opened Ascii
  import opened JsValues
  import opened Pages

  // ---- schema.org structured data ----

  /** `item['@type'] === 'JobPosting'` for an item that is not null. */
  predicate IsPosting(v: Value) {
    Field(v, "@type") == Str("JobPosting")
  }

  /** `data.find(item => item['@type'] === 'JobPosting')` from index `i`:
      the index of the first posting, or None when there is none or when
      a null or undefined item comes first (reading '@type' from it
      throws). */
  function FindPosting(items: seq<Value>, i: nat): (r: Option<nat>)
    requires i <= |items|
    ensures r.Some? ==> i <= r.value < |items| && IsPosting(items[r.value])
    ensures r.Some? ==> forall k :: i <= k < r.value ==> !Nullish(items[k]) && !IsPosting(items[k])
    ensures r.None? ==> forall j :: i <= j < |items| && IsPosting(items[j]) ==>
      exists k :: i <= k < j && Nullish(items[k])
    decreases |items| - i
  {
    if i == |items| then None
    else if Nullish(items[i]) then None
    else if IsPosting(items[i]) then Some(i)
    else FindPosting(items, i + 1)
  }

  /** The JobPosting a parsed JSON-LD block holds: the first posting of an
      array, or the block itself. None when there is none or the search
      throws (a null block, or a null item before the posting). */
  function Posting(data: Value): (r: Option<Value>)
    ensures r.Some? ==> IsPosting(r.value) && r.value.Obj?
    ensures !data.Arr? ==> (r.Some? <==> IsPosting(data))
    ensures !data.Arr? && r.Some? ==> r.value == data
    ensures data.Arr? ==> (r.Some? <==> FindPosting(data.items, 0).Some?)
    ensures data.Arr? && r.Some? ==> r.value == data.items[FindPosting(data.items, 0).value]
  {
    if data.Arr? then
      match FindPosting(data.items, 0)
      case None => None
      case Some(j) => Some(data.items[j])
    else if Nullish(data) then None
    else if IsPosting(data) then Some(data)
    else None
  }

  /** `jobLocation?.address?.addressLocality || jobLocation?.address?.addressRegion
      || (typeof jobLocation === 'string' ? jobLocation : null)` */
  function LocationOf(jl: Value): (r: Value)
    ensures var locality := OptField(OptField(jl, "address"), "addressLocality");
      var region := OptField(OptField(jl, "address"), "addressRegion");
      && (Truthy(locality) ==> r == locality)
      && (!Truthy(locality) && Truthy(region) ==> r == region)
      && (!Truthy(locality) && !Truthy(region) && jl.Str? ==> r == jl)
      && (!Truthy(locality) && !Truthy(region) && !jl.Str? ==> r == Null)
    ensures jl.Str? && jl.s != "" ==> r == jl
    ensures !Truthy(r) ==> r == Null || r == Str("")
  {
    var address := OptField(jl, "address");
    Or(Or(OptField(address, "addressLocality"), OptField(address, "addressRegion")),
       if jl.Str? then jl else Null)
  }

  /** `baseSalary?.value?.value || baseSalary?.value
      || (typeof baseSalary === 'string' ? baseSalary : null)` */
  function SalaryOf(bs: Value): (r: Value)
    ensures var outer := OptField(bs, "value");
      var inner := OptField(outer, "value");
      && (Truthy(inner) ==> r == inner)
      && (!Truthy(inner) && Truthy(outer) ==> r == outer)
      && (!Truthy(inner) && !Truthy(outer) && bs.Str? ==> r == bs)
      && (!Truthy(inner) && !Truthy(outer) && !bs.Str? ==> r == Null)
    ensures bs.Str? && bs.s != "" ==> r == bs
    ensures !Truthy(r) ==> r == Null || r == Str("")
  {
    Or(Or(OptField(OptField(bs, "value"), "value"), OptField(bs, "value")),
       if bs.Str? then bs else Null)
  }

  /** The record built from a posting. None when `description` is neither
      a string nor null/undefined: `description?.substring` is then not a
      function and the call throws, which skips the block. */
  function Record(jp: Value, href: string): (r: Option<Job>)
    ensures r.None? <==> !Nullish(Field(jp, "description")) && !Field(jp, "description").Str?
    ensures r.Some? ==>
      var j := r.value;
      && j.jobUrl == Str(href) && j.status == Interested
      && (j.jobTitle == Null || Truthy(j.jobTitle))
      && CopiedOrNull(j.jobTitle, jp, "title")
      && (j.company == Null || Truthy(j.company))
      && j.company == Or(OptField(Field(jp, "hiringOrganization"), "name"), Null)
      && j.location == LocationOf(Field(jp, "jobLocation"))
      && j.salary == SalaryOf(Field(jp, "baseSalary"))
      && (Field(jp, "description").Str? ==>
            j.jobDescription == Or(Str(Prefix(Field(jp, "description").s, 2000)), Null))
      && (Nullish(Field(jp, "description")) ==> j.jobDescription == Null)
      && (j.jobDescription == Null || (j.jobDescription.Str? && 0 < |j.jobDescription.s| <= 2000
            && Field(jp, "description").Str? && |j.jobDescription.s| <= |Field(jp, "description").s|
            && j.jobDescription.s == Field(jp, "description").s[..|j.jobDescription.s|]))
      && (j.notes == Null <==> !Truthy(Field(jp, "employmentType")))
      && (Truthy(Field(jp, "employmentType")) ==> j.notes == Str("Type: " + Display(Field(jp, "employmentType"))))
  {
    var d := Field(jp, "description");
    if !Nullish(d) && !d.Str? then None
    else
      var et := Field(jp, "employmentType");
      Some(Job(
        Or(Field(jp, "title"), Null),
        Or(OptField(Field(jp, "hiringOrganization"), "name"), Null),
        LocationOf(Field(jp, "jobLocation")),
        SalaryOf(Field(jp, "baseSalary")),
        Str(href),
        if d.Str? then Or(Str(Prefix(d.s, 2000)), Null) else Null,
        Interested,
        if Truthy(et) then Str("Type: " + Display(et)) else Null))
  }

  /** What one script block yields; None sends the loop on to the next
      block (unparsable JSON, no posting, or a throw while reading it). */
  function BlockJob(block: Option<Value>, href: string): Option<Job> {
    if block.None? then None
    else
      match Posting(block.value)
      case None => None
      case Some(jp) => Record(jp, href)
  }

  /** Index of the first block from `i` on that yields a record. */
  function FirstBlock(scripts: seq<Option<Value>>, href: string, i: nat): (r: Option<nat>)
    requires i <= |scripts|
    ensures r.Some? ==> i <= r.value < |scripts| && BlockJob(scripts[r.value], href).Some?
    ensures r.Some? ==> forall k :: i <= k < r.value ==> BlockJob(scripts[k], href).None?
    ensures r.None? ==> forall k :: i <= k < |scripts| ==> BlockJob(scripts[k], href).None?
    decreases |scripts| - i
  {
    if i == |scripts| then None
    else if BlockJob(scripts[i], href).Some? then Some(i)
    else FirstBlock(scripts, href, i + 1)
  }

  /** extractStructuredData: the record of the first block that yields one. */
  function StructuredData(page: Page): (r: Option<Job>)
    ensures r.Some? <==> exists i :: 0 <= i < |page.scripts| && BlockJob(page.scripts[i], page.href).Some?
    ensures r.Some? ==> r.value.jobUrl == Str(page.href) && r.value.status == Interested
    ensures r.Some? ==> exists i :: (0 <= i < |page.scripts| && r == BlockJob(page.scripts[i], page.href)
      && forall k :: 0 <= k < i ==> BlockJob(page.scripts[k], page.href).None?)
  {
    match FirstBlock(page.scripts, page.href, 0)
    case None => None
    case Some(i) => BlockJob(page.scripts[i], page.href)
  }

  // ---- common selectors ----

  const TitleSelectors: seq<string> := [
    "h1[class*=\"job-title\"]", "h1[class*=\"title\"]", "[data-qa=\"job-title\"]", ".app-title",
    ".job-title", "h1.position-title", "h1", "[class*=\"JobTitle\"]"]

  const CompanySelectors: seq<string> := [
    "[class*=\"company-name\"]", "[data-qa=\"company-name\"]", ".company",
    "[class*=\"CompanyName\"]", "a[class*=\"company\"]", ".employer"]

  const LocationSelectors: seq<string> := [
    "[class*=\"location\"]", "[data-qa=\"location\"]", ".job-location", "[class*=\"JobLocation\"]"]

  const DescriptionSelectors: seq<string> := [
    "[class*=\"description\"]", "[data-qa=\"job-description\"]", ".job-description",
    "#job-description", "[id*=\"description\"]", ".content"]

  predicate TitleOk(t: string) { 0 < |t| < 200 }

  predicate CompanyOk(t: string) { 0 < |t| < 100 }

  /** Length 1..149, and a comma or white space (`/[,\s]/`) or more than
      five characters. A candidate that fails only the second test does
      not stop the loop. */
  predicate LocationOk(t: string) {
    && 0 < |t| < 150
    && (ContainsChar(t, ',') || (exists i :: 0 <= i < |t| && IsSpace(t[i])) || |t| > 5)
  }

  predicate DescriptionOk(t: string) { |t| > 100 }

  /** The description of the first selector whose trimmed text is longer
      than 100 characters. */
  function Description(page: Page): (r: Option<string>)
    ensures r.Some? ==> |r.value| <= 2000
    ensures r.Some? ==> exists j :: (0 <= j < |DescriptionSelectors| && Accepts(page, DescriptionSelectors[j], DescriptionOk)
      && (forall k :: 0 <= k < j ==> !Accepts(page, DescriptionSelectors[k], DescriptionOk))
      && r.value == DescriptionOf(Query(page, DescriptionSelectors[j]).value))
  {
    FirstDescription(page, DescriptionSelectors, DescriptionOk)
  }

  /** A description is found exactly when some description selector's
      element has more than 100 characters of trimmed text. */
  lemma DescriptionFoundIff(page: Page)
    ensures Description(page).Some? <==>
      exists j :: 0 <= j < |DescriptionSelectors| && Accepts(page, DescriptionSelectors[j], DescriptionOk)
  {
  }

  /** `Source: ${hostname.replace('www.', '')}` */
  function SourceNote(hostname: string): (r: string)
    ensures !Contains(hostname, "www.") ==> r == "Source: " + hostname
    ensures Contains(hostname, "www.") ==> exists i :: (OccursAt(hostname, "www.", i)
      && (forall j :: 0 <= j < i ==> !OccursAt(hostname, "www.", j))
      && r == "Source: " + hostname[..i] + hostname[i + 4..])
    ensures StartsWith(r, "Source: ")
  {
    "Source: " + ReplaceFirst(hostname, "www.", "")
  }

  /** A host name with a leading "www." is noted without it. */
  lemma SourceNoteDropsWww(host: string)
    requires !Contains(host, "www.")
    ensures SourceNote("www." + host) == "Source: " + host
  {
    var h := "www." + host;
    assert h[..4] == "www.";
    assert IndexOf(h, "www.") == Some(0);
    assert h[4..] == host;
  }

  /** The selector fallback: a record only when a title was found. */
  function Heuristic(page: Page): (r: Option<Job>)
    ensures r.Some? <==> FirstText(page, TitleSelectors, TitleOk).Some?
    ensures r.Some? ==>
      && r.value.jobTitle == Str(FirstText(page, TitleSelectors, TitleOk).value)
      && r.value.company == OrNull(FirstText(page, CompanySelectors, CompanyOk))
      && r.value.location == OrNull(FirstText(page, LocationSelectors, LocationOk))
      && r.value.salary == Null
      && r.value.jobDescription == OrNull(Description(page))
      && r.value.notes == Str(SourceNote(page.hostname))
      && r.value.jobUrl == Str(page.href) && r.value.status == Interested
  {
    match FirstText(page, TitleSelectors, TitleOk)
    case None => None
    case Some(title) =>
      Some(Job(Str(title),
               OrNull(FirstText(page, CompanySelectors, CompanyOk)),
               OrNull(FirstText(page, LocationSelectors, LocationOk)),
               Null,
               Str(page.href),
               OrNull(Description(page)),
               Interested,
               Str(SourceNote(page.hostname))))
  }

  /** The structured record counts only with a title and a company. */
  predicate Qualifies(s: Option<Job>) {
    s.Some? && Truthy(s.value.jobTitle) && Truthy(s.value.company)
  }

  /** extractGenericJobData */
  function Generic(page: Page): (r: Option<Job>)
    ensures Qualifies(StructuredData(page)) ==> r == StructuredData(page)
    ensures !Qualifies(StructuredData(page)) ==> r == Heuristic(page)
    ensures r.Some? ==> Truthy(r.value.jobTitle)
    ensures r.Some? ==> r.value.jobUrl == Str(page.href) && r.value.status == Interested
    ensures r.None? <==> !Qualifies(StructuredData(page)) && forall j :: 0 <= j < |TitleSelectors| ==> !Accepts(page, TitleSelectors[j], TitleOk)
  {
    var s := StructuredData(page);
    if Qualifies(s) then s else Heuristic(page)
  }

  // ---- properties ----

  /** A JobPosting as a page embeds it: title, hiring organisation,
      locality, a monetary amount, description and employment type. */
  function PostingObject(title: string, company: string, locality: string, amount: int,
                         description: string, employmentType: string): Value
  {
    Obj(map[
      "@type" := Str("JobPosting"),
      "title" := Str(title),
      "hiringOrganization" := Obj(map["name" := Str(company)]),
      "jobLocation" := Obj(map["address" := Obj(map["addressLocality" := Str(locality)])]),
      "baseSalary" := Obj(map["value" := Obj(map["value" := Num(amount)])]),
      "description" := Str(description),
      "employmentType" := Str(employmentType)])
  }

  lemma PostingTopFields(jp: Value, title: string, company: string, locality: string, amount: int,
                         description: string, employmentType: string)
    requires jp == PostingObject(title, company, locality, amount, description, employmentType)
    ensures IsPosting(jp) && jp.Obj?
    ensures Field(jp, "title") == Str(title)
    ensures Field(jp, "description") == Str(description)
    ensures Field(jp, "employmentType") == Str(employmentType)
  {}

  lemma PostingNestedFields(jp: Value, title: string, company: string, locality: string, amount: int,
                            description: string, employmentType: string)
    requires jp == PostingObject(title, company, locality, amount, description, employmentType)
    ensures OptField(Field(jp, "hiringOrganization"), "name") == Str(company)
    ensures OptField(OptField(Field(jp, "jobLocation"), "address"), "addressLocality") == Str(locality)
    ensures OptField(OptField(Field(jp, "baseSalary"), "value"), "value") == Num(amount)
  {}

  /** The record reads back what the posting holds: each field from its
      schema.org path, the description cut to 2000 characters. */
  lemma RecordOfPosting(jp: Value, title: string, company: string, locality: string, amount: int,
                        description: string, employmentType: string, href: string)
    requires title != "" && company != "" && locality != "" && amount != 0
    requires description != "" && employmentType != ""
    requires Field(jp, "title") == Str(title)
    requires Field(jp, "description") == Str(description)
    requires Field(jp, "employmentType") == Str(employmentType)
    requires OptField(Field(jp, "hiringOrganization"), "name") == Str(company)
    requires OptField(OptField(Field(jp, "jobLocation"), "address"), "addressLocality") == Str(locality)
    requires OptField(OptField(Field(jp, "baseSalary"), "value"), "value") == Num(amount)
    ensures Record(jp, href)
      == Some(Job(Str(title), Str(company), Str(locality), Num(amount), Str(href),
                  Str(Prefix(description, 2000)), Interested, Str("Type: " + employmentType)))
  {
    assert |Prefix(description, 2000)| > 0;
  }

  /** A page whose only JSON-LD block is such a posting is parsed from the
      structured data, whatever its markup. */
  lemma GenericOfPosting(page: Page, title: string, company: string, locality: string, amount: int,
                         description: string, employmentType: string)
    requires title != "" && company != "" && locality != "" && amount != 0
    requires description != "" && employmentType != ""
    requires page.scripts == [Some(PostingObject(title, company, locality, amount, description, employmentType))]
    ensures Generic(page)
      == Some(Job(Str(title), Str(company), Str(locality), Num(amount), Str(page.href),
                  Str(Prefix(description, 2000)), Interested, Str("Type: " + employmentType)))
  {
    var jp := PostingObject(title, company, locality, amount, description, employmentType);
    PostingTopFields(jp, title, company, locality, amount, description, employmentType);
    PostingNestedFields(jp, title, company, locality, amount, description, employmentType);
    RecordOfPosting(jp, title, company, locality, amount, description, employmentType, page.href);
    assert Posting(jp) == Some(jp);
    var job := Job(Str(title), Str(company), Str(locality), Num(amount), Str(page.href),
                   Str(Prefix(description, 2000)), Interested, Str("Type: " + employmentType));
    assert BlockJob(page.scripts[0], page.href) == Some(job);
    GenericOfSingleBlock(page, job);
  }

  /** A page with one script block that yields a record naming a title and
      a company gets that record. */
  lemma GenericOfSingleBlock(page: Page, job: Job)
    requires |page.scripts| == 1 && BlockJob(page.scripts[0], page.href) == Some(job)
    requires Truthy(job.jobTitle) && Truthy(job.company)
    ensures Generic(page) == Some(job)
  {
    assert FirstBlock(page.scripts, page.href, 0) == Some(0);
  }

  /** Shifting the scan by one block that yields nothing. */
  lemma {:induction false} FirstBlockShift(b: Option<Value>, scripts: seq<Option<Value>>, href: string, i: nat)
    requires i <= |scripts| && BlockJob(b, href).None?
    ensures var r := FirstBlock([b] + scripts, href, i + 1);
      var s := FirstBlock(scripts, href, i);
      && (r.None? <==> s.None?)
      && (r.Some? ==> r.value == s.value + 1)
    decreases |scripts| - i
  {
    var all := [b] + scripts;
    if i < |scripts| {
      assert all[i + 1] == scripts[i];
      if BlockJob(scripts[i], href).None? {
        FirstBlockShift(b, scripts, href, i + 1);
      }
    }
  }

  /** A block that yields nothing (unparsable JSON, no posting, a throw
      while reading it) does not change the structured-data result: the
      loop moves on to the next block. */
  lemma SkipBlock(page: Page, b: Option<Value>)
    requires BlockJob(b, page.href).None?
    ensures StructuredData(page.(scripts := [b] + page.scripts)) == StructuredData(page)
  {
    var all := [b] + page.scripts;
    assert FirstBlock(all, page.href, 0) == FirstBlock(all, page.href, 1);
    FirstBlockShift(b, page.scripts, page.href, 0);
    match FirstBlock(page.scripts, page.href, 0)
    case None =>
    case Some(i) => assert all[i + 1] == page.scripts[i];
  }

  /** An array block with a null item before its posting is skipped: the
      search throws on the null item before reaching the posting. */
  lemma NullBeforePostingSkipped(posting: Value, href: string)
    requires IsPosting(posting)
    ensures BlockJob(Some(Arr([Null, posting])), href).None?
  {}
}

=== FILE: indeed_parser.dfy ===
/** The parser for Indeed job pages: one selector list per field, an
    alternative for the company, and a salary kept only when it looks like
    pay. */
module IndeedParser {

  import opened Wrappers
  import opened Ascii
  import opened JsValues
  import opened Pages

  /** isIndeedJobPage */
  predicate IsIndeedJobPage(page: Page) {
    && Contains(page.hostname, "indeed.com")
    && (Contains(page.pathname, "/viewjob") || Contains(page.pathname, "/job/") || Contains(page.search, "jk="))
  }

  const TitleSelector := ".jobsearch-JobInfoHeader-title, h1.jobsearch-JobInfoHeader-title-container, h1[class*=\"jobTitle\"]"
  const CompanySelector := "[data-company-name], .jobsearch-InlineCompanyRating-companyHeader a, [data-testid=\"inlineHeader-companyName\"]"
  const CompanyAltSelector := ".css-1cxc9zk, .jobsearch-CompanyInfoContainer a"
  const LocationSelector := "[data-testid=\"inlineHeader-companyLocation\"], .jobsearch-JobInfoHeader-subtitle-location, .jobsearch-JobInfoHeader-subtitle div"
  const SalarySelector := "#salaryInfoAndJobType, .jobsearch-JobMetadataHeader-item, [data-testid=\"jobsearch-JobMetadataHeader-salary\"]"
  const DescriptionSelector := "#jobDescriptionText, .jobsearch-jobDescriptionText, [id*=\"jobDescription\"]"
  const JobTypeSelector := ".jobsearch-JobMetadataHeader-item, [data-testid=\"job-type\"]"

  /** The trimmed text of the first element matching `sel`, if any. */
  function TextOf(page: Page, sel: string): (r: Option<string>)
    ensures r.Some? <==> Query(page, sel).Some?
    ensures r.Some? ==> r.value == Trim(Query(page, sel).value.text)
  {
    match Query(page, sel)
    case None => None
    case Some(e) => Some(Trim(e.text))
  }

  /** The company: the primary element's text, unless that is missing or
      blank and the alternative element exists. */
  function Company(page: Page): (r: Option<string>)
    ensures TextOf(page, CompanySelector).Some? && TextOf(page, CompanySelector).value != "" ==>
      r == TextOf(page, CompanySelector)
    ensures (TextOf(page, CompanySelector).None? || TextOf(page, CompanySelector).value == "") ==>
      r == (if TextOf(page, CompanyAltSelector).Some? then TextOf(page, CompanyAltSelector) else TextOf(page, CompanySelector))
  {
    var primary := TextOf(page, CompanySelector);
    if primary.Some? && primary.value != "" then primary
    else if TextOf(page, CompanyAltSelector).Some? then TextOf(page, CompanyAltSelector)
    else primary
  }

  /** `$`, or "hour" or "year" in any case. */
  predicate LooksLikePay(t: string) {
    ContainsChar(t, '$') || Contains(Lower(t), "hour") || Contains(Lower(t), "year")
  }

  function Salary(page: Page): (r: Option<string>)
    ensures r.Some? <==> TextOf(page, SalarySelector).Some? && LooksLikePay(TextOf(page, SalarySelector).value)
    ensures r.Some? ==> r == TextOf(page, SalarySelector)
  {
    match TextOf(page, SalarySelector)
    case None => None
    case Some(t) => if LooksLikePay(t) then Some(t) else None
  }

  /** The job type: the element's raw text has no `$`, and trimmed it is
      one to 49 characters. */
  function JobType(page: Page): (r: Option<string>)
    ensures r.Some? ==> Query(page, JobTypeSelector).Some? && !ContainsChar(Query(page, JobTypeSelector).value.text, '$')
    ensures r.Some? ==> r.value == Trim(Query(page, JobTypeSelector).value.text) && 0 < |r.value| < 50
    ensures r.Some? <==>
      && Query(page, JobTypeSelector).Some?
      && !ContainsChar(Query(page, JobTypeSelector).value.text, '$')
      && 0 < |Trim(Query(page, JobTypeSelector).value.text)| < 50
  {
    match Query(page, JobTypeSelector)
    case None => None
    case Some(e) =>
      if ContainsChar(e.text, '$') then None
      else
        var jt := Trim(e.text);
        if jt != "" && |jt| < 50 then Some(jt) else None
  }

  /** The job type stored in the notes never carries a dollar sign: the
      trimmed text is a slice of the raw text, which was checked. */
  lemma JobTypeHasNoDollar(page: Page)
    requires JobType(page).Some?
    ensures !ContainsChar(JobType(page).value, '$')
  {
    TrimKeepsAbsentChar(Query(page, JobTypeSelector).value.text, '$');
  }

  /** extractIndeedJobData */
  function Extract(page: Page): (r: Option<Job>)
    ensures r.Some? <==>
      && IsIndeedJobPage(page)
      && TextOf(page, TitleSelector).Some? && TextOf(page, TitleSelector).value != ""
      && Company(page).Some? && Company(page).value != ""
    ensures r.Some? ==>
      && r.value.jobTitle == Str(TextOf(page, TitleSelector).value)
      && r.value.company == Str(Company(page).value)
      && r.value.location == OrNull(TextOf(page, LocationSelector))
      && r.value.salary == OrNull(Salary(page))
      && r.value.jobUrl == Str(page.href) && r.value.status == Interested
      && (r.value.jobDescription.Str? <==> Query(page, DescriptionSelector).Some?)
      && (JobType(page).Some? ==> r.value.notes == Str("Job Type: " + JobType(page).value))
      && (JobType(page).None? ==> r.value.notes == Null)
  {
    if !IsIndeedJobPage(page) then None
    else
      var title := TextOf(page, TitleSelector);
      var company := Company(page);
      var description :=
        match Query(page, DescriptionSelector)
        case None => Null
        case Some(e) => Str(DescriptionOf(e));
      var notes :=
        match JobType(page)
        case None => Null
        case Some(jt) => Str("Job Type: " + jt);
      if title.Some? && title.value != "" && company.Some? && company.value != "" then
        Some(Job(Str(title.value), Str(company.value), OrNull(TextOf(page, LocationSelector)),
                 OrNull(Salary(page)), Str(page.href), description, Interested, notes))
      else None
  }
}

=== FILE: jobs_route.dfy ===
/** The extension's job endpoint (POST /api/extension/jobs): a bearer token
    identifies the user, the body must carry a title and a company, and the
    row inserted fills every other column with its value, null, or a
    default.

    Token verification (`supabase.auth.getUser`) and the insert are
    parameters. */
module JobsRoute {

  import opened Wrappers
  import opened Ascii
  import opened JsValues
  import opened ExtensionApi
  import Pages
  import GenericParser

  const BearerPrefix: string := "Bearer "

  /** The `authorization` header and the body as `request.json()` resolves
      it (None when it rejects). */
  datatype JobsRequest = JobsRequest(authorization: Option<string>, body: Option<Value>)

  /** What `getUser(token)` resolves to: the user's id when there is a user,
      and the error, if any. */
  datatype AuthResult = AuthResult(userId: Option<string>, error: Option<string>)

  datatype JobsResponse =
    | MissingAuthorization
    | InvalidToken
    | MissingFields
    | InsertFailed(details: string)
    | InternalError
    | Created(job: Value)
  {
    function Status(): int {
      if MissingAuthorization? || InvalidToken? then 401
      else if MissingFields? then 400
      else if Created? then 201
      else 500
    }
  }

  /** The response, and the row handed to the insert, if any. */
  datatype JobsOutcome = JobsOutcome(response: JobsResponse, inserted: Option<JobRow>)

  /** `authHeader.substring(7)` for a header that starts with "Bearer ";
      None for a missing header or any other scheme. */
  function BearerToken(header: Option<string>): (r: Option<string>)
    ensures r.Some? <==> header.Some? && StartsWith(header.value, BearerPrefix)
    ensures r.Some? ==> header.value == BearerPrefix + r.value
  {
    if header.Some? && StartsWith(header.value, BearerPrefix) then
      Some(header.value[|BearerPrefix|..])
    else None
  }

  /** The token the extension puts after "Bearer " is the token the
      endpoint verifies. */
  lemma BearerTokenRoundTrip(token: string)
    ensures BearerToken(Some(BearerPrefix + token)) == Some(token)
  {
    assert (BearerPrefix + token)[..|BearerPrefix|] == BearerPrefix;
  }

  /** The row inserted into `jobs`. */
  datatype JobRow = JobRow(
    jobTitle: Value,
    company: Value,
    location: Value,
    salary: Value,
    jobUrl: Value,
    status: Value,
    appliedDate: Value,
    jobDescription: Value,
    notes: Value,
    userId: string)

  /** The row inserted for body `jobData` and user `userId`. */
  function InsertData(jobData: Value, userId: string): (row: JobRow)
    ensures row.jobTitle == Field(jobData, "job_title") && row.company == Field(jobData, "company")
    ensures row.userId == userId
    ensures CopiedOr(row.status, jobData, "status", Str("interested"))
    ensures CopiedOrNull(row.location, jobData, "location") && CopiedOrNull(row.salary, jobData, "salary")
    ensures CopiedOrNull(row.jobUrl, jobData, "job_url") && CopiedOrNull(row.appliedDate, jobData, "applied_date")
    ensures CopiedOrNull(row.jobDescription, jobData, "job_description")
    ensures CopiedOrNull(row.notes, jobData, "notes")
    ensures Settled(row)
  {
    JobRow(
      Field(jobData, "job_title"),
      Field(jobData, "company"),
      FieldOrNull(jobData, "location"),
      FieldOrNull(jobData, "salary"),
      FieldOrNull(jobData, "job_url"),
      FieldOr(jobData, "status", Str("interested")),
      FieldOrNull(jobData, "applied_date"),
      FieldOrNull(jobData, "job_description"),
      FieldOrNull(jobData, "notes"),
      userId)
  }

  /** No optional column holds a falsy value other than null, and the
      status is set. */
  predicate Settled(row: JobRow) {
    && NullOrTruthy(row.location) && NullOrTruthy(row.salary)
    && NullOrTruthy(row.jobUrl) && NullOrTruthy(row.appliedDate)
    && NullOrTruthy(row.jobDescription) && NullOrTruthy(row.notes)
    && Truthy(row.status)
  }

  /** A row as a request body: its columns under their names. */
  function RowBody(row: JobRow): Value {
    Obj(map[
      "job_title" := row.jobTitle,
      "company" := row.company,
      "location" := row.location,
      "salary" := row.salary,
      "job_url" := row.jobUrl,
      "status" := row.status,
      "applied_date" := row.appliedDate,
      "job_description" := row.jobDescription,
      "notes" := row.notes])
  }

  /** The defaults are settled: a settled row sent back as a body, for the
      same user, is inserted unchanged. */
  lemma InsertDataOfRow(row: JobRow)
    requires Settled(row)
    ensures InsertData(RowBody(row), row.userId) == row
  {
    RowBodyFields(row);
  }

  lemma RowBodyFields(row: JobRow)
    ensures var b := RowBody(row);
      && Field(b, "job_title") == row.jobTitle && Field(b, "company") == row.company
      && Field(b, "location") == row.location && Field(b, "salary") == row.salary
      && Field(b, "job_url") == row.jobUrl && Field(b, "status") == row.status
      && Field(b, "applied_date") == row.appliedDate && Field(b, "notes") == row.notes
      && Field(b, "job_description") == row.jobDescription
  {}

  /** In particular shaping twice is shaping once. */
  lemma InsertDataIsStable(jobData: Value, userId: string)
    ensures InsertData(RowBody(InsertData(jobData, userId)), userId) == InsertData(jobData, userId)
  {
    InsertDataOfRow(InsertData(jobData, userId));
  }

  /** POST /api/extension/jobs. Reading a field of a null body throws, and
      so does logging the id of a null result: both end in the handler's
      catch (500). */
  function Post(req: JobsRequest, getUser: string -> AuthResult,
                insert: JobRow -> InsertResult): (o: JobsOutcome)
    ensures o.response.MissingAuthorization? <==> BearerToken(req.authorization).None?
    ensures o.response.InvalidToken? <==>
      && BearerToken(req.authorization).Some?
      && var auth := getUser(BearerToken(req.authorization).value);
         auth.error.Some? || auth.userId.None?
    ensures o.response.MissingFields? <==>
      && o.response.Status() != 401
      && req.body.Some? && !Nullish(req.body.value)
      && (!Truthy(Field(req.body.value, "job_title")) || !Truthy(Field(req.body.value, "company")))
    ensures o.inserted.Some? <==>
      && o.response.Status() != 401
      && req.body.Some? && !Nullish(req.body.value)
      && Truthy(Field(req.body.value, "job_title")) && Truthy(Field(req.body.value, "company"))
    ensures o.inserted.Some? ==>
      && var uid := getUser(BearerToken(req.authorization).value).userId;
         uid.Some? && o.inserted.value == InsertData(req.body.value, uid.value)
    ensures o.response.Created? <==>
      && o.inserted.Some? && insert(o.inserted.value).error.None?
      && !Nullish(insert(o.inserted.value).data)
    ensures o.response.Created? ==> o.response.job == insert(o.inserted.value).data
    ensures o.response.InsertFailed? <==> o.inserted.Some? && insert(o.inserted.value).error.Some?
    ensures o.response.InsertFailed? ==> o.response.details == insert(o.inserted.value).error.value.message
  {
    match BearerToken(req.authorization)
    case None => JobsOutcome(MissingAuthorization, None)
    case Some(token) =>
      var auth := getUser(token);
      if auth.error.Some? || auth.userId.None? then JobsOutcome(InvalidToken, None)
      else if req.body.None? || Nullish(req.body.value) then JobsOutcome(InternalError, None)
      else
        var jobData := req.body.value;
        if !Truthy(Field(jobData, "job_title")) || !Truthy(Field(jobData, "company")) then
          JobsOutcome(MissingFields, None)
        else
          var row := InsertData(jobData, auth.userId.value);
          var res := insert(row);
          if res.error.Some? then JobsOutcome(InsertFailed(res.error.value.message), Some(row))
          else if Nullish(res.data) then JobsOutcome(InternalError, Some(row))
          else JobsOutcome(Created(res.data), Some(row))
  }

  /** A scraped record as the extension sends it: its fields under the
      endpoint's column names. */
  function RecordBody(job: Pages.Job): (body: Value)
    ensures body.Obj?
    ensures Field(body, "job_title") == job.jobTitle && Field(body, "company") == job.company
  {
    Obj(map[
      "job_title" := job.jobTitle,
      "company" := job.company,
      "location" := job.location,
      "salary" := job.salary,
      "job_url" := job.jobUrl,
      "job_description" := job.jobDescription,
      "status" := job.status,
      "notes" := job.notes])
  }

  /** A record without a company, such as the generic parser's heuristics
      produce when no company selector matches, is turned away with 400
      however good the token: nothing is inserted. */
  lemma CompanylessRecordRejected(job: Pages.Job, auth: Option<string>,
                                  getUser: string -> AuthResult, insert: JobRow -> InsertResult)
    requires !Truthy(job.company)
    requires BearerToken(auth).Some? && getUser(BearerToken(auth).value) == AuthResult(Some("u"), None)
    ensures Post(JobsRequest(auth, Some(RecordBody(job))), getUser, insert).response == MissingFields
  {}

  /** The generic heuristics leave the company null when no company
      selector yields an acceptable text, and such a record is never
      inserted. */
  lemma HeuristicWithoutCompanyNotInserted(page: Pages.Page, req: JobsRequest,
                                           getUser: string -> AuthResult, insert: JobRow -> InsertResult)
    requires GenericParser.Heuristic(page).Some?
    requires Pages.FirstText(page, GenericParser.CompanySelectors, GenericParser.CompanyOk).None?
    requires req.body == Some(RecordBody(GenericParser.Heuristic(page).value))
    ensures Post(req, getUser, insert).inserted.None?
  {}

  /** A well-formed request is inserted exactly once, for the verified
      user, with the title and company it sent. */
  lemma ValidRequestInserted(token: string, userId: string, title: string, company: string,
                             getUser: string -> AuthResult, insert: JobRow -> InsertResult)
    requires getUser(token) == AuthResult(Some(userId), None)
    requires title != "" && company != ""
    ensures var o := Post(JobsRequest(Some(BearerPrefix + token),
                                      Some(Obj(map["job_title" := Str(title), "company" := Str(company)]))),
                          getUser, insert);
      && o.inserted.Some?
      && o.inserted.value.userId == userId
      && o.inserted.value.jobTitle == Str(title)
      && o.inserted.value.status == Str("interested")
      && o.inserted.value.notes == Null
  {
    BearerTokenRoundTrip(token);
  }
}

=== FILE: jsvalue.dfy ===
/** The JavaScript values that request bodies, database rows and scraped
    records carry, and the three things the code does with them: test
    truthiness, apply `||`, and read a property. */
module JsValues {

  import opened Wrappers
  import opened Ascii

  /** A JSON-shaped JavaScript value. Numbers are restricted to integers
      (no fractions, no NaN); `Undefined` is what a missing property reads as. */
  datatype Value =
    | Undefined
    | Null
    | Bool(b: bool)
    | Num(n: int)
    | Str(s: string)
    | Arr(items: seq<Value>)
    | Obj(fields: map<string, Value>)

  /** `!!v`: false exactly for undefined, null, false, 0 and "". */
  predicate Truthy(v: Value) {
    match v
    case Undefined => false
    case Null => false
    case Bool(b) => b
    case Num(n) => n != 0
    case Str(s) => s != ""
    case _ => true
  }

  /** `a || b` */
  function Or(a: Value, b: Value): Value {
    if Truthy(a) then a else b
  }

  /** Property read `v.f` (also what destructuring `const { f } = v` does).
      Reading from null or undefined throws a TypeError, modelled as None;
      any other non-object yields undefined (prototype properties are not
      modelled). */
  function Get(v: Value, f: string): (r: Option<Value>)
    ensures r.None? <==> v.Null? || v.Undefined?
    ensures v.Obj? && f !in v.fields ==> r == Some(Undefined)
  {
    match v
    case Undefined => None
    case Null => None
    case Obj(fields) => Some(if f in fields then fields[f] else Undefined)
    case _ => Some(Undefined)
  }

  /** `v.f` where `v` is known to be a non-null value; a read from null or
      undefined is not reachable through this function. */
  function Field(v: Value, f: string): Value {
    if v.Obj? && f in v.fields then v.fields[f] else Undefined
  }

  /** A value is null or undefined. */
  predicate Nullish(v: Value) {
    v.Null? || v.Undefined?
  }

  /** Optional chaining `v?.f`: undefined when `v` is null or undefined,
      otherwise the ordinary property read. */
  function OptField(v: Value, f: string): (r: Value)
    ensures Nullish(v) ==> r == Undefined
    ensures !Nullish(v) ==> Get(v, f) == Some(r)
  {
    if Nullish(v) then Undefined else Field(v, f)
  }

  /** `v.f || fallback` for a non-null `v`. */
  function FieldOr(v: Value, f: string, fallback: Value): (r: Value)
    ensures Truthy(Field(v, f)) ==> r == Field(v, f)
    ensures !Truthy(Field(v, f)) ==> r == fallback
  {
    Or(Field(v, f), fallback)
  }

  /** `v.f || null` for a non-null `v`: the field when truthy, null
      otherwise, so never a falsy value other than null. */
  function FieldOrNull(v: Value, f: string): (r: Value)
    ensures NullOrTruthy(r)
    ensures Truthy(Field(v, f)) ==> r == Field(v, f)
    ensures !Truthy(Field(v, f)) ==> r == Null
  {
    FieldOr(v, f, Null)
  }

  /** What `x || null` can leave: null or a truthy value. */
  predicate NullOrTruthy(v: Value) {
    v == Null || Truthy(v)
  }

  /** A column shaped as `obj.name || fallback`: the property when it is
      truthy, the fallback otherwise. */
  predicate CopiedOr(column: Value, obj: Value, name: string, fallback: Value) {
    && (Truthy(Field(obj, name)) ==> column == Field(obj, name))
    && (!Truthy(Field(obj, name)) ==> column == fallback)
  }

  /** An optional column as `obj.name || null` leaves it: the property when
      that is truthy, and null otherwise. */
  predicate CopiedOrNull(column: Value, obj: Value, name: string) {
    CopiedOr(column, obj, name, Null)
  }

  /** A value that is a non-empty string. */
  predicate NonEmptyStr(v: Value) {
    v.Str? && v.s != ""
  }

  /** `String(v)`, as a template literal `${v}` renders it: arrays are
      joined with ',' (null and undefined elements render as ""), and every
      object renders as "[object Object]". */
  function Display(v: Value): (r: string)
    ensures v.Str? ==> r == v.s
    ensures v.Arr? && |v.items| == 0 ==> r == ""
    decreases v, 1
  {
    match v
    case Undefined => "undefined"
    case Null => "null"
    case Bool(b) => if b then "true" else "false"
    case Num(n) => IntToString(n)
    case Str(s) => s
    case Arr(items) => JoinFrom(v, 0)
    case Obj(_) => "[object Object]"
  }

  /** `items.slice(i).join(',')` for the items of the array `v`. */
  function JoinFrom(v: Value, i: nat): string
    requires v.Arr? && i <= |v.items|
    decreases v, 0, |v.items| - i
  {
    if i == |v.items| then ""
    else
      var e := v.items[i];
      var piece := if e.Null? || e.Undefined? then "" else Display(e);
      if i + 1 == |v.items| then piece else piece + "," + JoinFrom(v, i + 1)
  }
}

=== FILE: keyed_lists.dfy ===
/** Lists of names compared through a key function. The reconciliation
    helpers of src/lib/nameMatching.ts only ever compare names by their
    normalised key, so they are stated here for any key function and
    instantiated with the normaliser in NameMatching. */
module KeyedLists {

  /** The keys of a list. */
  function Keys(key: string -> string, names: seq<string>): set<string> {
    set n | n in names :: key(n)
  }

  lemma KeysConcat(key: string -> string, a: seq<string>, b: seq<string>)
    ensures Keys(key, a + b) == Keys(key, a) + Keys(key, b)
  {
    assert forall n :: n in a + b <==> n in a || n in b;
  }

  /** `Array.some` with a key comparison. */
  function KeyIn(key: string -> string, name: string, names: seq<string>): (r: bool)
    ensures r <==> exists i :: 0 <= i < |names| && key(names[i]) == key(name)
    ensures r <==> key(name) in Keys(key, names)
  {
    if |names| == 0 then false
    else if key(names[0]) == key(name) then true
    else
      var r := KeyIn(key, name, names[1..]);
      assert forall i :: 1 <= i < |names| ==> names[i] == names[1..][i - 1];
      assert names == [names[0]] + names[1..];
      KeysConcat(key, [names[0]], names[1..]);
      r
  }

  /** `Array.filter` keeping the names whose key is non-empty and not known. */
  function FilterNew(key: string -> string, names: seq<string>, known: set<string>): (r: seq<string>)
    ensures forall n :: n in r <==> n in names && key(n) != "" && key(n) !in known
    ensures multiset(r) <= multiset(names)
  {
    if |names| == 0 then []
    else
      var rest := FilterNew(key, names[1..], known);
      assert names == [names[0]] + names[1..];
      if key(names[0]) != "" && key(names[0]) !in known then [names[0]] + rest else rest
  }

  lemma {:induction false} FilterNewConcat(key: string -> string, a: seq<string>, b: seq<string>, known: set<string>)
    ensures FilterNew(key, a + b, known) == FilterNew(key, a, known) + FilterNew(key, b, known)
  {
    if |a| > 0 {
      assert (a + b)[1..] == a[1..] + b;
      FilterNewConcat(key, a[1..], b, known);
    } else {
      assert a + b == b;
    }
  }

  /** The names of a list whose keys are non-empty. */
  function Named(key: string -> string, names: seq<string>): (r: seq<string>)
    ensures forall n :: n in r <==> n in names && key(n) != ""
  {
    if |names| == 0 then []
    else
      assert names == [names[0]] + names[1..];
      (if key(names[0]) != "" then [names[0]] else []) + Named(key, names[1..])
  }

  /** Keys pairwise distinct. */
  predicate DistinctKeys(key: string -> string, names: seq<string>) {
    forall i, j :: 0 <= i < j < |names| ==> key(names[i]) != key(names[j])
  }

  /** The loop of mergeNames, from a set of keys already seen: a name with
      an empty key is skipped, a name with a seen key goes to the second
      list, any other name goes to the first list and its key becomes
      seen. */
  function MergeFrom(key: string -> string, seen: set<string>, incoming: seq<string>): (r: (seq<string>, seq<string>))
    ensures forall n :: n in r.0 ==> key(n) != "" && key(n) !in seen
    ensures DistinctKeys(key, r.0)
    ensures forall n :: n in r.1 ==> key(n) in seen + Keys(key, r.0)
    decreases |incoming|
  {
    if |incoming| == 0 then ([], [])
    else
      var name := incoming[0];
      var k := key(name);
      if k == "" then
        MergeFrom(key, seen, incoming[1..])
      else if k in seen then
        var rest := MergeFrom(key, seen, incoming[1..]);
        (rest.0, [name] + rest.1)
      else
        var rest := MergeFrom(key, seen + {k}, incoming[1..]);
        KeysConcat(key, [name], rest.0);
        ([name] + rest.0, rest.1)
  }

  /** The merge learns exactly the non-empty keys of the incoming names. */
  lemma {:induction false} MergeFromKeys(key: string -> string, seen: set<string>, incoming: seq<string>)
    ensures seen + Keys(key, MergeFrom(key, seen, incoming).0) == seen + (Keys(key, incoming) - {""})
    decreases |incoming|
  {
    if |incoming| > 0 {
      var name := incoming[0];
      var k := key(name);
      assert incoming == [name] + incoming[1..];
      KeysConcat(key, [name], incoming[1..]);
      if k == "" || k in seen {
        MergeFromKeys(key, seen, incoming[1..]);
      } else {
        var rest := MergeFrom(key, seen + {k}, incoming[1..]);
        MergeFromKeys(key, seen + {k}, incoming[1..]);
        KeysConcat(key, [name], rest.0);
      }
    }
  }

  /** Every incoming name with a non-empty key lands in exactly one of the
      two lists. */
  lemma {:induction false} MergeFromPartition(key: string -> string, seen: set<string>, incoming: seq<string>)
    ensures var r := MergeFrom(key, seen, incoming);
      multiset(r.0) + multiset(r.1) == multiset(Named(key, incoming))
    decreases |incoming|
  {
    if |incoming| > 0 {
      var name := incoming[0];
      var k := key(name);
      if k == "" || k in seen {
        MergeFromPartition(key, seen, incoming[1..]);
      } else {
        MergeFromPartition(key, seen + {k}, incoming[1..]);
      }
    }
  }

  /** `a` is `b` with some elements deleted: the elements of `a` occur in
      `b` in the same order. */
  predicate IsSubsequence<T(==)>(a: seq<T>, b: seq<T>)
    decreases |b|
  {
    if |b| == 0 then |a| == 0
    else IsSubsequence(a, b[1..]) || (|a| > 0 && a[0] == b[0] && IsSubsequence(a[1..], b[1..]))
  }

  /** Both lists of the merge keep the order the names arrived in. */
  lemma {:induction false} MergeFromOrder(key: string -> string, seen: set<string>, incoming: seq<string>)
    ensures var r := MergeFrom(key, seen, incoming);
      IsSubsequence(r.0, Named(key, incoming)) && IsSubsequence(r.1, Named(key, incoming))
    decreases |incoming|
  {
    if |incoming| == 0 {
      assert Named(key, incoming) == [];
    } else {
      var name := incoming[0];
      var k := key(name);
      var tail := incoming[1..];
      var named := Named(key, incoming);
      if k == "" {
        MergeFromOrder(key, seen, tail);
        assert named == Named(key, tail);
      } else {
        assert named == [name] + Named(key, tail);
        assert named[1..] == Named(key, tail);
        if k in seen {
          MergeFromOrder(key, seen, tail);
          var rest := MergeFrom(key, seen, tail);
          assert ([name] + rest.1)[1..] == rest.1;
        } else {
          MergeFromOrder(key, seen + {k}, tail);
          var rest := MergeFrom(key, seen + {k}, tail);
          assert ([name] + rest.0)[1..] == rest.0;
        }
      }
    }
  }

  /** Learning a key that no name has does not change the filter. */
  lemma {:induction false} FilterNewIgnoresUnusedKey(key: string -> string, names: seq<string>, known: set<string>, k: string)
    requires k !in Keys(key, names)
    ensures FilterNew(key, names, known + {k}) == FilterNew(key, names, known)
  {
    if |names| > 0 {
      assert names == [names[0]] + names[1..];
      KeysConcat(key, [names[0]], names[1..]);
      FilterNewIgnoresUnusedKey(key, names[1..], known, k);
    }
  }

  /** With pairwise distinct keys the merge adds exactly the names the
      filter finds new. */
  lemma {:induction false} MergeFromIsFilter(key: string -> string, seen: set<string>, incoming: seq<string>)
    requires DistinctKeys(key, incoming)
    ensures MergeFrom(key, seen, incoming).0 == FilterNew(key, incoming, seen)
    decreases |incoming|
  {
    if |incoming| > 0 {
      var name := incoming[0];
      var k := key(name);
      var tail := incoming[1..];
      assert DistinctKeys(key, tail) by {
        forall i, j | 0 <= i < j < |tail| ensures key(tail[i]) != key(tail[j]) {
          assert tail[i] == incoming[i + 1] && tail[j] == incoming[j + 1];
        }
      }
      if k == "" || k in seen {
        MergeFromIsFilter(key, seen, tail);
      } else {
        MergeFromIsFilter(key, seen + {k}, tail);
        assert k !in Keys(key, tail);
        FilterNewIgnoresUnusedKey(key, tail, seen, k);
      }
    }
  }

  /** When every non-empty incoming key is already seen, nothing is added
      and every named incoming name is reported as known. */
  lemma {:induction false} MergeFromKnown(key: string -> string, seen: set<string>, incoming: seq<string>)
    requires Keys(key, incoming) - {""} <= seen
    ensures MergeFrom(key, seen, incoming) == ([], Named(key, incoming))
    decreases |incoming|
  {
    if |incoming| > 0 {
      assert incoming == [incoming[0]] + incoming[1..];
      KeysConcat(key, [incoming[0]], incoming[1..]);
      MergeFromKnown(key, seen, incoming[1..]);
      var k := key(incoming[0]);
      if k != "" {
        assert k in seen;
        assert Named(key, incoming) == [incoming[0]] + Named(key, incoming[1..]);
      } else {
        assert Named(key, incoming) == Named(key, incoming[1..]);
        assert MergeFrom(key, seen, incoming) == MergeFrom(key, seen, incoming[1..]);
      }
    }
  }

  /** The names whose key has not been taken yet, each taking its key: the
      first name of every key, in order. */
  function FirstPerKey(key: string -> string, names: seq<string>, taken: set<string>): (r: seq<string>)
    ensures multiset(r) <= multiset(names)
    ensures forall n :: n in r ==> key(n) !in taken
    decreases |names|
  {
    if |names| == 0 then []
    else
      assert names == [names[0]] + names[1..];
      var k := key(names[0]);
      if k in taken then FirstPerKey(key, names[1..], taken)
      else [names[0]] + FirstPerKey(key, names[1..], taken + {k})
  }

  /** The merge keeps, of the names the filter finds new, the first name
      of every key. */
  lemma {:induction false} MergeFromIsFirstPerKey(key: string -> string, seen: set<string>, taken: set<string>, incoming: seq<string>)
    ensures MergeFrom(key, seen + taken, incoming).0 == FirstPerKey(key, FilterNew(key, incoming, seen), taken)
    decreases |incoming|
  {
    if |incoming| > 0 {
      var name := incoming[0];
      var k := key(name);
      var tail := incoming[1..];
      if k == "" || k in seen {
        MergeFromIsFirstPerKey(key, seen, taken, tail);
      } else if k in taken {
        MergeFromIsFirstPerKey(key, seen, taken, tail);
      } else {
        MergeFromIsFirstPerKey(key, seen, taken + {k}, tail);
        assert seen + taken + {k} == seen + (taken + {k});
      }
    }
  }
}

=== FILE: linkedin_parser.dfy ===
/** The parser for LinkedIn job pages: title and company from the top
    card, the location from a cascade of four sources, the salary from the
    job-insight elements, the description and the workplace type. */
module LinkedInParser {

  import opened Wrappers
  import opened Ascii
  import opened JsValues
  import opened Pages

  /** isLinkedInJobPage */
  predicate IsLinkedInJobPage(page: Page) {
    page.hostname == "www.linkedin.com" && Contains(page.pathname, "/jobs/")
  }

  const TitleSelectors: seq<string> := [
    ".job-details-jobs-unified-top-card__job-title", ".jobs-unified-top-card__job-title",
    "h1.t-24", "h1[class*=\"job-title\"]", ".jobs-details-top-card__job-title", "h2.t-24"]

  const CompanySelectors: seq<string> := [
    ".job-details-jobs-unified-top-card__company-name", ".jobs-unified-top-card__company-name",
    ".jobs-unified-top-card__subtitle-primary-grouping a",
    "a[data-tracking-control-name=\"public_jobs_topcard-org-name\"]",
    ".topcard__org-name-link", ".jobs-details-top-card__company-url"]

  const DescContainerSelector := ".jobs-unified-top-card__primary-description, .jobs-unified-top-card__primary-description-without-tagline"
  const BulletSelector := ".jobs-unified-top-card__bullet"
  const SalarySelectors: seq<string> := [
    ".job-details-jobs-unified-top-card__job-insight", ".jobs-unified-top-card__job-insight",
    "span[class*=\"salary\"]", ".compensation", "li.jobs-unified-top-card__job-insight"]
  const InsightsSelector := "ul.jobs-unified-top-card__job-insight-view-model-secondary li"
  const DescriptionSelector := ".jobs-description__content, .jobs-description, .jobs-box__html-content"
  const WorkplaceSelector := ".jobs-unified-top-card__workplace-type"

  /** The title and company loops accept any non-empty trimmed text. */
  predicate NonEmpty(t: string) { t != "" }

  // ---- location, source 1: the lines of the top-card description ----

  /** `text.split('\n').map(l => l.trim()).filter(l => l)` */
  function Lines(text: string): seq<string> {
    NonEmptyTrimmed(Split(Trim(text), '\n'))
  }

  /** `[A-Za-z\s]` */
  predicate LetterOrSpace(c: char) { IsLetter(c) || IsSpace(c) }

  /** Every character of `line[a..b]` is a letter or white space. */
  predicate LettersOrSpaces(line: string, a: nat, b: nat)
    requires a <= b <= |line|
  {
    forall j :: a <= j < b ==> LetterOrSpace(line[j])
  }

  /** Every character of `line[a..b]` is white space. */
  predicate Spaces(line: string, a: nat, b: nat)
    requires a <= b <= |line|
  {
    forall j :: a <= j < b ==> IsSpace(line[j])
  }

  /** `/^[A-Za-z\s]+,\s*[A-Z]{2}/`: letters and white space up to a comma at
      `k`, then white space up to two capitals at `m`. */
  predicate Anchored(line: string) {
    exists k, m :: 0 < k < m < |line| && AnchoredAt(line, k, m)
  }

  predicate AnchoredAt(line: string, k: nat, m: nat) {
    && 0 < k < m && m + 2 <= |line| && line[k] == ','
    && LettersOrSpaces(line, 0, k) && Spaces(line, k + 1, m)
    && IsUpper(line[m]) && IsUpper(line[m + 1])
  }

  /** `/[A-Za-z\s]+,\s*[A-Za-z\s]+/`: a comma with a letter or white space on
      each side (`\s*` may match nothing, and one character suffices for
      each `+`). */
  predicate Unanchored(line: string) {
    exists k :: 0 < k < |line| - 1 && line[k] == ',' && LetterOrSpace(line[k - 1]) && LetterOrSpace(line[k + 1])
  }

  /** The test the loop applies to each line. */
  predicate LocationLine(line: string) {
    Anchored(line) || Unanchored(line)
  }

  /** The anchored pattern is redundant: every line it matches, the
      unanchored one matches too. */
  lemma AnchoredIsUnanchored(line: string)
    requires Anchored(line)
    ensures Unanchored(line)
  {
    var k, m :| 0 < k < m < |line| && AnchoredAt(line, k, m);
    assert LetterOrSpace(line[k - 1]);
    if m == k + 1 {
      assert IsUpper(line[k + 1]);
    } else {
      assert IsSpace(line[k + 1]);
    }
  }

  lemma LocationLineIsUnanchored(line: string)
    ensures LocationLine(line) <==> Unanchored(line)
  {
    if Anchored(line) {
      AnchoredIsUnanchored(line);
    }
  }

  /** The first line that looks like a location, from index `i` on. */
  function FirstLocationLine(lines: seq<string>, i: nat): (r: Option<string>)
    requires i <= |lines|
    ensures r.Some? <==> exists j :: i <= j < |lines| && LocationLine(lines[j])
    ensures r.Some? ==> exists j :: (i <= j < |lines| && r.value == lines[j] && LocationLine(lines[j])
      && forall k :: i <= k < j ==> !LocationLine(lines[k]))
    decreases |lines| - i
  {
    if i == |lines| then None
    else if LocationLine(lines[i]) then Some(lines[i])
    else FirstLocationLine(lines, i + 1)
  }

  /** Location from the top-card description container, if present. */
  function ContainerLocation(page: Page): (r: Option<string>)
    ensures r.Some? ==> Query(page, DescContainerSelector).Some? && r.value != "" && LocationLine(r.value)
    ensures Query(page, DescContainerSelector).Some? ==>
      var lines := Lines(Query(page, DescContainerSelector).value.text);
      && (r.Some? <==> exists j :: 0 <= j < |lines| && LocationLine(lines[j]))
      && (r.Some? ==> exists j :: (0 <= j < |lines| && r.value == lines[j]
            && forall k :: 0 <= k < j ==> !LocationLine(lines[k])))
  {
    match Query(page, DescContainerSelector)
    case None => None
    case Some(e) =>
      var r := FirstLocationLine(Lines(e.text), 0);
      assert r.Some? ==> r.value in Lines(e.text);
      r
  }

  // ---- location, source 2: the top-card bullets ----

  const JobTags: seq<string> := [
    "full-time", "part-time", "contract", "on-site", "remote", "hybrid", "reposted", "ago", "people", "clicked"]

  /** Four to 99 characters and not, case-insensitively, one of the job
      tags. */
  predicate BulletOk(t: string) {
    t != "" && 3 < |t| < 100 && Lower(t) !in JobTags
  }

  // ---- location, source 3: a "City, ST" anywhere in the page text ----

  /** Length of the run of characters satisfying `p` from index `k`. */
  function Run(s: string, k: nat, p: char -> bool): (n: nat)
    requires k <= |s|
    ensures k + n <= |s|
    decreases |s| - k
  {
    if k == |s| || !p(s[k]) then 0 else 1 + Run(s, k + 1, p)
  }

  predicate LowerOrHyphen(c: char) { IsLower(c) || c == '-' }

  /** `[A-Z][a-z]+` at `k`: where the word ends. */
  function WordEnd(s: string, k: nat): (r: Option<nat>)
    requires k <= |s|
    ensures r.Some? ==> k + 2 <= r.value <= |s| && IsUpper(s[k])
  {
    if k < |s| && IsUpper(s[k]) && Run(s, k + 1, IsLower) > 0 then Some(k + 1 + Run(s, k + 1, IsLower))
    else None
  }

  /** `(?:\s+[A-Z][a-z]+)*` after a word ending at `e`. Greedy matching
      needs no backtracking here: a shorter repetition or a shorter word
      would leave white space or a lower-case letter where the comma
      must be. */
  function WordsEnd(s: string, e: nat): (r: nat)
    requires e <= |s|
    ensures e <= r <= |s|
    decreases |s| - e
  {
    var sp := Run(s, e, IsSpace);
    if sp > 0 && WordEnd(s, e + sp).Some? then WordsEnd(s, WordEnd(s, e + sp).value) else e
  }

  /** The optional `(?:\s+\([A-Z][a-z\-]+\))` from `e`: where it ends, or
      `e` when it does not match. */
  function SuffixEnd(s: string, e: nat): (r: nat)
    requires e <= |s|
    ensures e <= r <= |s|
    ensures r > e ==> s[r - 1] == ')'
  {
    var sp := Run(s, e, IsSpace);
    var p := e + sp;
    if sp > 0 && p + 1 < |s| && s[p] == '(' && IsUpper(s[p + 1]) then
      var n := Run(s, p + 2, LowerOrHyphen);
      if n > 0 && p + 2 + n < |s| && s[p + 2 + n] == ')' then p + 3 + n else e
    else e
  }

  /** `[A-Z][a-z]+(?:\s+[A-Z][a-z]+)*,\s*[A-Z]{2}(?:\s+\([A-Z][a-z\-]+\))?`
      matched at index `i`: where the match ends. */
  function CityStateAt(s: string, i: nat): (r: Option<nat>)
    requires i <= |s|
    ensures r.Some? ==> i + 5 <= r.value <= |s| && IsUpper(s[i]) && ContainsChar(s[i..r.value], ',')
  {
    match WordEnd(s, i)
    case None => None
    case Some(w) =>
      var e := WordsEnd(s, w);
      if e < |s| && s[e] == ',' then
        var p := e + 1 + Run(s, e + 1, IsSpace);
        if p + 2 <= |s| && IsUpper(s[p]) && IsUpper(s[p + 1]) then
          var end := SuffixEnd(s, p + 2);
          assert s[i..end][e - i] == ',';
          Some(end)
        else None
      else None
  }

  /** A run stops exactly where the property first fails. */
  lemma {:induction false} RunIs(s: string, k: nat, n: nat, p: char -> bool)
    requires k + n <= |s|
    requires forall j :: k <= j < k + n ==> p(s[j])
    requires k + n == |s| || !p(s[k + n])
    ensures Run(s, k, p) == n
    decreases n
  {
    if n > 0 {
      RunIs(s, k + 1, n - 1, p);
    }
  }

  lemma WordsEndAtComma(s: string, e: nat)
    requires e < |s| && s[e] == ','
    ensures WordsEnd(s, e) == e
  {
    RunIs(s, e, 0, IsSpace);
  }

  lemma SuffixEndAbsent(s: string, e: nat)
    requires e <= |s| && (e == |s| || !IsSpace(s[e]))
    ensures SuffixEnd(s, e) == e
  {
    RunIs(s, e, 0, IsSpace);
  }

  /** The match at `i` once its parts are known: a word ending at `w`
      followed directly by a comma, white space up to `p`, two capitals,
      and no suffix. */
  lemma CityStateFromParts(s: string, i: nat, w: nat, p: nat)
    requires i <= |s| && WordEnd(s, i) == Some(w) && w < |s| && s[w] == ','
    requires w + 1 <= p && p + 2 <= |s| && Run(s, w + 1, IsSpace) == p - w - 1
    requires IsUpper(s[p]) && IsUpper(s[p + 1])
    requires p + 2 == |s| || !IsSpace(s[p + 2])
    ensures CityStateAt(s, i) == Some(p + 2)
  {
    WordsEndAtComma(s, w);
    SuffixEndAbsent(s, p + 2);
  }

  /** A one-word city, a comma, one space and a two-letter state code, not
      followed by white space, match exactly. */
  lemma CityStateOfWord(c: char, low: string, st0: char, st1: char, rest: string)
    requires IsUpper(c) && |low| > 0 && forall i :: 0 <= i < |low| ==> IsLower(low[i])
    requires IsUpper(st0) && IsUpper(st1)
    requires |rest| == 0 || !IsSpace(rest[0])
    ensures CityStateAt([c] + low + ", " + [st0, st1] + rest, 0) == Some(|low| + 5)
  {
    var s := [c] + low + ", " + [st0, st1] + rest;
    var e := 1 + |low|;
    assert s[0] == c && s[e] == ',' && s[e + 1] == ' ' && s[e + 2] == st0 && s[e + 3] == st1;
    assert forall j :: 1 <= j < e ==> s[j] == low[j - 1];
    RunIs(s, 1, |low|, IsLower);
    assert WordEnd(s, 0) == Some(e);
    RunIs(s, e + 1, 1, IsSpace);
    if |rest| > 0 {
      assert s[e + 4] == rest[0];
    }
    CityStateFromParts(s, 0, e, e + 2);
  }

  /** The leftmost match from index `i` on, as `String.prototype.match`
      finds it: the index where it starts. */
  function FirstCityState(s: string, i: nat): (r: Option<nat>)
    requires i <= |s|
    ensures r.Some? ==> i <= r.value <= |s| && CityStateAt(s, r.value).Some?
    ensures r.Some? ==> forall k :: i <= k < r.value ==> CityStateAt(s, k).None?
    ensures r.None? ==> forall k :: i <= k <= |s| ==> CityStateAt(s, k).None?
    decreases |s| - i
  {
    if CityStateAt(s, i).Some? then Some(i)
    else if i == |s| then None
    else FirstCityState(s, i + 1)
  }

  /** The text of the leftmost match. */
  function CityStateMatch(s: string): (r: Option<string>)
    ensures r.Some? <==> exists j :: 0 <= j <= |s| && CityStateAt(s, j).Some?
    ensures r.Some? ==> |r.value| >= 5 && IsUpper(r.value[0])
    ensures r.Some? ==> exists j :: (0 <= j <= |s| && CityStateAt(s, j).Some?
      && (forall k :: 0 <= k < j ==> CityStateAt(s, k).None?)
      && r.value == s[j..CityStateAt(s, j).value])
  {
    match FirstCityState(s, 0)
    case None => None
    case Some(j) => Some(s[j..CityStateAt(s, j).value])
  }

  /** `location = match.trim(); if (location.length < 50) ...` */
  function KeepShort(m: Option<string>): (r: Option<string>)
    requires m.Some? ==> |m.value| > 0 && !IsSpace(m.value[0])
    ensures r.Some? ==> r.value != "" && |r.value| < 50
    ensures r.Some? <==> m.Some? && |Trim(m.value)| < 50
    ensures r.Some? ==> r.value == Trim(m.value)
  {
    match m
    case None => None
    case Some(text) =>
      if |Trim(text)| < 50 then
        TrimNonBlank(text);
        Some(Trim(text))
      else None
  }

  /** The last resort: the first match in the page text, kept when its
      trimmed form is shorter than 50 characters. */
  function BodyLocation(bodyText: string): (r: Option<string>)
    ensures r.Some? ==> r.value != "" && |r.value| < 50
    ensures r.Some? <==> CityStateMatch(bodyText).Some? && |Trim(CityStateMatch(bodyText).value)| < 50
    ensures r.Some? ==> r.value == Trim(CityStateMatch(bodyText).value)
  {
    KeepShort(CityStateMatch(bodyText))
  }

  /** Page text that opens with "City, ST" yields that as the location. */
  lemma BodyLocationOfCity(c: char, low: string, st0: char, st1: char, rest: string)
    requires IsUpper(c) && 0 < |low| < 45 && forall i :: 0 <= i < |low| ==> IsLower(low[i])
    requires IsUpper(st0) && IsUpper(st1)
    requires |rest| == 0 || !IsSpace(rest[0])
    ensures BodyLocation([c] + low + ", " + [st0, st1] + rest) == Some([c] + low + ", " + [st0, st1])
  {
    var s := [c] + low + ", " + [st0, st1] + rest;
    var city := [c] + low + ", " + [st0, st1];
    CityStateOfWord(c, low, st0, st1, rest);
    assert s[..|low| + 5] == city;
    TrimOfUnpadded(city);
  }

  // ---- salary ----

  /** The alternatives of `/\$|USD|EUR|GBP|salary|\/yr|\/year|\/hour|\/hr|k-|compensation/i`,
      lower-cased. */
  const SalaryHints: seq<string> := [
    "$", "usd", "eur", "gbp", "salary", "/yr", "/year", "/hour", "/hr", "k-", "compensation"]

  /** The lower-cased text contains one of `hints`. */
  predicate HasHint(t: string, hints: seq<string>) {
    |hints| > 0 && (Contains(Lower(t), hints[0]) || HasHint(t, hints[1..]))
  }

  predicate SalaryHint(t: string) {
    HasHint(t, SalaryHints)
  }

  /** Some element of `items` has trimmed text carrying a salary hint. */
  predicate HasSalary(items: seq<Element>) {
    exists j :: 0 <= j < |items| && ItemOk(SalaryHint, items[j])
  }

  /** The nested salary loop over `sels` from index `i`: the index of the
      first selector with an element whose trimmed text carries a salary
      hint. */
  function FirstSalarySelector(page: Page, sels: seq<string>, i: nat): (r: Option<nat>)
    requires i <= |sels|
    ensures r.Some? ==> i <= r.value < |sels| && HasSalary(All(page, sels[r.value]))
    ensures r.Some? ==> forall k :: i <= k < r.value ==> !HasSalary(All(page, sels[k]))
    ensures r.None? ==> forall k :: i <= k < |sels| ==> !HasSalary(All(page, sels[k]))
  {
    FirstWhere(sels, sel => HasSalary(All(page, sel)), i)
  }

  /** The salary the loop settles on: in selector order and then document
      order, the first element whose trimmed text carries a hint. */
  function FirstSalary(page: Page, sels: seq<string>): (r: Option<string>)
    ensures r.Some? ==> SalaryHint(r.value)
    ensures r.None? <==> forall k :: 0 <= k < |sels| ==> !HasSalary(All(page, sels[k]))
    ensures r.Some? <==> FirstSalarySelector(page, sels, 0).Some?
    ensures r.Some? ==>
      var items := All(page, sels[FirstSalarySelector(page, sels, 0).value]);
      FirstItemFrom(items, SalaryHint, 0).Some?
      && r.value == Trim(items[FirstItemFrom(items, SalaryHint, 0).value].text)
  {
    match FirstSalarySelector(page, sels, 0)
    case None => None
    case Some(k) =>
      var items := All(page, sels[k]);
      var j := FirstItemFrom(items, SalaryHint, 0).value;
      Some(Trim(items[j].text))
  }

  // ---- the insights list ----

  /** `\b[A-Z]{2}\b`: two capitals that are a whole word. */
  predicate StateCode(t: string) {
    exists i :: (0 <= i && i + 2 <= |t| && IsUpper(t[i]) && IsUpper(t[i + 1])
      && (i == 0 || !IsWordChar(t[i - 1])) && (i + 2 == |t| || !IsWordChar(t[i + 2])))
  }

  predicate InsightLocation(t: string) {
    ContainsChar(t, ',') || StateCode(t)
  }

  /** `/\$|salary|compensation/i` */
  predicate InsightSalary(t: string) {
    ContainsChar(t, '$') || Contains(Lower(t), "salary") || Contains(Lower(t), "compensation")
  }

  /** The insights loop: each item may fill the location and the salary,
      but only while they are still unset, and the loop never stops early. */
  function Insights(items: seq<Element>, loc: Option<string>, sal: Option<string>): (r: (Option<string>, Option<string>))
    ensures loc.Some? ==> r.0 == loc
    ensures sal.Some? ==> r.1 == sal
    decreases |items|
  {
    if |items| == 0 then (loc, sal)
    else
      var t := Trim(items[0].text);
      var loc' := if loc.None? && InsightLocation(t) then Some(t) else loc;
      var sal' := if sal.None? && InsightSalary(t) then Some(t) else sal;
      Insights(items[1..], loc', sal')
  }

  /** The single pass fills each unset field exactly as a separate search
      for its first matching item would: the two fields do not interact. */
  lemma {:induction false} InsightsAreFirstItems(items: seq<Element>, loc: Option<string>, sal: Option<string>)
    ensures loc.None? ==> Insights(items, loc, sal).0 == FirstItem(items, InsightLocation)
    ensures sal.None? ==> Insights(items, loc, sal).1 == FirstItem(items, InsightSalary)
    decreases |items|
  {
    if |items| > 0 {
      var t := Trim(items[0].text);
      var loc' := if loc.None? && InsightLocation(t) then Some(t) else loc;
      var sal' := if sal.None? && InsightSalary(t) then Some(t) else sal;
      InsightsAreFirstItems(items[1..], loc', sal');
      FirstItemCons(items, InsightLocation);
      FirstItemCons(items, InsightSalary);
    }
  }

  // ---- the whole parser ----

  /** The location before the insights list: description lines, then
      bullets, then the page text. */
  function Location(page: Page): (r: Option<string>)
    ensures ContainerLocation(page).Some? ==> r == ContainerLocation(page)
    ensures ContainerLocation(page).None? && FirstItem(All(page, BulletSelector), BulletOk).Some? ==>
      r == FirstItem(All(page, BulletSelector), BulletOk)
    ensures ContainerLocation(page).None? && FirstItem(All(page, BulletSelector), BulletOk).None? ==>
      r == BodyLocation(page.bodyText)
    ensures r.Some? ==> r.value != ""
  {
    var fromLines := ContainerLocation(page);
    if fromLines.Some? then fromLines
    else
      var fromBullets := FirstItem(All(page, BulletSelector), BulletOk);
      if fromBullets.Some? then fromBullets
      else
        BodyLocation(page.bodyText)
  }

  /** extractLinkedInJobData */
  function Extract(page: Page): (r: Option<Job>)
    ensures r.Some? <==>
      && IsLinkedInJobPage(page)
      && FirstText(page, TitleSelectors, NonEmpty).Some?
      && FirstText(page, CompanySelectors, NonEmpty).Some?
    ensures r.Some? ==>
      && r.value.jobTitle == Str(FirstText(page, TitleSelectors, NonEmpty).value)
      && r.value.company == Str(FirstText(page, CompanySelectors, NonEmpty).value)
      && r.value.jobUrl == Str(page.href) && r.value.status == Interested
      && r.value.location == OrNull(Insights(All(page, InsightsSelector), Location(page), FirstSalary(page, SalarySelectors)).0)
      && r.value.salary == OrNull(Insights(All(page, InsightsSelector), Location(page), FirstSalary(page, SalarySelectors)).1)
      && (Query(page, DescriptionSelector).Some? <==> r.value.jobDescription.Str?)
      && (Query(page, WorkplaceSelector).Some? <==> r.value.notes.Str?)
  {
    if !IsLinkedInJobPage(page) then None
    else
      var title := FirstText(page, TitleSelectors, NonEmpty);
      var company := FirstText(page, CompanySelectors, NonEmpty);
      var filled := Insights(All(page, InsightsSelector), Location(page), FirstSalary(page, SalarySelectors));
      var description :=
        match Query(page, DescriptionSelector)
        case None => Null
        case Some(e) => Str(DescriptionOf(e));
      var notes :=
        match Query(page, WorkplaceSelector)
        case None => Null
        case Some(e) => Str("Workplace Type: " + Trim(e.text));
      if title.Some? && company.Some? then
        Some(Job(Str(title.value), Str(company.value), OrNull(filled.0), OrNull(filled.1),
                 Str(page.href), description, Interested, notes))
      else None
  }
}

=== FILE: lookup_contact.dfy ===
/** The extension's lookup-contact endpoint: given the LinkedIn URL of the
    profile being viewed, it reports whether a stored contact matches and,
    if so, the contact's fields. `lookup` stands for the contacts query,
    given the normalised URL and the username it filters on. */
module LookupContact {

  import opened Wrappers
  import opened JsValues
  import opened ExtensionApi
  import SyncConnections

  /** The selected columns of a contact row; the nullable text columns are
      passed through as they are. */
  datatype ContactRow = ContactRow(id: string, name: Value, title: Value, company: Value,
                                   linkedin: Value, mutualConnections: Option<seq<string>>)

  /** The `contact` object of a positive answer. */
  datatype ContactView = ContactView(id: string, name: Value, title: Value, company: Value,
                                     linkedin: Value, mutualConnections: seq<string>)

  datatype LookupResponse =
    | Unauthorized
    | MissingUrl
    | DatabaseError(details: DbError)
    | InternalError
    | NotFound
    | Found(contact: ContactView)
  {
    function Status(): int {
      if Unauthorized? then 401
      else if MissingUrl? then 400
      else if DatabaseError? || InternalError? then 500
      else 200
    }
  }

  /** POST /api/extension/lookup-contact. The checks run in source order:
      API key (401), body (not JSON, or null: 500), linkedin_url present
      (400), linkedin_url a string (else normalizeLinkedInUrl throws: 500);
      then a database error other than "no rows" is a 500, no row is
      `{found: false}`, and a row is returned with mutual_connections
      defaulting to []. */
  function Lookup(req: Request, configuredKey: Option<string>,
                  parse: string -> Option<string>,
                  lookup: (string, string) -> DbResult<ContactRow>): (r: LookupResponse)
    ensures r.Unauthorized? <==> !ApiKeyAccepted(req.apiKey, configuredKey)
    ensures r.MissingUrl? <==>
      && ApiKeyAccepted(req.apiKey, configuredKey)
      && req.body.Some? && Get(req.body.value, "linkedin_url").Some?
      && !Truthy(Field(req.body.value, "linkedin_url"))
    ensures r.DatabaseError? ==> r.details.code != NoRows
    ensures r.NotFound? || r.Found? || r.DatabaseError? ==>
      && ApiKeyAccepted(req.apiKey, configuredKey) && req.body.Some?
      && Field(req.body.value, "linkedin_url").Str?
      && var url := Field(req.body.value, "linkedin_url").s;
         var res := lookup(NormalizeLinkedInUrl(url, parse), ExtractUsername(url));
         && (r.DatabaseError? <==> LookupFailed(res))
         && (r.DatabaseError? ==> res.error == Some(r.details))
         && (r.NotFound? <==> !LookupFailed(res) && res.row.None?)
         && (r.Found? ==>
               var row := res.row.value;
               && r.contact.id == row.id && r.contact.name == row.name
               && r.contact.title == row.title && r.contact.company == row.company
               && r.contact.linkedin == row.linkedin
               && (row.mutualConnections.Some? ==> r.contact.mutualConnections == row.mutualConnections.value)
               && (row.mutualConnections.None? ==> r.contact.mutualConnections == []))
    ensures r.InternalError? <==>
      && ApiKeyAccepted(req.apiKey, configuredKey)
      && (|| req.body.None? || Get(req.body.value, "linkedin_url").None?
          || (Truthy(Field(req.body.value, "linkedin_url")) && !Field(req.body.value, "linkedin_url").Str?))
    ensures && ApiKeyAccepted(req.apiKey, configuredKey)
            && req.body.Some? && Get(req.body.value, "linkedin_url").Some?
            && NonEmptyStr(Field(req.body.value, "linkedin_url"))
            ==>
      var url := Field(req.body.value, "linkedin_url").s;
      var res := lookup(NormalizeLinkedInUrl(url, parse), ExtractUsername(url));
      && (LookupFailed(res) ==> r == DatabaseError(res.error.value))
      && (!LookupFailed(res) && res.row.None? ==> r == NotFound)
      && (!LookupFailed(res) && res.row.Some? ==> r.Found?)
  {
    if !ApiKeyAccepted(req.apiKey, configuredKey) then Unauthorized
    else if req.body.None? || Get(req.body.value, "linkedin_url").None? then InternalError
    else
      var url := Field(req.body.value, "linkedin_url");
      if !Truthy(url) then MissingUrl
      else if !url.Str? then InternalError
      else
        var res := lookup(NormalizeLinkedInUrl(url.s, parse), ExtractUsername(url.s));
        if LookupFailed(res) then DatabaseError(res.error.value)
        else if res.row.None? then NotFound
        else
          var row := res.row.value;
          Found(ContactView(row.id, row.name, row.title, row.company, row.linkedin,
                            row.mutualConnections.GetOr([])))
  }

  /** For the same request the two endpoints refuse a bad key alike and a
      missing linkedin_url alike; whatever the sync endpoint accepts, the
      lookup endpoint accepts too. */
  lemma EndpointsRejectAlike(req: Request, configuredKey: Option<string>,
                             parse: string -> Option<string>,
                             lookup: (string, string) -> DbResult<ContactRow>,
                             syncLookup: (string, string) -> DbResult<SyncConnections.ContactRow>,
                             update: (string, seq<string>) -> Option<DbError>)
    ensures var s := SyncConnections.Sync(req, configuredKey, parse, syncLookup, update).response;
      var l := Lookup(req, configuredKey, parse, lookup);
      && (s.Unauthorized? <==> l.Unauthorized?)
      && (s.MissingUrl? <==> l.MissingUrl?)
      && (s.Synced? || s.ContactNotFound? ==> l.Found? || l.NotFound? || l.DatabaseError?)
  {
    var v := SyncConnections.Validate(req, configuredKey);
    if v.Valid? {
      assert Field(req.body.value, "linkedin_url") == Str(v.url);
    }
  }
}

=== FILE: n8n_contacts.dfy ===
/** The automation endpoint that creates contacts (POST /api/n8n/contacts):
    an API-key check, a required name, and a contact row shaped from the
    body — nulls and defaults for the optional columns, a comma-separated
    mutual-connection list split into names, and experience and education
    entries renamed to the columns' spelling.

    The environment, the insert and the temporary ids that stand in for
    `temp-${Date.now()}-${Math.random()}` are parameters. */
module N8nContacts {

  import opened Wrappers
  import opened Ascii
  import opened JsValues
  import opened ExtensionApi

  /** The environment variables the endpoint reads. */
  datatype Env = Env(
    apiKey: Option<string>,
    supabaseUrl: Option<string>,
    serviceKey: Option<string>,
    defaultUserId: Option<string>)

  /** A variable that is set to a non-empty value (`!!process.env.X`). */
  predicate Configured(v: Option<string>) {
    v.Some? && v.value != ""
  }

  /** validateApiKey: an unset key rejects everything; otherwise the
      `x-api-key` header must equal it. */
  function ValidateApiKey(header: Option<string>, configured: Option<string>): (ok: bool)
    ensures ok ==> header.Some? && header.value != ""
  {
    if !Configured(configured) then false else header == configured
  }

  /** The automation's key check and the extension's accept exactly the same
      requests. */
  lemma ValidateApiKeyIsApiKeyAccepted(header: Option<string>, configured: Option<string>)
    ensures ValidateApiKey(header, configured) <==> ApiKeyAccepted(header, configured)
  {}

  // ---- experience and education entries ----

  datatype Experience = Experience(
    id: Value, company: Value, title: Value, startdate: Value, enddate: Value,
    iscurrent: Value, description: Value)

  datatype Education = Education(
    id: Value, institution: Value, degreeandfield: Value, year: Value, notes: Value)

  /** A text column as `x || ''` leaves it: a truthy value or "". */
  predicate TextColumn(v: Value) {
    Truthy(v) || v == Str("")
  }

  /** `a || b || ''` */
  function FirstOf(a: Value, b: Value): (r: Value)
    ensures TextColumn(r)
    ensures Truthy(a) ==> r == a
    ensures !Truthy(a) && Truthy(b) ==> r == b
  {
    Or(a, Or(b, Str("")))
  }

  /** transformExperience. Reading a property of null or undefined throws
      (None). `is_current` wins whenever it is present, even as null;
      otherwise `iscurrent || false`. */
  function TransformExperience(exp: Value, tempId: string): (r: Option<Experience>)
    ensures r.None? <==> Nullish(exp)
    ensures r.Some? ==>
      && Truthy(r.value.id)
      && TextColumn(r.value.company) && TextColumn(r.value.title)
      && TextColumn(r.value.startdate) && TextColumn(r.value.enddate)
      && TextColumn(r.value.description)
    ensures r.Some? && !Field(exp, "is_current").Undefined? ==> r.value.iscurrent == Field(exp, "is_current")
    ensures r.Some? && Field(exp, "is_current").Undefined? ==>
      CopiedOr(r.value.iscurrent, exp, "iscurrent", Bool(false))
    ensures r.Some? ==>
      && CopiedOr(r.value.id, exp, "id", Str(TempIdOrDefault(tempId)))
      && CopiedOr(r.value.company, exp, "company", Str(""))
      && CopiedOr(r.value.title, exp, "title", Str(""))
      && CopiedOr(r.value.startdate, exp, "start_date", FieldOr(exp, "startdate", Str("")))
      && CopiedOr(r.value.enddate, exp, "end_date", FieldOr(exp, "enddate", Str("")))
      && CopiedOr(r.value.description, exp, "description", Str(""))
  {
    if Nullish(exp) then None
    else
      Some(Experience(
        Or(Field(exp, "id"), Str(TempIdOrDefault(tempId))),
        FieldOr(exp, "company", Str("")),
        FieldOr(exp, "title", Str("")),
        FirstOf(Field(exp, "start_date"), Field(exp, "startdate")),
        FirstOf(Field(exp, "end_date"), Field(exp, "enddate")),
        if !Field(exp, "is_current").Undefined? then Field(exp, "is_current")
        else FieldOr(exp, "iscurrent", Bool(false)),
        FieldOr(exp, "description", Str(""))))
  }

  /** The generated id always starts with "temp-", so it is never empty;
      the parameter stands for the part after it. */
  function TempIdOrDefault(suffix: string): (r: string)
    ensures r != ""
  {
    "temp-" + suffix
  }

  /** transformEducation */
  function TransformEducation(edu: Value, tempId: string): (r: Option<Education>)
    ensures r.None? <==> Nullish(edu)
    ensures r.Some? ==>
      && Truthy(r.value.id)
      && TextColumn(r.value.institution) && TextColumn(r.value.degreeandfield)
      && TextColumn(r.value.year) && TextColumn(r.value.notes)
    ensures r.Some? ==>
      && CopiedOr(r.value.id, edu, "id", Str(TempIdOrDefault(tempId)))
      && CopiedOr(r.value.institution, edu, "institution", Str(""))
      && CopiedOr(r.value.degreeandfield, edu, "degree_and_field", FieldOr(edu, "degreeandfield", Str("")))
      && CopiedOr(r.value.year, edu, "year", Str(""))
      && CopiedOr(r.value.notes, edu, "notes", Str(""))
  {
    if Nullish(edu) then None
    else
      Some(Education(
        Or(Field(edu, "id"), Str(TempIdOrDefault(tempId))),
        FieldOr(edu, "institution", Str("")),
        FirstOf(Field(edu, "degree_and_field"), Field(edu, "degreeandfield")),
        FieldOr(edu, "year", Str("")),
        FieldOr(edu, "notes", Str(""))))
  }

  /** A shaped entry as an object again, under the columns' names. */
  function ExperienceObject(e: Experience): Value {
    Obj(map[
      "id" := e.id, "company" := e.company, "title" := e.title, "startdate" := e.startdate,
      "enddate" := e.enddate, "iscurrent" := e.iscurrent, "description" := e.description])
  }

  function EducationObject(e: Education): Value {
    Obj(map[
      "id" := e.id, "institution" := e.institution, "degreeandfield" := e.degreeandfield,
      "year" := e.year, "notes" := e.notes])
  }

  lemma ExperienceObjectFields(e: Experience)
    ensures var o := ExperienceObject(e);
      && Field(o, "id") == e.id && Field(o, "company") == e.company && Field(o, "title") == e.title
      && Field(o, "start_date") == Undefined && Field(o, "startdate") == e.startdate
      && Field(o, "end_date") == Undefined && Field(o, "enddate") == e.enddate
      && Field(o, "is_current") == Undefined && Field(o, "iscurrent") == e.iscurrent
      && Field(o, "description") == e.description
  {}

  lemma EducationObjectFields(e: Education)
    ensures var o := EducationObject(e);
      && Field(o, "id") == e.id && Field(o, "institution") == e.institution
      && Field(o, "degree_and_field") == Undefined && Field(o, "degreeandfield") == e.degreeandfield
      && Field(o, "year") == e.year && Field(o, "notes") == e.notes
  {}

  /** Shaping an already shaped experience keeps it, provided its
      `iscurrent` is a real flag or truthy. */
  lemma TransformExperienceStable(e: Experience, tempId: string)
    requires Truthy(e.id) && TextColumn(e.company) && TextColumn(e.title)
    requires TextColumn(e.startdate) && TextColumn(e.enddate) && TextColumn(e.description)
    requires e.iscurrent == Bool(false) || Truthy(e.iscurrent)
    ensures TransformExperience(ExperienceObject(e), tempId) == Some(e)
  {
    ExperienceObjectFields(e);
  }

  /** `is_current: null` is not undefined, so it is stored as null; a
      second pass reads that null through `iscurrent || false` and stores
      false — shaping is not idempotent on this column. */
  lemma NullIsCurrentKeptOnce(tempId: string)
    ensures var first := TransformExperience(Obj(map["id" := Str("x"), "is_current" := Null]), tempId);
      && first.Some? && first.value.iscurrent == Null
      && TransformExperience(ExperienceObject(first.value), tempId).value.iscurrent == Bool(false)
  {
    var first := TransformExperience(Obj(map["id" := Str("x"), "is_current" := Null]), tempId);
    ExperienceObjectFields(first.value);
  }

  /** Shaping an already shaped education entry keeps it. */
  lemma TransformEducationStable(e: Education, tempId: string)
    requires Truthy(e.id) && TextColumn(e.institution) && TextColumn(e.degreeandfield)
    requires TextColumn(e.year) && TextColumn(e.notes)
    ensures TransformEducation(EducationObject(e), tempId) == Some(e)
  {
    EducationObjectFields(e);
  }

  /** `items.map(f)`, where `f` may throw (None); element `i` gets the
      temporary id `ids(i)`. */
  function MapEntries<T>(items: seq<Value>, f: (Value, string) -> Option<T>, ids: nat -> string): (r: Option<seq<T>>)
    ensures r.None? <==> exists i :: 0 <= i < |items| && f(items[i], ids(i)).None?
    ensures r.Some? ==> |r.value| == |items|
    ensures r.Some? ==> forall i :: 0 <= i < |items| ==> f(items[i], ids(i)) == Some(r.value[i])
    decreases |items|
  {
    if |items| == 0 then Some([])
    else
      var n := |items| - 1;
      var init := items[..n];
      assert forall i :: 0 <= i < n ==> init[i] == items[i];
      match MapEntries(init, f, ids)
      case None => None
      case Some(done) =>
        match f(items[n], ids(n))
        case None => None
        case Some(last) => Some(done + [last])
  }

  /** `Array.isArray(v) ? v.map(f) : []` */
  function Entries<T>(v: Value, f: (Value, string) -> Option<T>, ids: nat -> string): (r: Option<seq<T>>)
    ensures !v.Arr? ==> r == Some([])
    ensures v.Arr? ==> r == MapEntries(v.items, f, ids)
  {
    if v.Arr? then MapEntries(v.items, f, ids) else Some([])
  }

  /** `Array.isArray(v) ? v : []` */
  function ArrayOrEmpty(v: Value): (r: seq<Value>)
    ensures v.Arr? ==> r == v.items
    ensures !v.Arr? ==> r == []
  {
    if v.Arr? then v.items else []
  }

  // ---- mutual connections ----

  function Strs(names: seq<string>): (r: seq<Value>)
    ensures |r| == |names|
    ensures forall k :: 0 <= k < |names| ==> r[k] == Str(names[k])
  {
    seq(|names|, k requires 0 <= k < |names| => Str(names[k]))
  }

  /** `s.split(',').map(s => s.trim()).filter(s => s)` */
  function SplitNames(s: string): seq<string> {
    NonEmptyTrimmed(Split(s, ','))
  }

  /** mutual_connections: an array is passed through, a non-empty string is
      split into names, any other falsy value becomes []; any other truthy
      value has no `split` and throws (None). */
  function MutualConnections(v: Value): (r: Option<Value>)
    ensures r.None? <==> Truthy(v) && !v.Arr? && !v.Str?
    ensures v.Arr? ==> r == Some(v)
    ensures !Truthy(v) ==> r == Some(Arr([]))
    ensures v.Str? && v.s != "" ==> r == Some(Arr(Strs(SplitNames(v.s))))
  {
    if v.Arr? then Some(v)
    else if !Truthy(v) then Some(Arr([]))
    else if v.Str? then Some(Arr(Strs(SplitNames(v.s))))
    else None
  }

  /** The names split from a string are non-empty, carry no white space at
      either end and no comma. */
  lemma SplitNamesAreClean(s: string)
    ensures forall k :: 0 <= k < |SplitNames(s)| ==>
      Unpadded(SplitNames(s)[k]) && !ContainsChar(SplitNames(s)[k], ',')
  {
    var parts := Split(s, ',');
    var r := SplitNames(s);
    forall k | 0 <= k < |r| ensures Unpadded(r[k]) && !ContainsChar(r[k], ',') {
      var j :| 0 <= j < |parts| && r[k] == Trim(parts[j]);
      TrimKeepsAbsentChar(parts[j], ',');
    }
  }

  /** Names joined with commas come back as the same list. */
  lemma MutualConnectionsOfJoined(names: seq<string>)
    requires |names| > 0
    requires forall k :: 0 <= k < |names| ==> Unpadded(names[k]) && !ContainsChar(names[k], ',')
    ensures MutualConnections(Str(Join(names, ","))) == Some(Arr(Strs(names)))
  {
    var s := Join(names, ",");
    SplitJoin(names, ',');
    assert Split(s, ',') == names;
    NonEmptyTrimmedOfUnpadded(names);
    assert SplitNames(s) == names;
    JoinNonEmpty(names, ",");
    assert s != "";
  }

  // ---- the contact row ----

  datatype ContactData = ContactData(
    name: Value,
    company: Value,
    jobTitle: Value,
    email: Value,
    phone: Value,
    linkedinUrl: Value,
    notes: Value,
    currentLocation: Value,
    userId: Option<string>,
    source: Value,
    mutualConnections: Value,
    experience: seq<Experience>,
    education: seq<Education>,
    skills: seq<Value>,
    certifications: seq<Value>)

  /** The contact row for `body`; None when shaping it throws. */
  function Shape(body: Value, env: Env, expIds: nat -> string, eduIds: nat -> string): (r: Option<ContactData>)
    requires !Nullish(body)
    ensures r.None? <==>
      || MutualConnections(Field(body, "mutual_connections")).None?
      || Entries(Field(body, "experience"), TransformExperience, expIds).None?
      || Entries(Field(body, "education"), TransformEducation, eduIds).None?
    ensures r.Some? ==>
      && r.value.name == Field(body, "name")
      && r.value.userId == env.defaultUserId
      && Truthy(r.value.source)
      && CopiedOr(r.value.source, body, "source", Str("n8n automation"))
      && r.value.mutualConnections.Arr?
      && r.value.mutualConnections == MutualConnections(Field(body, "mutual_connections")).value
      && CopiedOrNull(r.value.company, body, "company") && CopiedOrNull(r.value.jobTitle, body, "job_title")
      && CopiedOrNull(r.value.email, body, "email") && CopiedOrNull(r.value.phone, body, "phone")
      && CopiedOrNull(r.value.linkedinUrl, body, "linkedin_url") && CopiedOrNull(r.value.notes, body, "notes")
      && CopiedOrNull(r.value.currentLocation, body, "current_location")
      && r.value.skills == ArrayOrEmpty(Field(body, "skills"))
      && r.value.certifications == ArrayOrEmpty(Field(body, "certifications"))
      && |r.value.experience| == |ArrayOrEmpty(Field(body, "experience"))|
      && |r.value.education| == |ArrayOrEmpty(Field(body, "education"))|
      && r.value.experience == Entries(Field(body, "experience"), TransformExperience, expIds).value
      && r.value.education == Entries(Field(body, "education"), TransformEducation, eduIds).value
  {
    var mutual := MutualConnections(Field(body, "mutual_connections"));
    var experience := Entries(Field(body, "experience"), TransformExperience, expIds);
    var education := Entries(Field(body, "education"), TransformEducation, eduIds);
    if mutual.None? || experience.None? || education.None? then None
    else
      Some(ContactData(
        Field(body, "name"),
        FieldOrNull(body, "company"),
        FieldOrNull(body, "job_title"),
        FieldOrNull(body, "email"),
        FieldOrNull(body, "phone"),
        FieldOrNull(body, "linkedin_url"),
        FieldOrNull(body, "notes"),
        FieldOrNull(body, "current_location"),
        env.defaultUserId,
        FieldOr(body, "source", Str("n8n automation")),
        mutual.value,
        experience.value,
        education.value,
        ArrayOrEmpty(Field(body, "skills")),
        ArrayOrEmpty(Field(body, "certifications"))))
  }

  datatype ContactResponse =
    | Unauthorized
    | MissingName
    | ConfigError
    | InsertFailed(message: string)
    | InternalError
    | Created(data: Value)
  {
    function Status(): int {
      if Unauthorized? then 401
      else if MissingName? then 400
      else if Created? then 201
      else 500
    }
  }

  /** The response, and the row handed to the insert, if any. */
  datatype ContactOutcome = ContactOutcome(response: ContactResponse, inserted: Option<ContactData>)

  /** The checks that pass before the row is shaped. */
  predicate Admitted(req: Request, env: Env) {
    && ValidateApiKey(req.apiKey, env.apiKey)
    && req.body.Some? && !Nullish(req.body.value)
    && Truthy(Field(req.body.value, "name"))
    && Configured(env.supabaseUrl) && Configured(env.serviceKey)
  }

  /** POST /api/n8n/contacts. A body that is not JSON, or is null, throws
      and ends in the catch (500), as does a throw while shaping. */
  function Post(req: Request, env: Env, expIds: nat -> string, eduIds: nat -> string,
                insert: ContactData -> InsertResult): (o: ContactOutcome)
    ensures o.response.Unauthorized? <==> !ValidateApiKey(req.apiKey, env.apiKey)
    ensures o.response.MissingName? <==>
      && ValidateApiKey(req.apiKey, env.apiKey)
      && req.body.Some? && !Nullish(req.body.value)
      && !Truthy(Field(req.body.value, "name"))
    ensures o.response.ConfigError? <==>
      && ValidateApiKey(req.apiKey, env.apiKey)
      && req.body.Some? && !Nullish(req.body.value)
      && Truthy(Field(req.body.value, "name"))
      && !(Configured(env.supabaseUrl) && Configured(env.serviceKey))
    ensures o.inserted.Some? <==>
      Admitted(req, env) && Shape(req.body.value, env, expIds, eduIds).Some?
    ensures o.inserted.Some? ==>
      o.inserted == Shape(req.body.value, env, expIds, eduIds) && Truthy(o.inserted.value.name)
    ensures o.response.Created? <==> o.inserted.Some? && insert(o.inserted.value).error.None?
    ensures o.response.Created? ==> o.response.data == insert(o.inserted.value).data
    ensures o.response.InsertFailed? <==> o.inserted.Some? && insert(o.inserted.value).error.Some?
    ensures o.response.InsertFailed? ==> o.response.message == insert(o.inserted.value).error.value.message
  {
    if !ValidateApiKey(req.apiKey, env.apiKey) then ContactOutcome(Unauthorized, None)
    else if req.body.None? || Nullish(req.body.value) then ContactOutcome(InternalError, None)
    else
      var body := req.body.value;
      if !Truthy(Field(body, "name")) then ContactOutcome(MissingName, None)
      else if !Configured(env.supabaseUrl) || !Configured(env.serviceKey) then ContactOutcome(ConfigError, None)
      else
        match Shape(body, env, expIds, eduIds)
        case None => ContactOutcome(InternalError, None)
        case Some(contact) =>
          var res := insert(contact);
          if res.error.Some? then ContactOutcome(InsertFailed(res.error.value.message), Some(contact))
          else ContactOutcome(Created(res.data), Some(contact))
  }

  /** A body with only a name and a connection list becomes a contact with
      the coerced connections, the default source, null optional columns
      and empty lists. */
  lemma ShapeOfNameAndConnections(name: Value, mutual: Value, env: Env,
                                  expIds: nat -> string, eduIds: nat -> string)
    requires MutualConnections(mutual).Some?
    ensures var r := Shape(Obj(map["name" := name, "mutual_connections" := mutual]), env, expIds, eduIds);
      && r.Some?
      && r.value.name == name
      && r.value.mutualConnections == MutualConnections(mutual).value
      && r.value.source == Str("n8n automation")
      && r.value.company == Null && r.value.email == Null
      && r.value.experience == [] && r.value.skills == []
  {
    var body := Obj(map["name" := name, "mutual_connections" := mutual]);
    NameAndConnectionsFields(name, mutual);
    ShapeOfSparseBody(body, env, expIds, eduIds);
  }

  lemma NameAndConnectionsFields(name: Value, mutual: Value)
    ensures var body := Obj(map["name" := name, "mutual_connections" := mutual]);
      && Field(body, "name") == name && Field(body, "mutual_connections") == mutual
      && Field(body, "experience") == Undefined && Field(body, "education") == Undefined
      && Field(body, "skills") == Undefined && Field(body, "source") == Undefined
      && Field(body, "company") == Undefined && Field(body, "email") == Undefined
  {
  }

  /** Shape of an object body that has none of the optional fields. */
  lemma ShapeOfSparseBody(body: Value, env: Env, expIds: nat -> string, eduIds: nat -> string)
    requires body.Obj? && MutualConnections(Field(body, "mutual_connections")).Some?
    requires Field(body, "experience") == Undefined && Field(body, "education") == Undefined
    requires Field(body, "skills") == Undefined && Field(body, "source") == Undefined
    requires Field(body, "company") == Undefined && Field(body, "email") == Undefined
    ensures var r := Shape(body, env, expIds, eduIds);
      && r.Some?
      && r.value.name == Field(body, "name")
      && r.value.mutualConnections == MutualConnections(Field(body, "mutual_connections")).value
      && r.value.source == Str("n8n automation")
      && r.value.company == Null && r.value.email == Null
      && r.value.experience == [] && r.value.skills == []
  {
  }

  /** In particular a comma-separated list of clean names arrives as that
      list. */
  lemma NameAndConnectionsOnly(name: string, names: seq<string>, env: Env,
                               expIds: nat -> string, eduIds: nat -> string)
    requires |names| > 0
    requires forall k :: 0 <= k < |names| ==> Unpadded(names[k]) && !ContainsChar(names[k], ',')
    ensures var body := Obj(map["name" := Str(name), "mutual_connections" := Str(Join(names, ","))]);
      Shape(body, env, expIds, eduIds).value.mutualConnections == Arr(Strs(names))
  {
    MutualConnectionsOfJoined(names);
    ShapeOfNameAndConnections(Str(name), Str(Join(names, ",")), env, expIds, eduIds);
  }
}

=== FILE: name_examples.dfy ===
/** Worked examples of the name normaliser: the inputs on which its
    word-boundary rules bite, the counterexample to idempotence, and the
    merge examples of the reconciler. Each example takes the raw name as a
    parameter fixed by its precondition. */
module NameExamples {

  import opened Wrappers
  import opened Ascii
  import opened NameMatching

  /** The first two letters of every credential token. */
  predicate TokenHead(a: char, b: char) {
    match a
    case 'a' => b == 'w' || b == 'z'
    case 'b' => b == 's' || b == 'a'
    case 'c' => b == 'p' || b == 'f' || b == 'i' || b == 's' || b == 'e' || b == 'c'
    case 'd' => b == 'b' || b == 'm' || b == 'n' || b == 'p' || b == 'o' || b == 'd' || b == 'c' || b == 'r'
    case 'e' => b == 's' || b == 'd'
    case 'g' => b == 'c'
    case 'j' => b == 'd'
    case 'l' => b == 'l' || b == 'c' || b == 'p' || b == 'm'
    case 'm' => b == 'b' || b == 'd' || b == 's' || b == 'a' || b == 'p' || b == 'h'
    case 'o' => b == 'd'
    case 'p' => b == 'h' || b == 'm' || b == 'e' || b == 's'
    case 'r' => b == 'n'
    case 's' => b == 'h' || b == 'p' || b == 'i'
    case _ => false
  }

  /** The heads that no longer token extends: "do", "ma" and "md". */
  predicate WholeHead(a: char, b: char) {
    (a == 'd' && b == 'o') || (a == 'm' && (b == 'a' || b == 'd'))
  }

  /** What the examples need to know of a credential token: it has a known
      two-letter head, and with a whole head it is exactly two letters. */
  predicate TokenFacts(t: string) {
    |t| >= 2 && TokenHead(t[0], t[1]) && (WholeHead(t[0], t[1]) ==> |t| == 2)
  }

  predicate GroupFacts(toks: seq<string>) {
    forall t :: t in toks ==> TokenFacts(t)
  }

  /** The same facts, checked token by token from index `i` on. */
  predicate AllTokenFacts(toks: seq<string>, i: nat)
    decreases |toks| - i
  {
    i >= |toks| || (TokenFacts(toks[i]) && AllTokenFacts(toks, i + 1))
  }

  lemma {:induction false} AllTokenFactsGroup(toks: seq<string>, i: nat)
    requires i <= |toks| && AllTokenFacts(toks, i)
    ensures forall j :: i <= j < |toks| ==> TokenFacts(toks[j])
    decreases |toks| - i
  {
    if i < |toks| {
      AllTokenFactsGroup(toks, i + 1);
    }
  }

  lemma AllTokenFactsToGroup(toks: seq<string>)
    requires AllTokenFacts(toks, 0)
    ensures GroupFacts(toks)
  {
    AllTokenFactsGroup(toks, 0);
  }

  lemma TokenFactsA() ensures AllTokenFacts(DegreesA, 0) {}
  lemma GroupFactsA() ensures GroupFacts(DegreesA) { TokenFactsA(); AllTokenFactsToGroup(DegreesA); }
  lemma TokenFactsB() ensures AllTokenFacts(DegreesB, 0) {}
  lemma GroupFactsB() ensures GroupFacts(DegreesB) { TokenFactsB(); AllTokenFactsToGroup(DegreesB); }
  lemma TokenFactsC() ensures AllTokenFacts(DegreesC, 0) {}
  lemma GroupFactsC() ensures GroupFacts(DegreesC) { TokenFactsC(); AllTokenFactsToGroup(DegreesC); }
  lemma TokenFactsD() ensures AllTokenFacts(DegreesD, 0) {}
  lemma GroupFactsD() ensures GroupFacts(DegreesD) { TokenFactsD(); AllTokenFactsToGroup(DegreesD); }
  lemma TokenFactsE() ensures AllTokenFacts(HrCertifications, 0) {}
  lemma GroupFactsE() ensures GroupFacts(HrCertifications) { TokenFactsE(); AllTokenFactsToGroup(HrCertifications); }
  lemma TokenFactsF() ensures AllTokenFacts(TechCertifications, 0) {}
  lemma GroupFactsF() ensures GroupFacts(TechCertifications) { TokenFactsF(); AllTokenFactsToGroup(TechCertifications); }
  lemma TokenFactsG() ensures AllTokenFacts(CloudCertifications, 0) {}
  lemma GroupFactsG() ensures GroupFacts(CloudCertifications) { TokenFactsG(); AllTokenFactsToGroup(CloudCertifications); }

  lemma SuffixFacts()
    ensures GroupFacts(CredentialSuffixes)
  {
    GroupFactsA(); GroupFactsB(); GroupFactsC(); GroupFactsD();
    GroupFactsE(); GroupFactsF(); GroupFactsG();
  }

  /** No credential token starts at index `w` of `s`: fewer than two
      characters are left, the two characters are no token's head, or they
      are a whole head followed by a word character. */
  predicate HeadFreeAt(s: string, w: nat)
    requires w <= |s|
  {
    || |s| - w < 2 || !TokenHead(s[w], s[w + 1])
    || (WholeHead(s[w], s[w + 1]) && |s| - w > 2 && IsWordChar(s[w + 2]))
  }

  /** After the white space from index `i` on, no credential token starts. */
  predicate NoHeadFrom(s: string, i: nat)
    requires i <= |s|
    decreases |s| - i
  {
    if i < |s| && IsSpace(s[i]) then NoHeadFrom(s, i + 1) else HeadFreeAt(s, i)
  }

  /** No credential match can start at index `k` of `s`. */
  predicate NoHeadAt(s: string, k: nat)
    requires k <= |s|
  {
    NoHeadFrom(s, if k < |s| && s[k] == ',' then k + 1 else k)
  }

  lemma {:induction false} NoHeadFromSkips(s: string, i: nat)
    requires i <= |s| && NoHeadFrom(s, i)
    ensures HeadFreeAt(s, i + LeadingSpaces(s[i..]))
    decreases |s| - i
  {
    if i < |s| && IsSpace(s[i]) {
      assert s[i..][1..] == s[i + 1..];
      NoHeadFromSkips(s, i + 1);
    }
  }

  lemma HeadFreeShift(s: string, k: nat, w: nat)
    requires k + w <= |s|
    ensures HeadFreeAt(s[k..], w) <==> HeadFreeAt(s, k + w)
  {
    if |s| - (k + w) >= 2 {
      assert s[k..][w] == s[k + w] && s[k..][w + 1] == s[k + w + 1];
      if |s| - (k + w) > 2 {
        assert s[k..][w + 2] == s[k + w + 2];
      }
    }
  }

  lemma NoCredentialHere(s: string, toks: seq<string>, k: nat)
    requires GroupFacts(toks) && k <= |s| && NoHeadAt(s, k)
    ensures CredentialMatch(s[k..], toks) == None
  {
    var t := s[k..];
    var c := if |t| > 0 && t[0] == ',' then 1 else 0;
    NoHeadFromSkips(s, k + c);
    assert t[c..] == s[k + c..];
    var w := c + LeadingSpaces(t[c..]);
    HeadFreeShift(s, k, w);
    HeadFreeNoToken(t, w, toks);
  }

  lemma HeadFreeNoToken(t: string, w: nat, toks: seq<string>)
    requires GroupFacts(toks) && w <= |t| && HeadFreeAt(t, w)
    ensures FirstToken(t[w..], toks) == None
  {
    FirstTokenIsFirstMatch(t[w..], toks);
  }

  /** A two-letter token that is all that is left is the match. */
  lemma TwoLetterTokenAtEnd(s: string, toks: seq<string>)
    requires GroupFacts(toks) && |s| == 2 && s in toks && IsWordChar(s[1])
    ensures FirstToken(s, toks) == Some(s)
  {
    FirstTokenIsFirstMatch(s, toks);
    assert TokenAt(s, s);
    var i :| 0 <= i < |toks| && toks[i] == FirstToken(s, toks).value && TokenAt(s, toks[i]);
    assert toks[i] in toks;
  }

  /** A two-letter token at the end, after an optional comma and white
      space, is removed together with them. */
  lemma TwoLetterCredential(s: string, toks: seq<string>, w: nat)
    requires GroupFacts(toks) && w + 2 == |s|
    requires w == (if |s| > 0 && s[0] == ',' then 1 else 0) + LeadingSpaces(s[(if |s| > 0 && s[0] == ',' then 1 else 0)..])
    requires s[w..] in toks && IsWordChar(s[w + 1])
    ensures CredentialMatch(s, toks) == Some(|s|)
  {
    TwoLetterTokenAtEnd(s[w..], toks);
  }

  /** None of the first `j` positions of `s` starts a credential match. */
  predicate NoCredentialBefore(s: string, toks: seq<string>, j: nat)
    requires j <= |s|
    decreases j
  {
    j == 0 || (CredentialMatch(s, toks) == None && NoCredentialBefore(s[1..], toks, j - 1))
  }

  /** No credential match starts at the indexes `k .. j-1` of `s`. */
  predicate NoHeadBetween(s: string, k: nat, j: nat)
    requires k <= j <= |s|
    decreases j - k
  {
    k == j || (NoHeadAt(s, k) && NoHeadBetween(s, k + 1, j))
  }

  lemma {:induction false} NoHeadBetweenJoin(s: string, i: nat, k: nat, j: nat)
    requires i <= k <= j <= |s| && NoHeadBetween(s, i, k) && NoHeadBetween(s, k, j)
    ensures NoHeadBetween(s, i, j)
    decreases k - i
  {
    if i < k {
      NoHeadBetweenJoin(s, i + 1, k, j);
    }
  }

  lemma {:induction false} NoHeadsBefore(s: string, toks: seq<string>, k: nat, j: nat)
    requires GroupFacts(toks) && k <= j <= |s| && NoHeadBetween(s, k, j)
    ensures NoCredentialBefore(s[k..], toks, j - k)
    decreases j - k
  {
    if k < j {
      NoCredentialHere(s, toks, k);
      NoHeadsBefore(s, toks, k + 1, j);
      NoCredentialBeforeStep(s, toks, k, j);
    }
  }

  /** One position without a match in front of a stretch without one. */
  lemma NoCredentialBeforeStep(s: string, toks: seq<string>, k: nat, j: nat)
    requires k < j <= |s| && CredentialMatch(s[k..], toks) == None
    requires NoCredentialBefore(s[k + 1..], toks, j - k - 1)
    ensures NoCredentialBefore(s[k..], toks, j - k)
  {
    assert s[k..][1..] == s[k + 1..];
  }

  lemma SliceTail(s: string, j: nat)
    requires 0 < j <= |s|
    ensures s[1..][j - 1..] == s[j..]
    ensures s[..j] == [s[0]] + s[1..][..j - 1]
  {}

  lemma StripStep(s: string, toks: seq<string>)
    requires |s| > 0 && CredentialMatch(s, toks) == None
    ensures StripCredentialsWith(s, toks) == [s[0]] + StripCredentialsWith(s[1..], toks)
  {}

  lemma {:induction false} StripCredentialsCopies(s: string, toks: seq<string>, j: nat)
    requires j <= |s| && NoCredentialBefore(s, toks, j)
    ensures StripCredentialsWith(s, toks) == s[..j] + StripCredentialsWith(s[j..], toks)
    decreases j
  {
    if j > 0 {
      var t := s[1..];
      StripStep(s, toks);
      StripCredentialsCopies(t, toks, j - 1);
      SliceTail(s, j);
    } else {
      assert s[..0] == [] && s[0..] == s;
    }
  }

  lemma {:induction false} StripInitialsNoPeriod(s: string, prevWord: bool)
    requires '.' !in s
    ensures StripInitialsFrom(s, prevWord) == s
    decreases |s|
  {
    if |s| > 0 {
      assert '.' !in s[1..];
      StripInitialsNoPeriod(s[1..], IsWordChar(s[0]));
    }
  }

  lemma {:induction false} RemovePeriodsNoPeriod(s: string)
    requires '.' !in s
    ensures RemovePeriods(s) == s
  {
    if |s| > 0 {
      RemovePeriodsNoPeriod(s[1..]);
    }
  }

  /** The credential pass copies a prefix in which no credential starts. */
  lemma CopiesHeadFreePrefix(s: string, toks: seq<string>, j: nat)
    requires GroupFacts(toks) && j <= |s| && NoHeadBetween(s, 0, j)
    ensures StripCredentialsWith(s, toks) == s[..j] + StripCredentialsWith(s[j..], toks)
  {
    NoHeadsBefore(s, toks, 0, j);
    assert s[0..] == s;
    StripCredentialsCopies(s, toks, j);
  }

  /** The credential pass leaves text without any credential alone. */
  lemma CopiesHeadFree(s: string, toks: seq<string>)
    requires GroupFacts(toks) && NoHeadBetween(s, 0, |s|)
    ensures StripCredentialsWith(s, toks) == s
  {
    CopiesHeadFreePrefix(s, toks, |s|);
    assert s[|s|..] == [] && s[..|s|] == s;
  }

  /** Copying the first character and then the next `j - 1` copies the
      first `j`. */
  lemma ConsPrefix(s: string, j: nat, rest: string)
    requires 0 < j <= |s|
    ensures [s[0]] + (s[1..][..j - 1] + rest) == s[..j] + rest
  {
    assert [s[0]] + s[1..][..j - 1] == s[..j];
  }

  /** A character not followed by a period starts no initial: the replace
      copies it and moves on. */
  lemma StripInitialsStep(s: string, prevWord: bool)
    requires |s| >= 2 && s[1] != '.'
    ensures StripInitialsFrom(s, prevWord) == [s[0]] + StripInitialsFrom(s[1..], IsWordChar(s[0]))
  {
    assert InitialMatch(s, prevWord) == None;
  }

  /** Positions before `j` start no initial when no period follows them. */
  lemma {:induction false} StripInitialsCopies(s: string, prevWord: bool, j: nat)
    requires 0 < j < |s| && forall i :: 1 <= i <= j ==> s[i] != '.'
    ensures StripInitialsFrom(s, prevWord) == s[..j] + StripInitialsFrom(s[j..], IsWordChar(s[j - 1]))
    decreases j
  {
    var t := s[1..];
    StripInitialsStep(s, prevWord);
    if j > 1 {
      assert forall i :: 1 <= i <= j - 1 ==> t[i] != '.' by {
        forall i | 1 <= i <= j - 1 ensures t[i] != '.' {
          assert t[i] == s[i + 1];
        }
      }
      StripInitialsCopies(t, IsWordChar(s[0]), j - 1);
      SliceTail(s, j);
      assert t[j - 2] == s[j - 1];
      ConsPrefix(s, j, StripInitialsFrom(s[j..], IsWordChar(s[j - 1])));
    } else {
      assert s[..1] == [s[0]] && s[1..] == t;
    }
  }

  /** Text that already has single spaces only is left alone by the
      white-space collapse. */
  lemma {:induction false} CollapseSingleSpaced(s: string)
    requires forall i :: 0 <= i < |s| && IsSpace(s[i]) ==> s[i] == ' '
    requires forall i :: 0 <= i < |s| - 1 ==> !(s[i] == ' ' && s[i + 1] == ' ')
    ensures CollapseWhitespace(s) == s
  {
    if |s| > 0 {
      if IsSpace(s[0]) {
        assert LeadingSpaces(s) == 1 by {
          if |s| > 1 { assert !IsSpace(s[1]); }
        }
      }
      CollapseSingleSpaced(s[1..]);
    }
  }

  /** A name that only needs lower-casing once credentials are gone. */
  lemma Finish(k: string)
    requires '.' !in k && IsKey(k)
    ensures Trim(CollapseWhitespace(RemovePeriods(StripInitials(k)))) == k
  {
    StripInitialsNoPeriod(k, false);
    RemovePeriodsNoPeriod(k);
    CollapseSingleSpaced(k);
    TrimOfUnpadded(k);
  }

  lemma TwoLetterCredentialsListed()
    ensures "md" in CredentialSuffixes && "do" in CredentialSuffixes && "ms" in CredentialSuffixes
  {
    assert "md" in DegreesA && "do" in DegreesC && "ms" in DegreesB;
  }

  /** A match that reaches the end of the input leaves nothing. */
  lemma StripTrailingCredential(s: string, toks: seq<string>)
    requires |s| > 0 && CredentialMatch(s, toks) == Some(|s|)
    ensures StripCredentialsWith(s, toks) == ""
  {
    assert s[|s|..] == [];
  }

  // ---- facts about literals, one evaluation each ----

  lemma HeadsSmithMba()
    ensures NoHeadBetween("john smith, mba", 0, 10)
  {}

  lemma HeadsJohnDSmithA() ensures NoHeadBetween("john d. smith", 0, 5) {}
  lemma HeadsJohnDSmithB() ensures NoHeadBetween("john d. smith", 5, 9) {}
  lemma HeadsJohnDSmithC() ensures NoHeadBetween("john d. smith", 9, 13) {}

  lemma HeadsJohnDSmith()
    ensures NoHeadBetween("john d. smith", 0, 13)
  {
    HeadsJohnDSmithA(); HeadsJohnDSmithB(); HeadsJohnDSmithC();
    NoHeadBetweenJoin("john d. smith", 5, 9, 13);
    NoHeadBetweenJoin("john d. smith", 0, 5, 13);
  }

  lemma HeadsJohnDNoPeriodA() ensures NoHeadBetween("john d smith", 0, 4) {}
  lemma HeadsJohnDNoPeriodB() ensures NoHeadBetween("john d smith", 4, 8) {}
  lemma HeadsJohnDNoPeriodC() ensures NoHeadBetween("john d smith", 8, 12) {}

  lemma HeadsJohnDNoPeriod()
    ensures NoHeadBetween("john d smith", 0, 12)
  {
    HeadsJohnDNoPeriodA(); HeadsJohnDNoPeriodB(); HeadsJohnDNoPeriodC();
    NoHeadBetweenJoin("john d smith", 4, 8, 12);
    NoHeadBetweenJoin("john d smith", 0, 4, 12);
  }

  lemma HeadsDonald()
    ensures NoHeadBetween("donald", 0, 6)
  {}

  lemma HeadsAdams()
    ensures NoHeadBetween("adams", 0, 3)
  {}

  lemma HeadsAmandaDo()
    ensures NoHeadBetween("amanda do", 0, 6)
  {}

  lemma HeadsXmd()
    ensures NoHeadBetween("xmd", 0, 1)
  {}

  lemma HeadsXmPeriodD()
    ensures NoHeadBetween("xm.d", 0, 4)
  {}

  lemma LowerSmithMba()
    ensures Lower("John Smith, MBA") == "john smith, mba"
  {}

  lemma LowerJohnDSmith()
    ensures Lower("John D. Smith") == "john d. smith"
  {}

  lemma LowerJohnDNoPeriod()
    ensures Lower("John D Smith") == "john d smith"
  {}

  lemma LowerDonald()
    ensures Lower("Donald") == "donald"
  {}

  lemma LowerAdams()
    ensures Lower("Adams") == "adams"
  {}

  lemma LowerAmandaDo()
    ensures Lower("Amanda Do") == "amanda do"
  {}

  /** The normaliser's result from the results of its passes. */
  lemma NormalizeSteps(name: string, lowered: string, stripped: string, key: string)
    requires name != "" && Lower(name) == lowered && StripCredentials(lowered) == stripped
    requires Trim(CollapseWhitespace(RemovePeriods(StripInitials(stripped)))) == key
    ensures Normalize(name) == key
  {}

  /** The same, when the initials pass changes the text. */
  lemma NormalizeStepsWithInitial(name: string, lowered: string, stripped: string, initialsOut: string, key: string)
    requires name != "" && Lower(name) == lowered && StripCredentials(lowered) == stripped
    requires StripInitials(stripped) == initialsOut
    requires Trim(CollapseWhitespace(RemovePeriods(StripInitials(initialsOut)))) == key
    requires '.' !in initialsOut
    ensures Normalize(name) == key
  {
    StripInitialsNoPeriod(initialsOut, false);
  }

  /** A prefix without credentials followed by a credential that runs to
      the end: only the prefix is left. */
  lemma StripThenTrailing(s: string, toks: seq<string>, j: nat)
    requires GroupFacts(toks) && j < |s| && NoHeadBetween(s, 0, j)
    requires CredentialMatch(s[j..], toks) == Some(|s| - j)
    ensures StripCredentialsWith(s, toks) == s[..j]
  {
    CopiesHeadFreePrefix(s, toks, j);
    StripTrailingCredential(s[j..], toks);
  }

  // ---- examples ----

  lemma CommaMba(s: string, toks: seq<string>)
    requires s == ", mba" && |toks| > 0 && toks[0] == "mba"
    ensures CredentialMatch(s, toks) == Some(|s|)
  {
    assert s[1..] == " mba" && " mba"[1..] == "mba" && s[2..] == "mba";
    assert LeadingSpaces(" mba") == 1;
    assert TokenAt("mba", "mba");
  }

  lemma StripSmithMba(s: string, toks: seq<string>)
    requires s == "john smith, mba" && GroupFacts(toks) && |toks| > 0 && toks[0] == "mba"
    ensures StripCredentialsWith(s, toks) == "john smith"
  {
    HeadsSmithMba();
    assert s[..10] == "john smith";
    CommaMba(s[10..], toks);
    StripThenTrailing(s, toks, 10);
  }

  lemma StripCredentialsSmithMba(s: string)
    requires s == "john smith, mba"
    ensures StripCredentials(s) == "john smith"
  {
    SuffixFacts();
    assert CredentialSuffixes[0] == "mba";
    StripSmithMba(s, CredentialSuffixes);
  }

  lemma FinishJohnSmith()
    ensures Trim(CollapseWhitespace(RemovePeriods(StripInitials("john smith")))) == "john smith"
  {
    Finish("john smith");
  }

  /** "John Smith, MBA" loses the comma and the credential. */
  lemma NormalizeSmithMba(name: string)
    requires name == "John Smith, MBA"
    ensures Normalize(name) == "john smith"
  {
    LowerSmithMba();
    StripCredentialsSmithMba("john smith, mba");
    FinishJohnSmith();
    NormalizeSteps(name, "john smith, mba", "john smith", "john smith");
  }

  lemma StripCredentialsJohnDSmith(s: string)
    requires s == "john d. smith"
    ensures StripCredentials(s) == s
  {
    SuffixFacts();
    HeadsJohnDSmith();
    CopiesHeadFree(s, CredentialSuffixes);
  }

  lemma StripInitialDSmith(s: string)
    requires s == "d. smith"
    ensures StripInitialsFrom(s, false) == "smith"
  {
    assert s[2..] == " smith" && " smith"[1..] == "smith";
    assert LeadingSpaces(" smith") == 1;
    assert InitialMatch(s, false) == Some(3);
    assert s[3..] == "smith";
    StripInitialsNoPeriod("smith", false);
  }

  lemma NoPeriodInJohnD(s: string)
    requires s == "john d. smith"
    ensures forall i :: 1 <= i <= 5 ==> s[i] != '.'
  {}

  lemma SplitJohnD(s: string, t: string)
    requires s == "john d. smith" && t == "d. smith"
    ensures s[..5] == "john " && s[5..] == t && !IsWordChar(s[4])
  {}

  lemma StripInitialsJohnDCopies(s: string, t: string)
    requires s == "john d. smith" && t == "d. smith"
    ensures StripInitialsFrom(s, false) == "john " + StripInitialsFrom(t, false)
  {
    NoPeriodInJohnD(s);
    StripInitialsCopies(s, false, 5);
    SplitJohnD(s, t);
  }

  /** Chaining a copied prefix with the rest of the replace. */
  lemma StripInitialsChain(s: string, t: string, a: string, b: string)
    requires StripInitialsFrom(s, false) == a + StripInitialsFrom(t, false)
    requires StripInitialsFrom(t, false) == b
    ensures StripInitials(s) == a + b
  {}

  lemma StripInitialsJohnDSmith(s: string, t: string)
    requires s == "john d. smith" && t == "d. smith"
    ensures StripInitials(s) == "john smith"
  {
    StripInitialsJohnDCopies(s, t);
    StripInitialDSmith(t);
    StripInitialsChain(s, t, "john ", "smith");
    JohnSmithJoin();
  }

  lemma JohnSmithJoin()
    ensures "john " + "smith" == "john smith"
  {}

  /** "John D. Smith": a middle initial and the white space after it are
      removed. */
  lemma NormalizeJohnDSmith(name: string)
    requires name == "John D. Smith"
    ensures Normalize(name) == "john smith"
  {
    LowerJohnDSmith();
    StripCredentialsJohnDSmith("john d. smith");
    StripInitialsJohnDSmith("john d. smith", "d. smith");
    FinishJohnSmith();
    NormalizeStepsWithInitial(name, "john d. smith", "john d. smith", "john smith", "john smith");
  }

  /** Both spellings are the same person. */
  lemma SameJohnSmith()
    ensures NamesMatch("John Smith, MBA", "John D. Smith")
  {
    NormalizeSmithMba("John Smith, MBA");
    NormalizeJohnDSmith("John D. Smith");
  }

  lemma StripCredentialsJohnDNoPeriod(s: string)
    requires s == "john d smith"
    ensures StripCredentials(s) == s
  {
    SuffixFacts();
    HeadsJohnDNoPeriod();
    CopiesHeadFree(s, CredentialSuffixes);
  }

  lemma FinishJohnDSmith()
    ensures Trim(CollapseWhitespace(RemovePeriods(StripInitials("john d smith")))) == "john d smith"
  {
    Finish("john d smith");
  }

  /** Without its period an initial stays: "John D Smith" keeps the "d". */
  lemma NormalizeJohnDNoPeriod(name: string)
    requires name == "John D Smith"
    ensures Normalize(name) == "john d smith"
  {
    LowerJohnDNoPeriod();
    StripCredentialsJohnDNoPeriod("john d smith");
    FinishJohnDSmith();
    NormalizeSteps(name, "john d smith", "john d smith", "john d smith");
  }

  lemma StripCredentialsDonald(s: string)
    requires s == "donald"
    ensures StripCredentials(s) == s
  {
    SuffixFacts();
    HeadsDonald();
    CopiesHeadFree(s, CredentialSuffixes);
  }

  lemma FinishDonald()
    ensures Trim(CollapseWhitespace(RemovePeriods(StripInitials("donald")))) == "donald"
  {
    Finish("donald");
  }

  /** A credential at the start of a word is not removed: "do" in "Donald"
      is followed by a word character. */
  lemma NormalizeDonald(name: string)
    requires name == "Donald"
    ensures Normalize(name) == "donald"
  {
    LowerDonald();
    StripCredentialsDonald("donald");
    FinishDonald();
    NormalizeSteps(name, "donald", "donald", "donald");
  }

  /** A listed two-letter credential on its own is one whole match. */
  lemma TrailingTwoLetter(s: string, toks: seq<string>)
    requires (s == "ms" || s == "md") && GroupFacts(toks) && s in toks
    ensures CredentialMatch(s, toks) == Some(|s|)
  {
    assert s[0..] == s;
    TwoLetterCredential(s, toks, 0);
  }

  lemma StripCredentialsAdams(s: string)
    requires s == "adams"
    ensures StripCredentials(s) == "ada"
  {
    SuffixFacts();
    TwoLetterCredentialsListed();
    HeadsAdams();
    assert s[..3] == "ada" && s[3..] == "ms";
    TrailingTwoLetter(s[3..], CredentialSuffixes);
    StripThenTrailing(s, CredentialSuffixes, 3);
  }

  lemma FinishAda()
    ensures Trim(CollapseWhitespace(RemovePeriods(StripInitials("ada")))) == "ada"
  {
    Finish("ada");
  }

  /** A credential at the end of a word is removed: "Adams" ends in "ms". */
  lemma NormalizeAdams(name: string)
    requires name == "Adams"
    ensures Normalize(name) == "ada"
  {
    LowerAdams();
    StripCredentialsAdams("adams");
    FinishAda();
    NormalizeSteps(name, "adams", "ada", "ada");
  }

  lemma SpaceDo(s: string, toks: seq<string>)
    requires s == " do" && GroupFacts(toks) && "do" in toks
    ensures CredentialMatch(s, toks) == Some(|s|)
  {
    assert s[1..] == "do" && s[0..] == s;
    assert LeadingSpaces(s) == 1;
    TwoLetterCredential(s, toks, 1);
  }

  lemma StripCredentialsAmandaDo(s: string)
    requires s == "amanda do"
    ensures StripCredentials(s) == "amanda"
  {
    SuffixFacts();
    TwoLetterCredentialsListed();
    HeadsAmandaDo();
    assert s[..6] == "amanda" && s[6..] == " do";
    SpaceDo(s[6..], CredentialSuffixes);
    StripThenTrailing(s, CredentialSuffixes, 6);
  }

  lemma FinishAmanda()
    ensures Trim(CollapseWhitespace(RemovePeriods(StripInitials("amanda")))) == "amanda"
  {
    Finish("amanda");
  }

  /** The match needs no comma: a surname that equals a credential is
      removed. */
  lemma NormalizeAmandaDo(name: string)
    requires name == "Amanda Do"
    ensures Normalize(name) == "amanda"
  {
    LowerAmandaDo();
    StripCredentialsAmandaDo("amanda do");
    FinishAmanda();
    NormalizeSteps(name, "amanda do", "amanda", "amanda");
  }

  lemma StripCredentialsXmd(s: string)
    requires s == "xmd"
    ensures StripCredentials(s) == "x"
  {
    SuffixFacts();
    TwoLetterCredentialsListed();
    HeadsXmd();
    assert s[..1] == "x" && s[1..] == "md";
    TrailingTwoLetter(s[1..], CredentialSuffixes);
    StripThenTrailing(s, CredentialSuffixes, 1);
  }

  lemma StripCredentialsXmPeriodD(s: string)
    requires s == "xm.d"
    ensures StripCredentials(s) == s
  {
    SuffixFacts();
    HeadsXmPeriodD();
    CopiesHeadFree(s, CredentialSuffixes);
  }

  lemma FinishXmPeriodD()
    ensures Trim(CollapseWhitespace(RemovePeriods(StripInitials("xm.d")))) == "xmd"
  {
    assert StripInitials("xm.d") == "xm.d";
    assert RemovePeriods("xm.d") == "xmd";
    CollapseSingleSpaced("xmd");
    TrimOfUnpadded("xmd");
  }

  lemma FinishX()
    ensures Trim(CollapseWhitespace(RemovePeriods(StripInitials("x")))) == "x"
  {
    Finish("x");
  }

  /** Normalisation is not idempotent: removing the period of "xm.d" creates
      the credential "md" at the end of a word. */
  lemma NotIdempotent(name: string)
    requires name == "xm.d"
    ensures Normalize(name) == "xmd"
    ensures Normalize(Normalize(name)) == "x"
  {
    assert Lower("xm.d") == "xm.d" && Lower("xmd") == "xmd";
    StripCredentialsXmPeriodD("xm.d");
    FinishXmPeriodD();
    NormalizeSteps(name, "xm.d", "xm.d", "xmd");
    StripCredentialsXmd("xmd");
    FinishX();
    NormalizeSteps("xmd", "xmd", "x", "x");
  }
}

=== FILE: name_matching.dfy ===
/** The name normaliser of src/lib/nameMatching.ts: a scraped name is turned
    into a comparison key by lower-casing, removing credential suffixes,
    removing single-letter initials, dropping periods and collapsing white
    space. Both regular expressions are written out as left-to-right
    scanners with the semantics of a JavaScript global `replace`: try a
    match at the current position; on success drop the matched text and
    resume right after it, otherwise keep one character and move on. */
module NameMatching {

  import opened Wrappers
  import opened Ascii
  import opened KeyedLists

  /** CREDENTIAL_SUFFIXES, in the order of the regex alternation (kept in
      the groups of the source's lines). */
  const CredentialSuffixes: seq<string> :=
    DegreesA + DegreesB + DegreesC + DegreesD + HrCertifications + TechCertifications + CloudCertifications

  const DegreesA: seq<string> := ["mba", "phd", "md", "jd", "cpa", "pmp", "cfa", "cfp", "esq", "pe", "rn"]
  const DegreesB: seq<string> := ["bs", "ba", "ms", "ma", "msc", "llm", "edd", "dba", "dmin", "psyd"]
  const DegreesC: seq<string> := ["pharmd", "dnp", "dpt", "do", "dds", "dmd", "od", "dc", "dpm", "drph"]
  const DegreesD: seq<string> := ["mph", "mha", "mpa", "msw", "lcsw", "lpc", "lmft"]
  const HrCertifications: seq<string> := ["shrm-cp", "shrm-scp", "sphr", "phr"]
  const TechCertifications: seq<string> := ["cissp", "pmi-acp", "csm", "six sigma", "ceh", "ccna", "ccnp"]
  const CloudCertifications: seq<string> := ["aws", "gcp", "azure"]

  /** `\b` at index `k` of `s`: exactly one of the characters around `k`
      is a word character. */
  predicate Boundary(s: string, k: nat)
    requires k <= |s|
  {
    (k > 0 && IsWordChar(s[k - 1])) != (k < |s| && IsWordChar(s[k]))
  }

  /** `tok\b` matches at the front of `s`. */
  predicate TokenAt(s: string, tok: string) {
    |tok| > 0 && StartsWith(s, tok) && Boundary(s, |tok|)
  }

  /** The alternation `(mba|phd|...)\b`: the first token in list order that
      matches at the front of `s`. */
  function FirstToken(s: string, toks: seq<string>): (r: Option<string>)
    ensures r.Some? ==> |r.value| > 0 && StartsWith(s, r.value)
  {
    if |toks| == 0 then None
    else if TokenAt(s, toks[0]) then Some(toks[0])
    else FirstToken(s, toks[1..])
  }

  /** The alternation semantics of FirstToken: the result is the token at
      the least index of `toks` that matches, and None means no token
      matches. */
  lemma {:induction false} FirstTokenIsFirstMatch(s: string, toks: seq<string>)
    ensures FirstToken(s, toks).None? <==> forall t :: t in toks ==> !TokenAt(s, t)
    ensures FirstToken(s, toks).Some? ==>
      exists i :: 0 <= i < |toks| && toks[i] == FirstToken(s, toks).value && TokenAt(s, toks[i])
                  && forall j :: 0 <= j < i ==> !TokenAt(s, toks[j])
  {
    if |toks| > 0 && !TokenAt(s, toks[0]) {
      FirstTokenIsFirstMatch(s, toks[1..]);
      if FirstToken(s, toks).Some? {
        var i :| 0 <= i < |toks[1..]| && toks[1..][i] == FirstToken(s, toks).value && TokenAt(s, toks[1..][i])
                 && forall j :: 0 <= j < i ==> !TokenAt(s, toks[1..][j]);
        assert toks[i + 1] == FirstToken(s, toks).value;
        forall j | 0 <= j < i + 1 ensures !TokenAt(s, toks[j]) {
          if j > 0 { assert toks[j] == toks[1..][j - 1]; }
        }
      }
      assert toks == [toks[0]] + toks[1..];
    } else if |toks| > 0 {
      assert toks[0] == FirstToken(s, toks).value;
    }
  }

  /** Number of white-space characters at the front of `s` (a greedy `\s*`). */
  function LeadingSpaces(s: string): (n: nat)
    ensures n <= |s|
    ensures forall i :: 0 <= i < n ==> IsSpace(s[i])
    ensures n < |s| ==> !IsSpace(s[n])
  {
    if |s| > 0 && IsSpace(s[0]) then 1 + LeadingSpaces(s[1..]) else 0
  }

  /** Length of the match of `,?\s*(tok1|tok2|...)\b` at the front of `s`,
      if any. Backtracking cannot find a different match: giving back the
      comma or some of the white space leaves a ',' or a white-space
      character where a token must start, and no token starts with either. */
  function CredentialMatch(s: string, toks: seq<string>): (r: Option<nat>)
    ensures r.Some? ==> 0 < r.value <= |s|
  {
    var c := if |s| > 0 && s[0] == ',' then 1 else 0;
    var w := c + LeadingSpaces(s[c..]);
    match FirstToken(s[w..], toks)
    case None => None
    case Some(tok) => Some(w + |tok|)
  }

  /** A global replace of the credential pattern built from `toks` by ''. */
  function StripCredentialsWith(s: string, toks: seq<string>): (r: string)
    ensures |r| <= |s|
    ensures forall c :: c in r ==> c in s
    decreases |s|
  {
    if |s| == 0 then ""
    else match CredentialMatch(s, toks)
      case Some(n) => StripCredentialsWith(s[n..], toks)
      case None => [s[0]] + StripCredentialsWith(s[1..], toks)
  }

  /** `.replace(CREDENTIAL_PATTERN, '')` */
  function StripCredentials(s: string): (r: string)
    ensures |r| <= |s|
    ensures forall c :: c in r ==> c in s
  {
    StripCredentialsWith(s, CredentialSuffixes)
  }

  /** Length of the match of `\b[a-z]\.\s*` (flag i) at the front of `s`,
      where `prevWord` says whether the character before `s` in the input
      is a word character (the look-behind of `\b` sees the input, not the
      output). */
  function InitialMatch(s: string, prevWord: bool): (r: Option<nat>)
    ensures r.Some? ==> 2 <= r.value <= |s|
  {
    if !prevWord && |s| >= 2 && IsLetter(s[0]) && s[1] == '.' then
      Some(2 + LeadingSpaces(s[2..]))
    else None
  }

  /** `.replace(/\b[a-z]\.\s*\/gi, '')`, continuing from a position whose
      preceding input character is a word character iff `prevWord`. */
  function StripInitialsFrom(s: string, prevWord: bool): (r: string)
    ensures |r| <= |s|
    ensures forall c :: c in r ==> c in s
    decreases |s|
  {
    if |s| == 0 then ""
    else match InitialMatch(s, prevWord)
      // the input character before the resumption point is '.' or white space
      case Some(n) => StripInitialsFrom(s[n..], false)
      case None => [s[0]] + StripInitialsFrom(s[1..], IsWordChar(s[0]))
  }

  function StripInitials(s: string): string {
    StripInitialsFrom(s, false)
  }

  /** `.replace(/\./g, '')` */
  function RemovePeriods(s: string): (r: string)
    ensures '.' !in r
    ensures |r| <= |s|
    ensures forall c :: c in r ==> c in s
  {
    if |s| == 0 then ""
    else if s[0] == '.' then RemovePeriods(s[1..])
    else [s[0]] + RemovePeriods(s[1..])
  }

  /** `.replace(/\s+/g, ' ')`: every maximal run of white space becomes one
      space. */
  function CollapseWhitespace(s: string): (r: string)
    ensures forall c :: c in r ==> c in s || c == ' '
    ensures forall i :: 0 <= i < |r| && IsSpace(r[i]) ==> r[i] == ' '
    ensures forall i :: 0 <= i < |r| - 1 ==> !(r[i] == ' ' && r[i + 1] == ' ')
    ensures |s| > 0 && !IsSpace(s[0]) ==> |r| > 0 && r[0] == s[0]
    ensures |s| > 0 && IsSpace(s[0]) ==> |r| > 0 && r[0] == ' '
    ensures |s| == 0 <==> |r| == 0
    decreases |s|
  {
    if |s| == 0 then ""
    else if IsSpace(s[0]) then
      var n := LeadingSpaces(s);
      " " + CollapseWhitespace(s[n..])
    else [s[0]] + CollapseWhitespace(s[1..])
  }

  /** What every normalised key looks like: no periods, no upper-case
      letters, no white space but single spaces, nothing at either end. */
  predicate IsKey(k: string) {
    && (forall i :: 0 <= i < |k| ==> k[i] != '.' && !IsUpper(k[i]))
    && (forall i :: 0 <= i < |k| ==> IsSpace(k[i]) ==> k[i] == ' ')
    && (forall i :: 0 <= i < |k| - 1 ==> !(k[i] == ' ' && k[i + 1] == ' '))
    && (|k| > 0 ==> k[0] != ' ' && k[|k| - 1] != ' ')
  }

  /** normalizeName: the comparison key of a name. */
  function Normalize(name: string): (r: string)
    ensures IsKey(r)
    ensures name == "" ==> r == ""
    ensures |r| <= |name|
  {
    if name == "" then ""
    else
      var collapsed := CollapseWhitespace(RemovePeriods(StripInitials(StripCredentials(Lower(name)))));
      CollapsedIsClean(name, collapsed);
      TrimKeepsKey(collapsed);
      Trim(collapsed)
  }

  lemma CollapsedIsClean(name: string, collapsed: string)
    requires collapsed == CollapseWhitespace(RemovePeriods(StripInitials(StripCredentials(Lower(name)))))
    ensures |collapsed| <= |name|
    ensures forall i :: 0 <= i < |collapsed| ==> collapsed[i] != '.' && !IsUpper(collapsed[i])
  {
    var lowered := Lower(name);
    var a := StripCredentials(lowered);
    var b := StripInitials(a);
    var c := RemovePeriods(b);
    assert forall ch :: ch in lowered ==> !IsUpper(ch);
    assert forall ch :: ch in c ==> ch != '.' && !IsUpper(ch);
    CollapseLength(c);
  }

  lemma CollapseLength(s: string)
    ensures |CollapseWhitespace(s)| <= |s|
    decreases |s|
  {
    if |s| > 0 {
      if IsSpace(s[0]) {
        CollapseLength(s[LeadingSpaces(s)..]);
      } else {
        CollapseLength(s[1..]);
      }
    }
  }

  lemma TrimKeepsKey(s: string)
    requires forall i :: 0 <= i < |s| ==> s[i] != '.' && !IsUpper(s[i])
    requires forall i :: 0 <= i < |s| && IsSpace(s[i]) ==> s[i] == ' '
    requires forall i :: 0 <= i < |s| - 1 ==> !(s[i] == ' ' && s[i + 1] == ' ')
    ensures IsKey(Trim(s))
  {
    TrimSpec(s);
    SliceKeepsCharFacts(s, |s| - |TrimStart(s)|, Trim(s));
  }

  lemma SliceKeepsCharFacts(s: string, k: nat, r: string)
    requires k + |r| <= |s| && r == s[k..k + |r|]
    requires forall i :: 0 <= i < |s| ==> s[i] != '.' && !IsUpper(s[i])
    requires forall i :: 0 <= i < |s| && IsSpace(s[i]) ==> s[i] == ' '
    requires forall i :: 0 <= i < |s| - 1 ==> !(s[i] == ' ' && s[i + 1] == ' ')
    ensures forall i :: 0 <= i < |r| ==> r[i] != '.' && !IsUpper(r[i])
    ensures forall i :: 0 <= i < |r| ==> IsSpace(r[i]) ==> r[i] == ' '
    ensures forall i :: 0 <= i < |r| - 1 ==> !(r[i] == ' ' && r[i + 1] == ' ')
  {
    assert forall i :: 0 <= i < |r| ==> r[i] == s[k + i];
  }

  // ---- comparing and reconciling lists of names ----

  /** namesMatch: two names are the same person when their keys agree. */
  predicate NamesMatch(a: string, b: string) {
    Normalize(a) == Normalize(b)
  }

  /** Matching ignores letter case: a name matches its lower-case form. */
  lemma NamesMatchIgnoresCase(name: string)
    ensures NamesMatch(name, Lower(name))
  {
    LowerIdempotent(name);
    assert name == "" <==> Lower(name) == "";
  }

  /** The keys of a list of names. */
  function KeySet(names: seq<string>): set<string> {
    Keys(Normalize, names)
  }

  /** nameExistsInArray: `Array.some` over the existing names. */
  function NameExistsInArray(name: string, existing: seq<string>): (r: bool)
    ensures r <==> exists i :: 0 <= i < |existing| && NamesMatch(existing[i], name)
    ensures r <==> Normalize(name) in KeySet(existing)
  {
    KeyIn(Normalize, name, existing)
  }

  /** findNewNames: the incoming names whose key is non-empty and unknown,
      in order and with repetitions kept. */
  function FindNewNames(incoming: seq<string>, existing: seq<string>): (r: seq<string>)
    ensures forall n :: n in r <==> n in incoming && Normalize(n) != "" && Normalize(n) !in KeySet(existing)
    ensures multiset(r) <= multiset(incoming)
  {
    FilterNew(Normalize, incoming, KeySet(existing))
  }

  /** Filtering a batch in two parts gives the same names as filtering it
      at once. */
  lemma FindNewNamesConcat(a: seq<string>, b: seq<string>, existing: seq<string>)
    ensures FindNewNames(a + b, existing) == FindNewNames(a, existing) + FindNewNames(b, existing)
  {
    FilterNewConcat(Normalize, a, b, KeySet(existing));
  }

  /** The result of mergeNames. */
  datatype MergeResult = MergeResult(merged: seq<string>, added: seq<string>, alreadyExisted: seq<string>)

  /** mergeNames: existing names first, then the names added. */
  function MergeNames(existing: seq<string>, incoming: seq<string>): (r: MergeResult)
    ensures r.merged == existing + r.added
    ensures forall n :: n in r.added ==> Normalize(n) != "" && Normalize(n) !in KeySet(existing)
    ensures DistinctKeys(Normalize, r.added)
    ensures forall n :: n in r.alreadyExisted ==> Normalize(n) in KeySet(r.merged)
    ensures KeySet(r.merged) == KeySet(existing) + (KeySet(incoming) - {""})
    ensures multiset(r.added) + multiset(r.alreadyExisted) == multiset(Named(Normalize, incoming))
    ensures IsSubsequence(r.added, Named(Normalize, incoming))
    ensures IsSubsequence(r.alreadyExisted, Named(Normalize, incoming))
    ensures r.added == FirstPerKey(Normalize, FindNewNames(incoming, existing), {})
  {
    var (added, already) := MergeFrom(Normalize, KeySet(existing), incoming);
    MergeFromIsFirstPerKey(Normalize, KeySet(existing), {}, incoming);
    assert KeySet(existing) + {} == KeySet(existing);
    MergeFromKeys(Normalize, KeySet(existing), incoming);
    MergeFromPartition(Normalize, KeySet(existing), incoming);
    MergeFromOrder(Normalize, KeySet(existing), incoming);
    KeysConcat(Normalize, existing, added);
    MergeResult(existing + added, added, already)
  }

  /** With no two incoming names for the same person, mergeNames adds
      exactly what findNewNames reports. */
  lemma MergeAddsNewNames(existing: seq<string>, incoming: seq<string>)
    requires DistinctKeys(Normalize, incoming)
    ensures MergeNames(existing, incoming).added == FindNewNames(incoming, existing)
  {
    MergeFromIsFilter(Normalize, KeySet(existing), incoming);
  }

  /** Merging the same names a second time adds nothing. */
  lemma MergeTwiceAddsNothing(existing: seq<string>, incoming: seq<string>)
    ensures var once := MergeNames(existing, incoming);
      MergeNames(once.merged, incoming) == MergeResult(once.merged, [], Named(Normalize, incoming))
  {
    var once := MergeNames(existing, incoming);
    MergeFromKnown(Normalize, KeySet(once.merged), incoming);
  }

  /** mergeNames adds the names findNewNames reports, except that of
      several incoming names for the same person only the first is added. */
  lemma MergeAddsFirstOfNewNames(existing: seq<string>, incoming: seq<string>)
    ensures MergeNames(existing, incoming).added == FirstPerKey(Normalize, FindNewNames(incoming, existing), {})
  {
    MergeFromIsFirstPerKey(Normalize, KeySet(existing), {}, incoming);
    assert KeySet(existing) + {} == KeySet(existing);
  }

  /** Merging no names changes nothing. */
  lemma MergeNothing(existing: seq<string>)
    ensures MergeNames(existing, []) == MergeResult(existing, [], [])
  {
    assert existing + [] == existing;
  }
}

=== FILE: pages.dfy ===
/** The page a content script runs on, as the parsers see it, and the job
    record they build from it.

    The DOM is abstract: `elements` maps a selector, written exactly as the
    code writes it (comma-separated selector lists included), to the
    elements it matches in document order, so `querySelectorAll` is a map
    lookup and `querySelector` its first element. The JSON-LD script blocks
    are given already parsed, None standing for a block `JSON.parse`
    rejects. */
module Pages {

  import opened Wrappers
  import opened Ascii
  import opened JsValues

  /** An element: its `textContent`, its `innerText`, its resolved `href`
      ("" when it has none) and its descendants as (selector, `textContent`)
      pairs in document order. */
  datatype Element = Element(text: string, innerText: string, href: string,
                             descendants: seq<(string, string)>)

  datatype Page = Page(
    hostname: string,
    pathname: string,
    search: string,
    href: string,
    elements: map<string, seq<Element>>,
    bodyText: string,
    scripts: seq<Option<Value>>)

  /** `document.querySelectorAll(sel)` */
  function All(page: Page, sel: string): seq<Element> {
    if sel in page.elements then page.elements[sel] else []
  }

  /** The text of the first pair from `i` on listed under `sel`. */
  function FirstListed(pairs: seq<(string, string)>, sel: string, i: nat): (r: Option<string>)
    requires i <= |pairs|
    ensures r.Some? <==> exists k :: i <= k < |pairs| && pairs[k].0 == sel
    ensures r.Some? ==> exists k :: (i <= k < |pairs| && pairs[k] == (sel, r.value)
      && forall m :: i <= m < k ==> pairs[m].0 != sel)
    decreases |pairs| - i
  {
    if i == |pairs| then None
    else if pairs[i].0 == sel then Some(pairs[i].1)
    else FirstListed(pairs, sel, i + 1)
  }

  /** `e.querySelector(sel)?.textContent`: the text of the first descendant
      matching `sel`. */
  function Descendant(e: Element, sel: string): Option<string> {
    FirstListed(e.descendants, sel, 0)
  }

  /** `document.querySelector(sel)`: the first element in document order. */
  function Query(page: Page, sel: string): (r: Option<Element>)
    ensures r.Some? <==> |All(page, sel)| > 0
    ensures r.Some? ==> r.value == All(page, sel)[0]
  {
    if |All(page, sel)| > 0 then Some(All(page, sel)[0]) else None
  }

  /** `s.substring(0, n)` */
  function Prefix(s: string, n: nat): (r: string)
    ensures |r| <= n && |r| <= |s|
    ensures |r| == n || |r| == |s|
    ensures r == s[..|r|]
  {
    if |s| <= n then s else s[..n]
  }

  /** `(e.innerText || e.textContent).trim().substring(0, 2000)`, the
      description every parser stores. */
  function DescriptionOf(e: Element): (r: string)
    ensures |r| <= 2000
    ensures e.innerText != "" ==> r == Prefix(Trim(e.innerText), 2000)
    ensures e.innerText == "" ==> r == Prefix(Trim(e.text), 2000)
  {
    Prefix(Trim(if e.innerText != "" then e.innerText else e.text), 2000)
  }

  /** The record the parsers return and the popup posts to the jobs
      endpoint. The fields are JavaScript values because the
      structured-data path copies whatever the page's JSON holds. */
  datatype Job = Job(
    jobTitle: Value,
    company: Value,
    location: Value,
    salary: Value,
    jobUrl: Value,
    jobDescription: Value,
    status: Value,
    notes: Value)

  const Interested: Value := Str("interested")

  /** A field set from a string or left null. */
  function OrNull(o: Option<string>): (r: Value)
    ensures o.None? <==> r == Null
    ensures o.Some? ==> r == Str(o.value)
  {
    match o
    case None => Null
    case Some(s) => Str(s)
  }

  /** The index of the first item from `i` on that satisfies `p`: the
      shape of every `for ... { if (...) { ...; break } }` search. */
  function FirstWhere<T>(xs: seq<T>, p: T -> bool, i: nat): (r: Option<nat>)
    requires i <= |xs|
    ensures r.Some? ==> i <= r.value < |xs| && p(xs[r.value])
    ensures r.Some? ==> forall k :: i <= k < r.value ==> !p(xs[k])
    ensures r.None? ==> forall k :: i <= k < |xs| ==> !p(xs[k])
    decreases |xs| - i
  {
    if i == |xs| then None
    else if p(xs[i]) then Some(i)
    else FirstWhere(xs, p, i + 1)
  }

  /** The first element matched by `sel` exists and its trimmed text
      passes `ok`. */
  predicate Accepts(page: Page, sel: string, ok: string -> bool) {
    Query(page, sel).Some? && ok(Trim(Query(page, sel).value.text))
  }

  /** The loop `for (sel of sels) { el = querySelector(sel); if (el && ok(el.textContent.trim())) {...; break} }`:
      the index of the first selector from `i` on that is accepted. */
  function FirstAccepted(page: Page, sels: seq<string>, ok: string -> bool, i: nat): (r: Option<nat>)
    requires i <= |sels|
    ensures r.Some? ==> i <= r.value < |sels| && Accepts(page, sels[r.value], ok)
    ensures r.Some? ==> forall j :: i <= j < r.value ==> !Accepts(page, sels[j], ok)
    ensures r.None? ==> forall j :: i <= j < |sels| ==> !Accepts(page, sels[j], ok)
  {
    FirstWhere(sels, sel => Accepts(page, sel, ok), i)
  }

  /** The trimmed text of the first accepted selector's element. */
  function FirstText(page: Page, sels: seq<string>, ok: string -> bool): (r: Option<string>)
    ensures r.Some? ==> ok(r.value)
    ensures r.Some? <==> exists j :: 0 <= j < |sels| && Accepts(page, sels[j], ok)
    ensures r.Some? ==> exists j :: (0 <= j < |sels| && Accepts(page, sels[j], ok)
      && (forall k :: 0 <= k < j ==> !Accepts(page, sels[k], ok))
      && r.value == Trim(Query(page, sels[j]).value.text))
  {
    match FirstAccepted(page, sels, ok, 0)
    case None => None
    case Some(j) => Some(Trim(Query(page, sels[j]).value.text))
  }

  /** The description of the first accepted selector's element, as the
      selector loops that fill `job_description` store it. */
  function FirstDescription(page: Page, sels: seq<string>, ok: string -> bool): (r: Option<string>)
    ensures r.Some? <==> exists j :: 0 <= j < |sels| && Accepts(page, sels[j], ok)
    ensures r.Some? ==> |r.value| <= 2000
    ensures r.Some? ==> exists j :: (0 <= j < |sels| && Accepts(page, sels[j], ok)
      && (forall k :: 0 <= k < j ==> !Accepts(page, sels[k], ok))
      && r.value == DescriptionOf(Query(page, sels[j]).value))
  {
    match FirstAccepted(page, sels, ok, 0)
    case None => None
    case Some(j) => Some(DescriptionOf(Query(page, sels[j]).value))
  }

  /** An element whose trimmed text passes `ok`. */
  predicate ItemOk(ok: string -> bool, e: Element) {
    ok(Trim(e.text))
  }

  /** Index of the first element from `i` on whose trimmed text passes
      `ok`, as in `for (el of querySelectorAll(sel)) { if (ok(el.textContent.trim())) {...; break} }`. */
  function FirstItemFrom(items: seq<Element>, ok: string -> bool, i: nat): (r: Option<nat>)
    requires i <= |items|
    ensures r.Some? ==> i <= r.value < |items| && ItemOk(ok, items[r.value])
    ensures r.Some? ==> forall k :: i <= k < r.value ==> !ItemOk(ok, items[k])
    ensures r.None? ==> forall k :: i <= k < |items| ==> !ItemOk(ok, items[k])
  {
    FirstWhere(items, e => ItemOk(ok, e), i)
  }

  /** The trimmed text of the first element that passes `ok`. */
  function FirstItem(items: seq<Element>, ok: string -> bool): (r: Option<string>)
    ensures r.Some? ==> ok(r.value)
    ensures r.Some? ==> exists j :: (0 <= j < |items| && r.value == Trim(items[j].text)
      && (forall k :: 0 <= k < j ==> !ItemOk(ok, items[k])))
    ensures r.None? <==> forall j :: 0 <= j < |items| ==> !ItemOk(ok, items[j])
  {
    match FirstItemFrom(items, ok, 0)
    case None => None
    case Some(j) => Some(Trim(items[j].text))
  }

  lemma {:induction false} FirstItemFromShift(items: seq<Element>, ok: string -> bool, i: nat)
    requires 1 <= i <= |items|
    ensures var r := FirstItemFrom(items, ok, i);
      var s := FirstItemFrom(items[1..], ok, i - 1);
      && (r.None? <==> s.None?)
      && (r.Some? ==> r.value == s.value + 1)
    decreases |items| - i
  {
    var tail := items[1..];
    if i == |items| {
      assert |tail| == i - 1;
    } else {
      assert tail[i - 1] == items[i];
      if ItemOk(ok, items[i]) {
        assert FirstItemFrom(items, ok, i) == Some(i);
        assert FirstItemFrom(tail, ok, i - 1) == Some(i - 1);
      } else {
        assert FirstItemFrom(items, ok, i) == FirstItemFrom(items, ok, i + 1);
        assert FirstItemFrom(tail, ok, i - 1) == FirstItemFrom(tail, ok, i);
        FirstItemFromShift(items, ok, i + 1);
      }
    }
  }

  /** The element loop, one step at a time: the first element decides, or
      the search goes on with the rest. */
  lemma FirstItemCons(items: seq<Element>, ok: string -> bool)
    requires |items| > 0
    ensures FirstItem(items, ok) ==
      if ItemOk(ok, items[0]) then Some(Trim(items[0].text)) else FirstItem(items[1..], ok)
  {
    if !ItemOk(ok, items[0]) {
      FirstItemFromShift(items, ok, 1);
      match FirstItemFrom(items[1..], ok, 0)
      case None =>
      case Some(j) => assert items[1..][j] == items[j + 1];
    }
  }
}

=== FILE: profile.dfy ===
/** The content script on LinkedIn profile pages: the profile's URL, name
    and headline, and the names of the mutual connections, gathered by four
    layered strategies; with the modal opened, a bounded wait for the modal
    and a bounded scroll loop.

    A page view is the abstract page of the job parsers: per selector, the
    matching elements in document order. The clock is replaced by the
    sequence of observations the loops make before their deadline. */
module Profile {

  import opened Wrappers
  import opened Ascii
  import opened Pages
  import KeyedLists

  // ---- URL, name, headline ----

  /** The current URL with `search` and `hash` cleared: everything before
      the first '?' or '#'. */
  function CleanUrl(href: string): (r: string)
    ensures |r| <= |href| && r == href[..|r|]
    ensures forall i :: 0 <= i < |r| ==> r[i] != '?' && r[i] != '#'
    ensures |r| < |href| ==> href[|r|] == '?' || href[|r|] == '#'
  {
    if |href| == 0 || href[0] == '?' || href[0] == '#' then ""
    else [href[0]] + CleanUrl(href[1..])
  }

  /** Clearing query and fragment twice is clearing them once. */
  lemma CleanUrlIdempotent(href: string)
    ensures CleanUrl(CleanUrl(href)) == CleanUrl(href)
  {
    CleanUrlOfClean(CleanUrl(href));
  }

  lemma {:induction false} CleanUrlOfClean(s: string)
    requires forall i :: 0 <= i < |s| ==> s[i] != '?' && s[i] != '#'
    ensures CleanUrl(s) == s
  {
    if |s| > 0 {
      CleanUrlOfClean(s[1..]);
    }
  }

  const CanonicalSelector: string := "link[rel=\"canonical\"]"

  /** The canonical link element has a non-empty `href`. */
  predicate HasCanonical(view: Page) {
    Query(view, CanonicalSelector).Some? && Query(view, CanonicalSelector).value.href != ""
  }

  /** getLinkedInUrl */
  function LinkedInUrl(view: Page): (r: string)
    ensures HasCanonical(view) ==> r == Query(view, CanonicalSelector).value.href
    ensures !HasCanonical(view) ==>
      && |r| <= |view.href| && r == view.href[..|r|] && !ContainsChar(r, '?') && !ContainsChar(r, '#')
      && (|r| < |view.href| ==> view.href[|r|] == '?' || view.href[|r|] == '#')
  {
    if HasCanonical(view) then Query(view, CanonicalSelector).value.href
    else CleanUrl(view.href)
  }

  const NameSelectors: seq<string> := [
    "h1.text-heading-xlarge", "h1[data-anonymize=\"person-name\"]",
    ".pv-top-card--list li:first-child", ".text-heading-xlarge"]

  /** The index of the first selector from `i` on that matches anything. */
  function FirstPresent(view: Page, sels: seq<string>, i: nat): (r: Option<nat>)
    requires i <= |sels|
    ensures r.Some? ==> i <= r.value < |sels| && Query(view, sels[r.value]).Some?
    ensures r.Some? ==> forall j :: i <= j < r.value ==> Query(view, sels[j]).None?
    ensures r.None? ==> forall j :: i <= j < |sels| ==> Query(view, sels[j]).None?
    decreases |sels| - i
  {
    if i == |sels| then None
    else if Query(view, sels[i]).Some? then Some(i)
    else FirstPresent(view, sels, i + 1)
  }

  /** getProfileName: the main heading, then the fallbacks, each taken as
      soon as its element exists — even when its text is blank. */
  function ProfileName(view: Page): (r: Option<string>)
    ensures r.None? <==> forall j :: 0 <= j < |NameSelectors| ==> Query(view, NameSelectors[j]).None?
    ensures r.Some? ==> exists j :: (0 <= j < |NameSelectors| && Query(view, NameSelectors[j]).Some?
      && (forall k :: 0 <= k < j ==> Query(view, NameSelectors[k]).None?)
      && r.value == Trim(Query(view, NameSelectors[j]).value.text))
  {
    match FirstPresent(view, NameSelectors, 0)
    case None => None
    case Some(j) => Some(Trim(Query(view, NameSelectors[j]).value.text))
  }

  const HeadlineSelector := ".text-body-medium.break-words"

  /** getProfileHeadline */
  function Headline(view: Page): (r: Option<string>)
    ensures r.Some? <==> Query(view, HeadlineSelector).Some?
    ensures r.Some? ==> r.value == Trim(Query(view, HeadlineSelector).value.text)
  {
    match Query(view, HeadlineSelector)
    case None => None
    case Some(e) => Some(Trim(e.text))
  }

  // ---- opening the modal ----

  const FacetLinkSelector := "a[href*=\"facetNetwork\"]"
  const MutualSectionSelector := "[data-test-id=\"mutual-connections\"]"

  /** Some facet-network link mentions "mutual" in any case. */
  predicate HasMutualLink(links: seq<Element>) {
    exists k :: 0 <= k < |links| && Contains(Lower(links[k].text), "mutual")
  }

  /** clickMutualConnectionsLink: whether a link was clicked — a
      facet-network link mentioning "mutual", else the first link inside
      the mutual-connections section. */
  function ClicksMutualLink(view: Page): (r: bool)
    ensures HasMutualLink(All(view, FacetLinkSelector)) ==> r
    ensures !HasMutualLink(All(view, FacetLinkSelector)) ==>
      (r <==> Query(view, MutualSectionSelector).Some? && Descendant(Query(view, MutualSectionSelector).value, "a").Some?)
  {
    HasMutualLink(All(view, FacetLinkSelector))
    || (Query(view, MutualSectionSelector).Some? && Descendant(Query(view, MutualSectionSelector).value, "a").Some?)
  }

  // ---- collecting names ----

  /** No empty name and no name twice. */
  predicate Clean(names: seq<string>) {
    && (forall k :: 0 <= k < |names| ==> names[k] != "")
    && (forall i, j :: 0 <= i < j < |names| ==> names[i] != names[j])
  }

  /** `names.forEach(name => { if (name && !connections.includes(name)) connections.push(name) })` */
  function AddNew(acc: seq<string>, names: seq<string>): (r: seq<string>)
    ensures |acc| <= |r| && r[..|acc|] == acc
    decreases |names|
  {
    if |names| == 0 then acc
    else
      var n := names[0];
      AddNew(if n != "" && n !in acc then acc + [n] else acc, names[1..])
  }

  /** Appending only names that are non-empty and new keeps the list clean,
      and the result holds exactly the old names and the non-empty new
      ones. */
  lemma {:induction false} AddNewSpec(acc: seq<string>, names: seq<string>)
    requires Clean(acc)
    ensures Clean(AddNew(acc, names))
    ensures forall x :: x in AddNew(acc, names) <==> x in acc || (x in names && x != "")
    decreases |names|
  {
    if |names| > 0 {
      var n := names[0];
      var next := if n != "" && n !in acc then acc + [n] else acc;
      assert Clean(next);
      AddNewSpec(next, names[1..]);
      assert forall x :: x in names <==> x == n || x in names[1..];
    }
  }

  /** The names appended come from `names`, in the order they appear
      there. */
  lemma {:induction false} AddNewOrder(acc: seq<string>, names: seq<string>)
    ensures KeyedLists.IsSubsequence(AddNew(acc, names)[|acc|..], names)
    decreases |names|
  {
    var r := AddNew(acc, names);
    if |names| == 0 {
      assert r[|acc|..] == [];
    } else {
      var n := names[0];
      var next := if n != "" && n !in acc then acc + [n] else acc;
      AddNewOrder(next, names[1..]);
      assert r == AddNew(next, names[1..]);
      if next == acc {
        assert r[|acc|..] == r[|next|..];
      } else {
        assert r[|acc|..] == [n] + r[|next|..];
        assert r[|acc|..][1..] == r[|next|..];
      }
    }
  }


  const ModalSelector := ".artdeco-modal [data-view-name=\"profile-component-entity\"] .entity-result__title-text a span[aria-hidden=\"true\"]"
  const SearchCardSelector := ".entity-result__title-text a span[aria-hidden=\"true\"]"
  const InlineButtonSelector := "[data-field=\"mutual_connections\"] .inline-show-more-text__button--small"
  const InlineContainerSelector := "[data-field=\"mutual_connections\"]"
  const PillSelector := ".pv-shared-connections-card a.app-aware-link"
  const NameSpanSelector := "span[aria-hidden=\"true\"]"

  /** The trimmed texts of the elements, in order. */
  function TrimmedTexts(items: seq<Element>): (r: seq<string>)
    ensures |r| == |items|
    ensures forall k :: 0 <= k < |items| ==> r[k] == Trim(items[k].text)
  {
    seq(|items|, k requires 0 <= k < |items| => Trim(items[k].text))
  }

  /** Strategy 4's candidates: the trimmed name span of each pill that has
      one. */
  function PillNames(items: seq<Element>): (r: seq<string>)
    ensures forall x :: x in r <==> exists k :: (0 <= k < |items| && Descendant(items[k], NameSpanSelector).Some?
      && x == Trim(Descendant(items[k], NameSpanSelector).value))
  {
    if |items| == 0 then []
    else
      var rest := PillNames(items[1..]);
      assert forall k :: 1 <= k < |items| ==> items[1..][k - 1] == items[k];
      if Descendant(items[0], NameSpanSelector).Some? then [Trim(Descendant(items[0], NameSpanSelector).value)] + rest
      else rest
  }

  /** A pill after the others contributes its name after theirs: the names
      come out in document order. */
  lemma {:induction false} PillNamesSnoc(items: seq<Element>, e: Element)
    ensures PillNames([]) == []
    ensures Descendant(e, NameSpanSelector).Some? ==>
      PillNames(items + [e]) == PillNames(items) + [Trim(Descendant(e, NameSpanSelector).value)]
    ensures Descendant(e, NameSpanSelector).None? ==> PillNames(items + [e]) == PillNames(items)
    decreases |items|
  {
    if |items| == 0 {
      assert items + [e] == [e];
      assert [e][1..] == [];
    } else {
      assert (items + [e])[0] == items[0];
      assert (items + [e])[1..] == items[1..] + [e];
      PillNamesSnoc(items[1..], e);
    }
  }

  // ---- strategy 3: the first run of "Cap Cap" name pairs ----

  /** Length of the run of lower-case letters at `i`. */
  function LowerRun(s: string, i: nat): (n: nat)
    requires i <= |s|
    ensures i + n <= |s|
    ensures forall k :: i <= k < i + n ==> IsLower(s[k])
    ensures i + n == |s| || !IsLower(s[i + n])
    decreases |s| - i
  {
    if i < |s| && IsLower(s[i]) then 1 + LowerRun(s, i + 1) else 0
  }

  /** `[A-Z][a-z]+` at `i`: where it ends. Greedy, and nothing after it can
      be a lower-case letter, so the regex never backtracks into it. */
  function WordEnd(s: string, i: nat): (r: Option<nat>)
    requires i <= |s|
    ensures r.Some? ==> i + 2 <= r.value <= |s|
  {
    if i < |s| && IsUpper(s[i]) && LowerRun(s, i + 1) > 0 then Some(i + 1 + LowerRun(s, i + 1)) else None
  }

  /** `[A-Z][a-z]+ [A-Z][a-z]+` at `p`: where it ends. */
  function PairEnd(s: string, p: nat): (r: Option<nat>)
    requires p <= |s|
    ensures r.Some? ==> p + 5 <= r.value <= |s|
  {
    match WordEnd(s, p)
    case None => None
    case Some(q) =>
      if q < |s| && s[q] == ' ' then WordEnd(s, q + 1) else None
  }

  /** Another ", " and pair follow position `e`. */
  predicate Continues(s: string, e: nat)
    requires e <= |s|
  {
    e + 2 <= |s| && s[e] == ',' && s[e + 1] == ' ' && PairEnd(s, e + 2).Some?
  }

  /** `(?:, [A-Z][a-z]+ [A-Z][a-z]+)*` after a pair ending at `e`, as many
      repetitions as fit: where the match ends. */
  function PairsEnd(s: string, e: nat): (r: nat)
    requires e <= |s|
    ensures e <= r <= |s|
    decreases |s| - e
  {
    if Continues(s, e) then
      PairsEnd(s, PairEnd(s, e + 2).value)
    else e
  }

  /** The leftmost position from `p` on where a pair starts. */
  function FirstPair(s: string, p: nat): (r: Option<nat>)
    requires p <= |s|
    ensures r.Some? ==> p <= r.value <= |s| && PairEnd(s, r.value).Some?
    ensures r.Some? ==> forall q :: p <= q < r.value ==> PairEnd(s, q).None?
    ensures r.None? ==> forall q :: p <= q <= |s| ==> PairEnd(s, q).None?
    decreases |s| - p
  {
    if PairEnd(s, p).Some? then Some(p)
    else if p == |s| then None
    else FirstPair(s, p + 1)
  }

  /** The names of the pairs from `p` on, one per pair, as long as the run
      continues. */
  function PairNames(s: string, p: nat): (r: seq<string>)
    requires p <= |s| && PairEnd(s, p).Some?
    ensures |r| > 0
    decreases |s| - p
  {
    var e := PairEnd(s, p).value;
    if Continues(s, e) then
      [s[p..e]] + PairNames(s, e + 2)
    else [s[p..e]]
  }

  /** The pair names are exactly the pieces of the matched text between
      its ", " separators: joined back they give the match. */
  lemma {:induction false} PairNamesJoin(s: string, p: nat)
    requires p <= |s| && PairEnd(s, p).Some?
    ensures Join(PairNames(s, p), ", ") == s[p..PairsEnd(s, PairEnd(s, p).value)]
    decreases |s| - p
  {
    var e := PairEnd(s, p).value;
    PairStep(s, p);
    if Continues(s, e) {
      var end := PairsEnd(s, e);
      PairNamesJoin(s, e + 2);
      var rest := PairNames(s, e + 2);
      JoinCons(s[p..e], rest, ", ");
      SliceSplit(s, p, e, end);
    }
  }

  /** One pair of the run: its name, and where the run goes on. */
  lemma PairStep(s: string, p: nat)
    requires p <= |s| && PairEnd(s, p).Some?
    ensures var e := PairEnd(s, p).value;
      && (Continues(s, e) ==>
            && PairNames(s, p) == [s[p..e]] + PairNames(s, e + 2)
            && PairsEnd(s, e) == PairsEnd(s, PairEnd(s, e + 2).value)
            && PairsEnd(s, PairEnd(s, e + 2).value) >= e + 2)
      && (!Continues(s, e) ==> PairNames(s, p) == [s[p..e]] && PairsEnd(s, e) == e)
  {}

  lemma JoinCons(head: string, rest: seq<string>, sep: string)
    requires |rest| > 0
    ensures Join([head] + rest, sep) == head + sep + Join(rest, sep)
  {
    assert ([head] + rest)[1..] == rest;
  }

  lemma SliceSplit(s: string, p: nat, e: nat, end: nat)
    requires p <= e && e + 2 <= end <= |s| && s[e] == ',' && s[e + 1] == ' '
    ensures s[p..end] == s[p..e] + ", " + s[e + 2..end]
  {
    assert s[e..e + 2] == ", ";
    assert s[p..end] == s[p..e] + s[e..e + 2] + s[e + 2..end];
  }

  /** A pair name is unpadded and has no comma, so the `split(', ')` of the
      match yields exactly the pair names, and trimming one changes
      nothing. */
  lemma PairNameShape(s: string, p: nat)
    requires p <= |s| && PairEnd(s, p).Some?
    ensures var n := s[p..PairEnd(s, p).value];
      Unpadded(n) && Trim(n) == n && !ContainsChar(n, ',')
  {
    var e := PairEnd(s, p).value;
    var q := WordEnd(s, p).value;
    var n := s[p..e];
    assert IsUpper(n[0]);
    assert IsLower(s[e - 1]);
    assert n[|n| - 1] == s[e - 1];
    forall k | 0 <= k < |n| ensures n[k] != ',' {
      assert n[k] == s[p + k];
      if p + k < q {
        assert p + k == p || IsLower(s[p + k]);
      } else if p + k > q {
        assert IsLower(s[p + k]) || p + k == q + 1;
      }
    }
    TrimOfUnpadded(n);
  }

  /** `text.match(/([A-Z][a-z]+ [A-Z][a-z]+(?:, [A-Z][a-z]+ [A-Z][a-z]+)*)/)`
      followed by `split(', ')`: the names of the leftmost run, or none. */
  function InlineNames(text: string): (r: seq<string>)
    ensures FirstPair(text, 0).None? ==> r == []
    ensures FirstPair(text, 0).Some? ==> r == PairNames(text, FirstPair(text, 0).value)
  {
    match FirstPair(text, 0)
    case None => []
    case Some(p) => PairNames(text, p)
  }

  /** extractMutualConnections */
  function ExtractMutualConnections(view: Page): (r: seq<string>)
  {
    var modal := All(view, ModalSelector);
    var cards := All(view, SearchCardSelector);
    if |modal| > 0 then AddNew([], TrimmedTexts(modal))
    else if |cards| > 0 then AddNew([], TrimmedTexts(cards))
    else
      var inline :=
        if |All(view, InlineButtonSelector)| > 0 && Query(view, InlineContainerSelector).Some? then
          InlineNames(Query(view, InlineContainerSelector).value.text)
        else [];
      AddNew(AddNew([], inline), PillNames(All(view, PillSelector)))
  }

  /** The names found never include "" or the same name twice. */
  lemma ExtractedAreClean(view: Page)
    ensures Clean(ExtractMutualConnections(view))
  {
    var modal := All(view, ModalSelector);
    var cards := All(view, SearchCardSelector);
    if |modal| > 0 {
      AddNewSpec([], TrimmedTexts(modal));
    } else if |cards| > 0 {
      AddNewSpec([], TrimmedTexts(cards));
    } else {
      var inline :=
        if |All(view, InlineButtonSelector)| > 0 && Query(view, InlineContainerSelector).Some? then
          InlineNames(Query(view, InlineContainerSelector).value.text)
        else [];
      AddNewSpec([], inline);
      AddNewSpec(AddNew([], inline), PillNames(All(view, PillSelector)));
    }
  }

  /** Strategies 1 and 2 commit once their selector matches: the names are
      exactly the non-empty trimmed texts of those elements, whatever the
      other strategies would have found — possibly none at all. */
  lemma FirstStrategiesCommit(view: Page)
    requires |All(view, ModalSelector)| > 0 || |All(view, SearchCardSelector)| > 0
    ensures var items := if |All(view, ModalSelector)| > 0 then All(view, ModalSelector) else All(view, SearchCardSelector);
      forall x :: x in ExtractMutualConnections(view) <==>
        x != "" && exists k :: 0 <= k < |items| && x == Trim(items[k].text)
  {
    var items := if |All(view, ModalSelector)| > 0 then All(view, ModalSelector) else All(view, SearchCardSelector);
    AddNewSpec([], TrimmedTexts(items));
    TrimmedTextsMembers(items);
  }

  lemma TrimmedTextsMembers(items: seq<Element>)
    ensures forall x :: x in TrimmedTexts(items) <==> exists k :: 0 <= k < |items| && x == Trim(items[k].text)
  {
    forall x | x in TrimmedTexts(items) ensures exists k :: 0 <= k < |items| && x == Trim(items[k].text) {
      var k :| 0 <= k < |items| && TrimmedTexts(items)[k] == x;
    }
  }

  /** Otherwise strategies 3 and 4 both contribute: the inline names and
      then the pill names, the latter only where new. */
  lemma LastStrategiesCombine(view: Page)
    requires |All(view, ModalSelector)| == 0 && |All(view, SearchCardSelector)| == 0
    ensures var inline :=
        if |All(view, InlineButtonSelector)| > 0 && Query(view, InlineContainerSelector).Some? then
          InlineNames(Query(view, InlineContainerSelector).value.text)
        else [];
      var r := ExtractMutualConnections(view);
      && r[..|AddNew([], inline)|] == AddNew([], inline)
      && forall x :: x in r <==> x != "" && (x in inline || x in PillNames(All(view, PillSelector)))
  {
    var inline :=
      if |All(view, InlineButtonSelector)| > 0 && Query(view, InlineContainerSelector).Some? then
        InlineNames(Query(view, InlineContainerSelector).value.text)
      else [];
    AddNewSpec([], inline);
    AddNewSpec(AddNew([], inline), PillNames(All(view, PillSelector)));
  }

  // ---- the two loops ----

  const ModalOpenSelector := ".artdeco-modal"
  const ModalContentSelector := ".artdeco-modal__content"

  /** One pass of the wait loop before the deadline: whether the modal was
      open, and the view after the 500 ms pause that follows seeing it. */
  datatype Poll<V> = Poll(modalOpen: bool, view: V)

  /** The pass succeeds: the modal was open and names were found. */
  predicate Found<V>(p: Poll<V>, extract: V -> seq<string>) {
    p.modalOpen && |extract(p.view)| > 0
  }

  /** extractMutualConnectionsFromModal: `polls` are the passes that fit
      before the deadline, `late` the view once it has passed, and
      `extract` the name extraction each pass runs. */
  function ModalWait<V>(polls: seq<Poll<V>>, late: V, extract: V -> seq<string>): (r: seq<string>)
    ensures (exists i :: 0 <= i < |polls| && Found(polls[i], extract)) ==> |r| > 0
    ensures (forall i :: 0 <= i < |polls| ==> !Found(polls[i], extract)) ==> r == extract(late)
    ensures forall i :: (0 <= i < |polls| && Found(polls[i], extract)
      && (forall j :: 0 <= j < i ==> !Found(polls[j], extract))) ==> r == extract(polls[i].view)
  {
    match FirstWhere(polls, p => Found(p, extract), 0)
    case None => extract(late)
    case Some(i) => extract(polls[i].view)
  }

  /** The height the loop compares with at step `k`: 0 before the first
      step, the previous height after. */
  function PreviousHeight(heightAt: nat -> nat, k: nat): nat {
    if k == 0 then 0 else heightAt(k - 1)
  }

  /** Step `k` saw a height different from the one before it. */
  predicate Grew(heightAt: nat -> nat, k: nat) {
    heightAt(k) != PreviousHeight(heightAt, k)
  }

  /** scrollModalToLoadAll: the number of scrolls made. `heightAt(k)` is
      the content's `scrollHeight` when step `k` begins. */
  method ScrollModal(contentPresent: bool, heightAt: nat -> nat, maxScrolls: nat) returns (count: nat)
    ensures count <= maxScrolls
    ensures !contentPresent ==> count == 0
    ensures forall k :: 0 <= k < count ==> Grew(heightAt, k)
    ensures contentPresent && count < maxScrolls ==> !Grew(heightAt, count)
  {
    count := 0;
    if !contentPresent {
      return;
    }
    var previous := 0;
    while count < maxScrolls
      invariant count <= maxScrolls
      invariant previous == PreviousHeight(heightAt, count)
      invariant forall k :: 0 <= k < count ==> Grew(heightAt, k)
      decreases maxScrolls - count
    {
      var current := heightAt(count);
      if current == previous {
        break;
      }
      previous := current;
      count := count + 1;
    }
  }

  // ---- getProfileData ----

  datatype ProfileData = ProfileData(
    linkedinUrl: string,
    name: Option<string>,
    headline: Option<string>,
    mutualConnections: seq<string>)

  /** getProfileData(openModal). `view` is the page when called; with the
      modal opened, `polls` and `afterWait` are what the wait sees,
      `heightAt` what the scroll loop sees, and `afterScroll` the page the
      names are finally read from. */
  method GetProfileData(openModal: bool, view: Page, polls: seq<Poll<Page>>, afterWait: Page,
                        heightAt: nat -> nat, afterScroll: Page) returns (data: ProfileData)
    ensures data.linkedinUrl == LinkedInUrl(view)
    ensures data.name == ProfileName(view) && data.headline == Headline(view)
    ensures !openModal ==> data.mutualConnections == ExtractMutualConnections(view)
    ensures openModal && !ClicksMutualLink(view) ==> data.mutualConnections == []
    ensures openModal && ClicksMutualLink(view) ==> data.mutualConnections == ExtractMutualConnections(afterScroll)
    ensures Clean(data.mutualConnections)
  {
    data := ProfileData(LinkedInUrl(view), ProfileName(view), Headline(view), []);
    if openModal {
      if ClicksMutualLink(view) {
        var waited := ModalWait(polls, afterWait, ExtractMutualConnections);
        data := data.(mutualConnections := waited);
        var _ := ScrollModal(Query(afterWait, ModalContentSelector).Some?, heightAt, 20);
        data := data.(mutualConnections := ExtractMutualConnections(afterScroll));
        ExtractedAreClean(afterScroll);
      }
    } else {
      data := data.(mutualConnections := ExtractMutualConnections(view));
      ExtractedAreClean(view);
    }
  }
}

=== FILE: sync_connections.dfy ===
/** The extension's sync-connections endpoint: it finds the contact whose
    stored LinkedIn URL matches the profile being viewed and merges the
    mutual connections scraped from that profile into the contact's stored
    list, writing back only when something new was found.

    The request, the configured key and the two database calls are
    parameters: `lookup` stands for the contacts query (given the
    normalised URL and the username it filters on) and `update` for the
    write. */
module SyncConnections {

  import opened Wrappers
  import opened Ascii
  import opened JsValues
  import opened KeyedLists
  import opened ExtensionApi
  import opened NameMatching

  /** The selected columns of a contact row. */
  datatype ContactRow = ContactRow(id: string, name: string, mutualConnections: Option<seq<string>>)

  /** `contact.mutual_connections || []` */
  function Stored(c: ContactRow): seq<string> {
    c.mutualConnections.GetOr([])
  }

  datatype SyncResponse =
    | Unauthorized
    | MissingUrl
    | NotAnArray
    | LookupError
    | ContactNotFound
    | UpdateError
    | InternalError
    | Synced(contactId: string, contactName: string, added: seq<string>,
             alreadyExisted: seq<string>, totalConnections: nat)
  {
    function Status(): int {
      if Unauthorized? then 401
      else if MissingUrl? || NotAnArray? then 400
      else if ContactNotFound? then 404
      else if Synced? then 200
      else 500
    }
  }

  /** The response, and the update issued on the way (contact id and the
      list written), if any. */
  datatype SyncOutcome = SyncOutcome(response: SyncResponse, write: Option<(string, seq<string>)>)

  /** Result of the checks that run before the database is consulted. */
  datatype Validated = Rejected(response: SyncResponse) | Valid(url: string, items: seq<Value>)

  /** The request checks, in source order: API key (401), body (a body that
      is not JSON, or is null, throws: 500), linkedin_url present (400),
      mutual_connections an array (400), and linkedin_url a string (a
      non-string makes normalizeLinkedInUrl throw: 500). */
  function Validate(req: Request, configuredKey: Option<string>): (v: Validated)
    ensures (v.Rejected? && v.response.Status() == 401) <==> !ApiKeyAccepted(req.apiKey, configuredKey)
    ensures v.Rejected? ==> v.response.Unauthorized? || v.response.MissingUrl? || v.response.NotAnArray? || v.response.InternalError?
    ensures v == Rejected(MissingUrl) <==>
      && ApiKeyAccepted(req.apiKey, configuredKey)
      && req.body.Some? && Get(req.body.value, "linkedin_url").Some?
      && !Truthy(Field(req.body.value, "linkedin_url"))
    ensures v == Rejected(NotAnArray) <==>
      && ApiKeyAccepted(req.apiKey, configuredKey)
      && req.body.Some? && Get(req.body.value, "linkedin_url").Some?
      && Truthy(Field(req.body.value, "linkedin_url"))
      && !Field(req.body.value, "mutual_connections").Arr?
    ensures v.Valid? ==>
      && ApiKeyAccepted(req.apiKey, configuredKey)
      && req.body.Some?
      && Field(req.body.value, "linkedin_url") == Str(v.url) && v.url != ""
      && Field(req.body.value, "mutual_connections") == Arr(v.items)
    ensures v.Valid? <==>
      && ApiKeyAccepted(req.apiKey, configuredKey)
      && req.body.Some? && Get(req.body.value, "linkedin_url").Some?
      && NonEmptyStr(Field(req.body.value, "linkedin_url"))
      && Field(req.body.value, "mutual_connections").Arr?
    ensures v == Rejected(InternalError) <==>
      && ApiKeyAccepted(req.apiKey, configuredKey)
      && (|| req.body.None? || Get(req.body.value, "linkedin_url").None?
          || (&& Truthy(Field(req.body.value, "linkedin_url"))
              && Field(req.body.value, "mutual_connections").Arr?
              && !Field(req.body.value, "linkedin_url").Str?))
  {
    if !ApiKeyAccepted(req.apiKey, configuredKey) then Rejected(Unauthorized)
    else if req.body.None? || Get(req.body.value, "linkedin_url").None? then Rejected(InternalError)
    else
      var url := Field(req.body.value, "linkedin_url");
      var mutual := Field(req.body.value, "mutual_connections");
      if !Truthy(url) then Rejected(MissingUrl)
      else if !mutual.Arr? then Rejected(NotAnArray)
      else if !url.Str? then Rejected(InternalError)
      else Valid(url.s, mutual.items)
  }

  /** The scraped list as mergeNames receives it. normalizeName throws on a
      truthy non-string (None); a falsy non-string normalises to the empty
      key and is skipped by mergeNames, so it is dropped here. */
  function IncomingNames(items: seq<Value>): (r: Option<seq<string>>)
    ensures r.None? <==> exists i :: 0 <= i < |items| && Truthy(items[i]) && !items[i].Str?
    ensures r.Some? ==> forall n :: n in r.value <==> Str(n) in items
    ensures r.Some? ==> |r.value| <= |items|
  {
    if |items| == 0 then Some([])
    else
      var rest := IncomingNames(items[1..]);
      assert forall i :: 1 <= i < |items| ==> items[i] == items[1..][i - 1];
      assert forall v :: v in items <==> v == items[0] || v in items[1..];
      if Truthy(items[0]) && !items[0].Str? then None
      else if rest.None? then None
      else if items[0].Str? then Some([items[0].s] + rest.value)
      else rest
  }

  /** IncomingNames read from the other end: a string appended to the list
      is appended to the names, a falsy non-string adds nothing, and a
      truthy non-string makes the whole list throw. Together with the empty
      list this fixes the order and the repeats mergeNames is handed. */
  lemma {:induction false} IncomingNamesSnoc(items: seq<Value>, v: Value)
    ensures IncomingNames([]) == Some([])
    ensures IncomingNames(items).Some? && v.Str? ==>
      IncomingNames(items + [v]) == Some(IncomingNames(items).value + [v.s])
    ensures !Truthy(v) && !v.Str? ==> IncomingNames(items + [v]) == IncomingNames(items)
    ensures Truthy(v) && !v.Str? ==> IncomingNames(items + [v]).None?
    decreases |items|
  {
    if |items| == 0 {
      assert items + [v] == [v];
      assert [v][1..] == [];
      assert IncomingNames([]) == Some([]);
      if v.Str? {
        assert [v.s] + [] == [] + [v.s];
      }
    } else {
      assert (items + [v])[0] == items[0];
      assert (items + [v])[1..] == items[1..] + [v];
      IncomingNamesSnoc(items[1..], v);
      var rest := IncomingNames(items[1..]);
      if rest.Some? && v.Str? && items[0].Str? {
        assert [items[0].s] + (rest.value + [v.s]) == ([items[0].s] + rest.value) + [v.s];
      }
    }
  }

  /** Everything after the contact has been found: merge, and write back
      only when mergeNames added a name. */
  function Reconcile(contact: ContactRow, items: seq<Value>,
                     update: (string, seq<string>) -> Option<DbError>): (o: SyncOutcome)
    ensures IncomingNames(items).None? ==> o == SyncOutcome(InternalError, None)
    ensures o.response.InternalError? <==> IncomingNames(items).None?
    ensures o.write.Some? ==> IncomingNames(items).Some? && o.write.value.0 == contact.id
    ensures o.write.Some? ==> o.write.value.1 == MergeNames(Stored(contact), IncomingNames(items).value).merged
    ensures o.response.Synced? ==>
      var m := MergeNames(Stored(contact), IncomingNames(items).value);
      && o.response.contactId == contact.id && o.response.contactName == contact.name
      && o.response.added == m.added && o.response.alreadyExisted == m.alreadyExisted
      && o.response.totalConnections == |Stored(contact)| + |m.added|
    ensures IncomingNames(items).Some? ==>
      (o.write.None? <==> MergeNames(Stored(contact), IncomingNames(items).value).added == [])
    ensures o.response.UpdateError? <==> o.write.Some? && update(o.write.value.0, o.write.value.1).Some?
    ensures o.response.InternalError? || o.response.UpdateError? || o.response.Synced?
  {
    match IncomingNames(items)
    case None => SyncOutcome(InternalError, None)
    case Some(names) =>
      var existing := Stored(contact);
      var m := MergeNames(existing, names);
      if |m.added| == 0 then
        SyncOutcome(Synced(contact.id, contact.name, [], m.alreadyExisted, |existing|), None)
      else if update(contact.id, m.merged).Some? then
        SyncOutcome(UpdateError, Some((contact.id, m.merged)))
      else
        SyncOutcome(Synced(contact.id, contact.name, m.added, m.alreadyExisted, |m.merged|),
                    Some((contact.id, m.merged)))
  }

  /** The write-back never drops or reorders a stored connection, and it is
      issued exactly when some scraped name matches no stored one; what it
      adds are the keys of the scraped names that were missing. */
  lemma ReconcileWritesOnlyNewNames(contact: ContactRow, items: seq<Value>,
                                    update: (string, seq<string>) -> Option<DbError>)
    requires IncomingNames(items).Some?
    ensures var o := Reconcile(contact, items, update);
      var names := IncomingNames(items).value;
      && (o.write.None? <==> KeySet(names) - {""} <= KeySet(Stored(contact)))
      && (o.write.Some? ==>
            var w := o.write.value.1;
            && |Stored(contact)| < |w| && w[..|Stored(contact)|] == Stored(contact)
            && KeySet(w) == KeySet(Stored(contact)) + (KeySet(names) - {""}))
  {
    var names := IncomingNames(items).value;
    var m := MergeNames(Stored(contact), names);
    NothingAddedIffKnown(Stored(contact), names);
    assert m.merged[..|Stored(contact)|] == Stored(contact);
  }

  /** mergeNames adds nothing exactly when every non-empty incoming key is
      already a key of the existing list. */
  lemma NothingAddedIffKnown(existing: seq<string>, incoming: seq<string>)
    ensures MergeNames(existing, incoming).added == [] <==> KeySet(incoming) - {""} <= KeySet(existing)
  {
    var m := MergeNames(existing, incoming);
    if m.added == [] {
      assert m.merged == existing;
    } else {
      assert Normalize(m.added[0]) in KeySet(m.merged);
      assert Normalize(m.added[0]) !in KeySet(existing);
    }
  }

  /** POST /api/extension/sync-connections */
  function Sync(req: Request, configuredKey: Option<string>,
                parse: string -> Option<string>,
                lookup: (string, string) -> DbResult<ContactRow>,
                update: (string, seq<string>) -> Option<DbError>): (o: SyncOutcome)
    ensures o.response.Unauthorized? <==> !ApiKeyAccepted(req.apiKey, configuredKey)
    ensures (o.response.MissingUrl? || o.response.NotAnArray?) <==>
      Validate(req, configuredKey).Rejected? && Validate(req, configuredKey).response.Status() == 400
    ensures o.response.ContactNotFound? || o.write.Some? || o.response.Synced? ==>
      && Validate(req, configuredKey).Valid?
      && var url := Validate(req, configuredKey).url;
         var res := lookup(NormalizeLinkedInUrl(url, parse), ExtractUsername(url));
         !LookupFailed(res) && (o.response.ContactNotFound? <==> res.row.None?)
    ensures o.write.Some? ==> o.response.Synced? || o.response == UpdateError
    ensures Validate(req, configuredKey).Rejected? ==> o == SyncOutcome(Validate(req, configuredKey).response, None)
    ensures Validate(req, configuredKey).Valid? ==>
      var v := Validate(req, configuredKey);
      var res := lookup(NormalizeLinkedInUrl(v.url, parse), ExtractUsername(v.url));
      && (LookupFailed(res) ==> o == SyncOutcome(LookupError, None))
      && (!LookupFailed(res) && res.row.None? ==> o == SyncOutcome(ContactNotFound, None))
      && (!LookupFailed(res) && res.row.Some? ==> o == Reconcile(res.row.value, v.items, update))
  {
    match Validate(req, configuredKey)
    case Rejected(resp) => SyncOutcome(resp, None)
    case Valid(url, items) =>
      var res := lookup(NormalizeLinkedInUrl(url, parse), ExtractUsername(url));
      if LookupFailed(res) then SyncOutcome(LookupError, None)
      else if res.row.None? then SyncOutcome(ContactNotFound, None)
      else
        Reconcile(res.row.value, items, update)
  }

  /** Once a sync has written, sending the same request again — with the
      lookup now returning the contact with the written list — writes
      nothing and reports no additions and the same total. */
  lemma ResyncWritesNothing(req: Request, configuredKey: Option<string>,
                            parse: string -> Option<string>,
                            lookup: (string, string) -> DbResult<ContactRow>,
                            lookup': (string, string) -> DbResult<ContactRow>,
                            update: (string, seq<string>) -> Option<DbError>)
    requires Sync(req, configuredKey, parse, lookup, update).response.Synced?
    requires Sync(req, configuredKey, parse, lookup, update).write.Some?
    requires var url := Validate(req, configuredKey).url;
      var key := (NormalizeLinkedInUrl(url, parse), ExtractUsername(url));
      var c := lookup(key.0, key.1).row.value;
      lookup'(key.0, key.1) ==
        DbResult(Some(c.(mutualConnections := Some(Sync(req, configuredKey, parse, lookup, update).write.value.1))), None)
    ensures var first := Sync(req, configuredKey, parse, lookup, update);
      var again := Sync(req, configuredKey, parse, lookup', update);
      && again.write.None?
      && again.response.Synced? && again.response.added == []
      && again.response.totalConnections == first.response.totalConnections
  {
    var url := Validate(req, configuredKey).url;
    var items := Validate(req, configuredKey).items;
    var c := lookup(NormalizeLinkedInUrl(url, parse), ExtractUsername(url)).row.value;
    var names := IncomingNames(items).value;
    MergeTwiceAddsNothing(Stored(c), names);
  }
}

=== FILE: wrappers.dfy ===
/** Optional values, used wherever the modelled JavaScript has `null`,
    `undefined` or "not found" as a normal outcome. */
module Wrappers {

  datatype Option<+T> = None | Some(value: T) {

    /** Returns the value held in Some or a default value if None */
    function GetOr(default: T): T {
      match this
      case Some(v) => v
      case None => default
    }
  }
}
